=== FILE: README.md ===
# Attendance pipeline — a Dafny model

This project models the core of a geofence-based attendance system. A
location sample from a phone goes in. The server decides whether the user
has entered or left a geofence of their company, and writes zero or one
ENTER/EXIT attendance row.

Around that decision the model also covers:

- the two working-window policies: the strict one of the attendance routes
  and the permissive one of the location controller;
- the `HH:MM` time grammar of the geofence schema;
- the aggregations over stored attendance rows: the work-session duration,
  the daily summary, the "currently inside" status and the paged history;
- the pagination arithmetic shared by the list endpoints;
- the mobile client's offline location queue and its on-device
  enter/exit edge detector with its list maintenance;
- the client-side validators and duration formatter;
- the admin geofence controller: the polygon-to-WKT serialiser and the
  authorisation ladders of create and delete;
- the geofence routes: schema validation, soft delete and active-only listing.

Every database query, the clock, local-time conversion, the haversine
distance and the upload endpoint's verdicts are inputs to pure functions.
Collections are sequences, times are integers (epoch milliseconds or minutes
of the day), and JavaScript's loose semantics are written out where they
matter. Examples are `!latitude` rejecting 0, `Number("")` being 0, and `%`
truncating toward zero.

Modules follow the source files:

| module | source |
|---|---|
| `Tracking` | `trackLocation` in src/controllers/locationController.js |
| `WorkingWindow` | the working-hours/day checks, in both variants, and the `HH:MM` grammar |
| `AttendanceModel` | `getWorkSessionDuration` in models/Attendance.js |
| `AttendanceRoutes` | POST /event, GET /history and GET /status in routes/attendance.js |
| `DailySummary` | GET /summary in routes/attendance.js |
| `Pagination` | the page/limit/skip/totalPages formulas of both list endpoints |
| `LocationQueue` | src/services/locationQueue.js |
| `GeofencingClient` | the geofencing service in src/services/geofencing-expo.js |
| `Helpers` | src/utils/helpers.js |
| `GeofenceAdmin` | backend/src/controllers/geofenceControllers.js |
| `GeofenceRoutes` | routes/geofences.js |
| `Common`, `Text`, `Sorting` | shared vocabulary: `Option`, event kinds, JavaScript `split`/`join`/`trim`/`Number`, a stable sort by key |

Three behaviours of the code shape the contracts:

- Missing working-hours or working-day configuration means "never" in the
  attendance routes (routes/attendance.js:27-45) and "always" in the
  location controller (src/controllers/locationController.js:94-110),
  which drives automatic attendance. Both variants are modelled, and
  `WorkingWindow.MissingConfigurationDiffers` states the difference.
- The location controller refuses a coordinate only when it is missing or
  equal to 0 (src/controllers/locationController.js:35). It does not check
  the range.
- The offline queue's sync writes back only the failures of the snapshot
  it read (src/services/locationQueue.js:32, 75). The model is sequential.

## Model

| member | source | states |
|---|---|---|
| Tracking.TrackLocation | src/controllers/locationController.js:29-186 | The raw location is stored exactly when the caller is authenticated and both coordinates are present and non-zero. 400 is returned exactly when an authenticated request lacks a coordinate or has one equal to 0. The reported names are those of all containing geofences, in query order. The reason is null whenever a row was written. |
| Tracking.WorkingFlags | src/controllers/locationController.js:86-117 | With no containing geofence both flags are true and there is no reason. The reason is null exactly when both flags hold. A failed day check always gives the day reason, overriding the hours reason. |
| Tracking.EnterIff | src/controllers/locationController.js:119-149 | An ENTER for geofence g is written iff g is the first containing geofence, the last event is absent, an EXIT or an ENTER elsewhere, and both the permissive hours check and the day check pass. |
| Tracking.SameGeofenceIsIdempotent | src/controllers/locationController.js:125-128 | A sample whose first containing geofence is the one of the open ENTER writes nothing, at any time of day. |
| Tracking.ExitIsUnconditional | src/controllers/locationController.js:150-172 | Outside every geofence, an open ENTER gets an EXIT for its geofence whatever the clock says, with both flags true. Without an open ENTER nothing is written. |
| Tracking.FirstZoneDecides | src/controllers/locationController.js:90-91 | Only the first containing geofence decides: dropping the rest leaves the written row, the flags and the reason unchanged. |
| Tracking.BothChecksFailReasonNamesDay | src/controllers/locationController.js:104-115 | When both working checks fail, nothing is written and the reason names the weekday. |
| Tracking.WrittenRowsAreFlaggedWorking | src/controllers/locationController.js:131-166 | Every row the controller writes carries true for both working flags. |
| Tracking.ReplayAlternates | src/controllers/locationController.js:119-172 | Over any trace of samples, fed back through the user's last event, each written row legally follows its predecessor. An EXIT closes an ENTER of the same geofence, and an ENTER never repeats the open ENTER's geofence. |
| Tracking.ReplayNeverDoubleEnters | src/controllers/locationController.js:119-172 | In the row log of any trace, no two consecutive ENTERs name the same geofence. Every EXIT directly follows an ENTER of the same geofence. |
| Tracking.ReplayInsideIsQuiet | src/controllers/locationController.js:125-128 | Any number of samples inside the open ENTER's geofence write no rows. |
| WorkingWindow.JsNumber | src/controllers/locationController.js:96-97 | `Number` of a whitespace-free digit string is its decimal value. |
| WorkingWindow.HoursPermissive | src/controllers/locationController.js:94-107 | The controller's hours check can only fail for a geofence whose working hours name both a start and an end. A missing object counts as in hours, and an object without start or end is the thrown error (`None`). |
| WorkingWindow.PatternParses | routes/attendance.js:34-38 | Every string matching `^([0-1]?[0-9]\|2[0-3]):[0-5][0-9]$` splits at ':' and reads, via `Number`, to the minute its digits denote, which is in 0..1439. |
| WorkingWindow.PatternSplit | routes/attendance.js:34 | A matching string splits at ':' into exactly its hour and minute fields. |
| WorkingWindow.PatternMinutes | routes/geofences.js:19-20 | The minute a matching string denotes is in 0..1439. |
| WorkingWindow.FormatClockRoundTrip | routes/geofences.js:19-20 | Every minute of the day has a spelling that the grammar accepts and the split parser reads back as that minute. |
| WorkingWindow.PatternExamples | routes/geofences.js:19-20 | "00:00", "9:05", "23:59", "19:30" and "09:00" match. "24:00", "9:60", "9:5", "", "123:00" and "09-00" do not. |
| WorkingWindow.WithinWorkingHours | routes/attendance.js:26-41 | `isWithinWorkingHours`. Its contract is carried by StrictWindowInclusive (inclusive at both ends), FullDayWindow and MissingConfigurationDiffers (missing configuration gives false). |
| WorkingWindow.StrictWindowInclusive | routes/attendance.js:26-41 | With both ends in the grammar, `isWithinWorkingHours` holds iff start <= t <= end in minutes, inclusive at both ends. |
| WorkingWindow.FullDayWindow | routes/attendance.js:40 | A window from minute 0 to minute 1439 accepts every minute of the day. |
| WorkingWindow.AllDayBounds | routes/geofences.js:19-20 | "00:00" and "23:59" match the grammar and denote minutes 0 and 1439. |
| WorkingWindow.MissingConfigurationDiffers | routes/attendance.js:27-45 | For missing hours, or missing or empty days, the strict helpers say false. The controller's permissive checks (src/controllers/locationController.js:94, 110) say true. |
| WorkingWindow.ConfiguredVariantsAgree | routes/attendance.js:44-51 | With non-empty start, end and day list, the strict and permissive checks give the same answers. |
| WorkingWindow.IsWorkingDay | routes/attendance.js:44-51 | `isWorkingDay`. Its contract is carried by SingleDaySelectsOneWeekday and MissingConfigurationDiffers (a missing or empty list gives false). |
| WorkingWindow.SingleDaySelectsOneWeekday | routes/attendance.js:47-50 | A day list naming one weekday accepts exactly that weekday, Sunday being index 0. |
| AttendanceModel.DayRecords | models/Attendance.js:65-78 | The query keeps exactly the stored records of the user at the geofence between 00:00:00.000 and 23:59:59.999 of the day. |
| AttendanceModel.DayRecordsCounts | models/Attendance.js:65-78 | Each matching record is returned as often as it is stored, and no other record at all. |
| AttendanceModel.WorkSessionMinutes | models/Attendance.js:64-98 | The day's records of the user at the geofence, oldest first, paired by the loop and floored to whole minutes. Its contract is carried by the one-step lemmas below, PairUpBounds and WorkSessionMinutesBounds. |
| AttendanceModel.UnmatchedExitIgnored | models/Attendance.js:86 | An EXIT with no open ENTER adds nothing. |
| AttendanceModel.LaterEnterReplaces | models/Attendance.js:84-85 | A second ENTER before any EXIT replaces the open start time. |
| AttendanceModel.PairAddsDifference | models/Attendance.js:86-89 | An ENTER followed by an EXIT adds exit minus enter and closes the session. |
| AttendanceModel.TrailingEnterCountsToNow | models/Attendance.js:93-95 | A trailing unmatched ENTER counts up to the current time. |
| AttendanceModel.PairUpBounds | models/Attendance.js:80-95 | On time-ordered records none later than now, the fold adds between 0 and the time from its origin to now. |
| AttendanceModel.WorkSessionMinutesBounds | models/Attendance.js:64-98 | If no record of the day lies after now, the floored minutes are non-negative. They are at most the whole minutes from the day's first record to now, and 0 for a day with no records. |
| AttendanceRoutes.ParseEventType | routes/attendance.js:12 | Only the exact spellings "ENTER" and "EXIT" are accepted. |
| AttendanceRoutes.EventTypeRoundTrip | routes/attendance.js:12 | Each event kind's name is accepted as that kind. |
| AttendanceRoutes.FindActive | routes/attendance.js:69-72 | The lookup returns an active geofence with the id, and fails only when every geofence with that id is inactive. |
| AttendanceRoutes.RecordEvent | routes/attendance.js:54-111 | 400 exactly when the body is invalid: missing geofence, event type outside ENTER/EXIT, or coordinates out of range. 404 exactly for a valid body naming no active geofence. Otherwise one record is appended, carrying the body's fields. Its time is the body's timestamp, else now. Its flags are the strict checks of that geofence at that time. |
| AttendanceRoutes.GivenTimestampIgnoresClock | routes/attendance.js:82-88 | With a timestamp in the body, the outcome and the store do not depend on the server clock. |
| AttendanceRoutes.DeletedGeofenceRefused | routes/attendance.js:69-80 | An event against a geofence that has been soft-deleted is refused with 404. |
| AttendanceRoutes.Where | routes/attendance.js:144-157 | The history query keeps exactly the user's records, in the date range only when both dates are given, at the geofence only when one is given. |
| AttendanceRoutes.WhereCounts | routes/attendance.js:144-157 | Each matching record is returned as often as it is stored, and no other record at all. |
| AttendanceRoutes.History | routes/attendance.js:138-194 | A page exists iff the skip is non-negative. The page is the run of the matches, sorted newest first, that starts at the skip. It holds \|limit\| records while that many remain, the rest on a partial last page, and none past the end. So every returned record is a stored match, and the page runs newest first. The pagination block is the one computed from the parameters, the default limit 20 and the count of all matches. |
| AttendanceRoutes.HistoryShowsEveryMatch | routes/attendance.js:140-164 | Paging with a positive limit reaches every match: the match ranked k newest-first is at position k mod limit of page k div limit + 1. |
| AttendanceRoutes.HistoryIsNewestFirst | routes/attendance.js:159-164 | A history page runs from newest to oldest. |
| AttendanceRoutes.OneDateIsIgnored | routes/attendance.js:148-153 | A start date without an end date, or the reverse, does not restrict the history. |
| AttendanceRoutes.CurrentStatus | routes/attendance.js:297-347 | `isCurrentlyInside` holds iff the presence list is non-empty, and every listed presence is an existing, active geofence. Which geofences are listed is pinned by the two lemmas below. |
| AttendanceRoutes.FirstPerGeofenceIsLatest | routes/attendance.js:304-311 | After the newest-first sort, the record `$group`/`$first` keeps for a geofence is not older than any other record there. |
| AttendanceRoutes.StatusReportsLatestEnter | routes/attendance.js:297-346 | Each reported location is an existing, active geofence. The user's record there is an ENTER, not older than any other record of the user at that geofence, and gives the entry time and position. |
| AttendanceRoutes.StrictlyLatestEnterIsInside | routes/attendance.js:331-346 | Conversely, an active geofence whose strictly newest record of the user is an ENTER makes the user currently inside. |
| DailySummary.UserDay | routes/attendance.js:219-226 | The query keeps exactly the user's records of the day. |
| DailySummary.UserDayCounts | routes/attendance.js:219-226 | Each of the user's records of the day is returned as often as it is stored, and no other record at all. |
| DailySummary.DaySummary | routes/attendance.js:219-281 | `totalEvents` is the number of the user's records that day, duplicates included (see UserDayCounts), and is 0 iff the user has no record that day. `totalLocations` is the number of groups. |
| DailySummary.DaySummaryGroups | routes/attendance.js:228-273 | The groups have distinct geofences. Each group holds, ascending in time, exactly the day's records of its geofence, and its minutes are the session duration of that geofence for the day. |
| DailySummary.DaySummaryCovers | routes/attendance.js:233-263 | Every record of the user that day lands in the group of its geofence. |
| DailySummary.DaySummaryEndpoints | routes/attendance.js:256-262 | `firstEntry` is absent iff the group has no ENTER; otherwise it is the time of one of its ENTERs and no ENTER is earlier. `lastExit` is absent iff it has no EXIT; otherwise it is the time of one of its EXITs and no EXIT is later. |
| DailySummary.GroupDayMatches | routes/attendance.js:233-263 | The grouping loop yields one summary per geofence, in order of first appearance, equal to that geofence's own summary. |
| DailySummary.FirstEnterIsEarliest | routes/attendance.js:256-259 | On time-ordered records the first ENTER seen is the earliest ENTER, and is absent iff there is none. |
| DailySummary.LastExitIsLatest | routes/attendance.js:260-261 | On time-ordered records the last EXIT seen is the latest EXIT, and is absent iff there is none. |
| Pagination.ParamOr | routes/attendance.js:140-141 | `parseInt(x) \|\| d` is the parsed value unless it is missing, NaN or 0, in which case it is the default. |
| Pagination.Paginate | routes/attendance.js:140-194 | The limit and the page are never 0. The reported items per page is the limit, and the total is the count. |
| Pagination.Defaults | routes/attendance.js:140-141 | Without parameters the page is 1, the limit is the default (20 for history, 10 for geofences) and nothing is skipped. |
| Pagination.PageArithmetic | routes/attendance.js:140-193 | For a positive page and limit: skip = (page-1)*limit. totalPages is the ceiling of total/limit and is 0 iff there are no records. hasNextPage holds iff records remain after this page, and hasPrevPage iff some were skipped. |
| Pagination.Window | routes/attendance.js:162-163 | A negative skip is refused. Otherwise item i of the result is item skip+i of the input. The length is \|limit\| while that many items remain after the skip, the number remaining on a partial last page, and 0 when the skip is past the end. A negative limit counts by its magnitude. |
| Pagination.ItemOnItsPage | routes/attendance.js:140-163 | With a positive limit, the item at position k is shown at position k mod limit of page k div limit + 1, whose skip is k - k mod limit. |
| LocationQueue.GetQueue | src/services/locationQueue.js:30-38 | The stored list, or empty when nothing readable is stored. What it reads after each operation is stated by QueueLocation, QueueAllReadsBack, ClearQueue and SyncQueue. |
| LocationQueue.GetQueueSize | src/services/locationQueue.js:41-44 | 0 iff the queue is empty. It grows by one per queued sample (QueueAllReadsBack), equals the failed count after a sync (SyncQueue), and is 0 after a clear (ClearQueue). |
| LocationQueue.QueueLocation | src/services/locationQueue.js:7-27 | A successful write appends exactly one item, stamped with the clock, after the existing items. A failed write reports false and changes nothing. |
| LocationQueue.QueueAllReadsBack | src/services/locationQueue.js:7-44 | Samples queued one after another, each write succeeding, read back after the existing items in queueing order, and the size grows by one per sample. |
| LocationQueue.ClearQueue | src/services/locationQueue.js:87-96 | A successful removal leaves the queue empty and its size 0. A failed one changes nothing. |
| LocationQueue.SyncQueue | src/services/locationQueue.js:47-84 | An empty queue posts nothing and reports 0/0. Otherwise each item is posted once, oldest first, as its latitude, longitude and accuracy only. With a successful write-back the slot holds exactly the failed items in queue order, `failed` counts them and is the new queue size, and synced + failed is the queue length. A failed write-back reports failure and leaves the slot. |
| LocationQueue.RejectedIsSubset | src/services/locationQueue.js:60-75 | What sync keeps is a sub-multiset of the queue, and each kept item is one whose upload failed. |
| LocationQueue.RejectedExtremes | src/services/locationQueue.js:60-75 | If every upload succeeds nothing is kept. If every upload fails the queue is kept unchanged. |
| LocationQueue.QueueThenSync | src/services/locationQueue.js:7-84 | A sample queued offline is posted by the next sync, after all earlier ones, as its position and accuracy. What is posted does not carry the time it was queued. |
| GeofencingClient.Edge | src/services/geofencing-expo.js:145-156 | ENTER fires iff the position is inside and the flag was clear. EXIT fires iff it is outside and the flag was set. Nothing fires iff the containment is unchanged. |
| GeofencingClient.HandleLocationUpdate | src/services/geofencing-expo.js:130-158 | With no location nothing changes. Otherwise every flag ends equal to its fence's current containment, whatever recording did. The crossings are those of each fence, in list order. |
| GeofencingClient.SettledIsQuiet | src/services/geofencing-expo.js:148-156 | When every flag already matches containment, an update fires nothing. |
| GeofencingClient.RepeatedUpdateIsQuiet | src/services/geofencing-expo.js:130-158 | The same position twice in a row fires nothing the second time. |
| GeofencingClient.CrossingsAreEdges | src/services/geofencing-expo.js:137-157 | Each fired crossing comes from a listed fence whose containment changed in that direction. |
| GeofencingClient.SyncGeofences | src/services/geofencing-expo.js:228-241 | Corrected sync (see Findings): after a successful fetch the list holds exactly the fetched geofences, in order, every one outside. A failed fetch changes nothing, and the flags are always kept. |
| GeofencingClient.SyncAsWrittenIgnoresFetch | src/services/geofencing-expo.js:230-236 | As written, a fetched list the client does not already hold is never adopted: the service stays unchanged. |
| GeofencingClient.SyncThenUpdateEnters | src/services/geofencing-expo.js:130-158 | The first update after a successful sync fires ENTER for exactly the fetched geofences that contain the position, in list order, and no EXIT. |
| GeofencingClient.AddGeofences | src/services/geofencing-expo.js:243-257 | The existing fences stay first and unchanged, and the added fences follow in order, all outside. |
| GeofencingClient.RemoveGeofences | src/services/geofencing-expo.js:259-270 | Exactly the fences whose id is not listed are kept, and the flags are kept. The order of the kept fences is stated by WithoutAppend. |
| GeofencingClient.WithoutAppend | src/services/geofencing-expo.js:261-263 | Removing ids from a concatenation is the concatenation of the removals: the kept fences stay in their original order. |
| GeofencingClient.WithoutShrinks | src/services/geofencing-expo.js:261-263 | Removing ids shortens the list exactly when one of them is tracked. |
| GeofencingClient.AddThenRemoveRestores | src/services/geofencing-expo.js:243-263 | Adding fences with new ids and then removing those ids restores the service exactly, order included. |
| GeofencingClient.StartTracking | src/services/geofencing-expo.js:65-105 | Starting while already tracking changes nothing. A successful start sets the tracking flag and then runs the (corrected) sync. A failed start leaves the list and the flag. |
| GeofencingClient.StopTracking | src/services/geofencing-expo.js:107-128 | Stopping never touches the list or the initialisation. After a successful stop the service is not tracking; a failed stop changes nothing. |
| GeofencingClient.StopIsIdempotent | src/services/geofencing-expo.js:107-110 | A stop after a successful stop changes nothing, whether or not it succeeds. |
| GeofencingClient.GetStatus | src/services/geofencing-expo.js:310-316 | Reports both flags and the number of tracked geofences. How the count follows the operations is stated by StatusCounts. |
| GeofencingClient.StatusCounts | src/services/geofencing-expo.js:228-316 | The reported count is the fetched count after a sync and the old count plus the added ones after an add. After a remove it never grows, and stays the same iff no listed id is tracked. A stop keeps it. |
| GeofencingClient.StartThenStop | src/services/geofencing-expo.js:65-128 | Starting and then stopping an initialised, idle service leaves it idle with the freshly synced geofences. |
| Helpers.IsInsideGeofence | src/utils/helpers.js:21-24 | True iff the distance is at most the radius, inclusive at the boundary. |
| Helpers.HelperAgreesWithEdgeDetector | src/utils/helpers.js:21-24 | The helper and the client's edge detector agree on containment. |
| Helpers.JsRem | src/utils/helpers.js:47 | JavaScript `%` truncates toward zero: it agrees with the mathematical remainder for non-negative dividends, and is non-positive otherwise. |
| Helpers.FormatDuration | src/utils/helpers.js:45-49 | "<h>h <m>m" of the floored hours and minutes. Its contract is carried by DurationFields, NegativeDurationFields and FormatDurationRoundTrip. |
| Helpers.DurationFields | src/utils/helpers.js:45-49 | For ms >= 0 the hours are non-negative and the minutes are in 0..59. Together they are the whole minutes of ms: h*3600000 + m*60000 <= ms < h*3600000 + (m+1)*60000. |
| Helpers.NegativeDurationFields | src/utils/helpers.js:45-49 | A negative duration gives negative hours and minutes in -60..0. |
| Helpers.FormatDurationRoundTrip | src/utils/helpers.js:48 | The text "<h>h <m>m" reads back as the hours and minutes it was made from. |
| Helpers.Email | src/utils/helpers.js:124-127 | The email regex. Its contract is carried by EmailMatchesPattern (both directions) and EmailHasOneAt. |
| Helpers.EmailMatchesPattern | src/utils/helpers.js:124-127 | The email check accepts iff there is no whitespace, exactly one '@' with a non-empty local part before it, and a domain with a '.' that is neither first nor last. |
| Helpers.EmailHasOneAt | src/utils/helpers.js:124-127 | An accepted address has exactly one '@', and not at the start. |
| Helpers.Password | src/utils/helpers.js:129-131 | The password is accepted iff it is present with at least 6 characters, and so is never accepted when falsy. |
| Helpers.Coordinates | src/utils/helpers.js:133-138 | The inclusive latitude and longitude ranges. Compared with the server schema by CoordinatesAgreeWithSchema. |
| Helpers.CoordinatesAgreeWithSchema | src/utils/helpers.js:133-138 | The client's coordinate check is the server schema's inclusive lat/lng range. |
| Helpers.Radius | src/utils/helpers.js:140-142 | The inclusive 10..1000 range. Compared with the server schema by RadiusNarrowerThanSchema. |
| Helpers.RadiusNarrowerThanSchema | src/utils/helpers.js:140-142 | Every radius the client accepts (10..1000) is accepted by the server schema (1..5000). Some, such as 5 and 2000, pass only the schema. |
| GeofenceAdmin.CreateGeofence | backend/src/controllers/geofenceControllers.js:5-94 | No token gives 401 and a non-admin 403, before anything else. A polygon request with a missing list or fewer than 3 points gives 400. Past these checks, a refused INSERT gives 500 and an accepted one inserts exactly one row. That row has the database's id and is owned by the caller's company and id. A "polygon" request stores the WKT of its vertices; any other type, or none, stores the given latitude, longitude and radius as a circle. |
| GeofenceAdmin.WktRoundTrip | backend/src/controllers/geofenceControllers.js:31-32 | For n points the WKT reads back as their n coordinate pairs in input order, followed by the first pair again. |
| GeofenceAdmin.StoredPolygonIsClosed | backend/src/controllers/geofenceControllers.js:27-53 | A stored polygon's WKT holds at least 3 points and a closed ring, first pair repeated last. |
| GeofenceAdmin.DeleteGeofence | backend/src/controllers/geofenceControllers.js:140-170 | 403 iff there is no token or a non-admin caller. For an admin, an `:id` that is not integer text or a failed SELECT gives 500. Then 404 for an unknown id, then 403 for another company's geofence, then 500 if the DELETE fails. Only a successful DELETE changes the rows, removing exactly the rows with that id. |
| GeofenceAdmin.NonAdminLearnsNothing | backend/src/controllers/geofenceControllers.js:141-144 | A non-admin's answer depends neither on the stored rows nor on whether the database would answer. |
| GeofenceAdmin.ForeignAdminSeesExistence | backend/src/controllers/geofenceControllers.js:150-161 | An admin gets 404 for an unknown id and 403 for another company's geofence. |
| GeofenceAdmin.DeleteIsFinal | backend/src/controllers/geofenceControllers.js:150-166 | After a successful delete, deleting the same id again gives 404. |
| GeofenceRoutes.Validate | routes/geofences.js:9-26 | `geofenceSchema.validate`. Its contract is carried by AcceptedInputIsInRange, AcceptedHoursParse, RadiusBounds and TrimmedString. |
| GeofenceRoutes.TrimmedString | routes/geofences.js:10-17 | A string is accepted iff its trimmed form is non-empty and within the maximum length, when there is one. The accepted value is the trimmed form. |
| GeofenceRoutes.AcceptedInputIsInRange | routes/geofences.js:9-26 | Accepted input has lat in [-90,90], lng in [-180,180], radius in [1,5000] and a trimmed name of 1..100 characters. Any times match `HH:MM`, and any day list has only the seven weekday names. |
| GeofenceRoutes.AcceptedHoursParse | routes/geofences.js:19 | An accepted start time is read by the split parser as a minute of the day. |
| GeofenceRoutes.RadiusBounds | routes/geofences.js:14 | The radius is required. An accepted body stays accepted with radius x iff 1 <= x <= 5000, and then only the radius of the validated value changes. |
| GeofenceRoutes.Create | routes/geofences.js:29-79 | Invalid input gives 400 and changes nothing. Valid input always appends one geofence carrying the validated fields, the fresh id, the creator and the creation time; it is active unless the input says `isActive: false`. |
| GeofenceRoutes.CreateThenFind | routes/geofences.js:44-49 | With a fresh id, the created geofence is found again by that id, at the end of the store. |
| GeofenceRoutes.Assign | routes/geofences.js:206 | `Object.assign` overwrites the required fields, overwrites each optional field the input carries and keeps each one it omits. The id, the creator and the creation time are kept. |
| GeofenceRoutes.AssignIdempotent | routes/geofences.js:206 | Assigning the same validated body twice gives the same document as once. |
| GeofenceRoutes.Update | routes/geofences.js:182-206 | Invalid input gives 400 before any lookup, and an unknown id gives 404; neither changes anything. Otherwise the first geofence with the id is replaced by the assignment of the validated body to it, and nothing else changes. |
| GeofenceRoutes.UpdateIdempotent | routes/geofences.js:182-207 | Repeating a successful PUT with the same body gives the same answer and leaves the store as the first PUT left it. |
| GeofenceRoutes.SoftDelete | routes/geofences.js:240-253 | An unknown id gives 404 and changes nothing. Otherwise the answer is the first geofence with the id with `isActive` false, and only that geofence changes, to exactly that. |
| GeofenceRoutes.SoftDeleteIdempotent | routes/geofences.js:240-253 | A second DELETE of the same id finds the geofence again and leaves the store unchanged. |
| GeofenceRoutes.Active | routes/geofences.js:89 | The listing query keeps exactly the active geofences. |
| GeofenceRoutes.ActiveCounts | routes/geofences.js:89 | Each active geofence is listed as often as it is stored, and no inactive one. |
| GeofenceRoutes.List | routes/geofences.js:82-122 | A listing exists iff the skip is non-negative. The page is the run of the active geofences, sorted newest first by creation time, that starts at the skip. It holds \|limit\| geofences while that many remain, the rest on a partial last page, and none past the end. The pagination block is the one computed from the parameters, the default limit 10 and the count of active geofences. |
| GeofenceRoutes.ListShowsEveryActive | routes/geofences.js:83-92 | Paging with a positive limit reaches every active geofence: the one ranked k newest-first is at position k mod limit of page k div limit + 1. |
| GeofenceRoutes.SoftDeletedIsHidden | routes/geofences.js:252 | After a soft delete the geofence is still stored but no longer listed. |
| Text.JoinSplit | routes/attendance.js:34 | Joining the parts of a `split` with the separator gives back the string. |
| Text.SplitJoin | backend/src/controllers/geofenceControllers.js:31 | Splitting a join of separator-free parts gives back the parts. |
| Text.DecimalRoundTrip | src/utils/helpers.js:48 | The decimal digits of a number read back as that number. |
| Sorting.SortBy | routes/attendance.js:228 | The stable sort by key yields a sorted permutation of its input. |

## Left out

- Distance: the haversine formula of src/utils/helpers.js:5-18 and src/services/geofencing-expo.js:286-296 uses floating-point trigonometry. It is an abstract function parameter.
- Spatial and document queries: `ST_DWithin` containment and the Mongo aggregation run in the database. Their results are inputs, as sequences in the order the query returns. Whether the database accepts an INSERT (including `ST_GeomFromText` refusing a WKT with an "undefined" coordinate), a SELECT or a DELETE is a boolean input of GeofenceAdmin. No point-in-polygon test exists in the code, so none is modelled.
- Clock and local time: `new Date()`, SQL `now()`, `Date.now()` and the local-time conversions (`getHours`, `toLocaleDateString`, `setHours`) are parameters.
- Authentication: JWT decoding is a caller value or absent. Passwords, bcrypt, Joi internals, Express wiring, the other controllers and routes, and migrations are not modelled.
- Device plumbing: AsyncStorage is a slot value and a write-success flag. The background tasks, location watchers and notifications of expo-location are left out; in `StartTracking` they are a start-success flag.
- `LocationQueue.GetQueue`: stored text that parses to JSON but not to an array is not modelled. The source returns that value as it is, so `queueLocation` throws on `push` and writes nothing, and `getQueueSize` reports the value's `.length`. A failing `getItem` (src/services/locationQueue.js:34-36), which reads as an empty queue so that the next `queueLocation` overwrites the stored list, is not modelled either. Only the app writes this key.
- Concurrency: a sync racing an enqueue can lose the enqueued sample, because sync overwrites storage with its snapshot's failures. The model is sequential.
- `GeofencingClient.RepeatedUpdateIsQuiet`: holds for updates handled one after another. The background task (src/services/geofencing-expo.js:19) and the foreground watcher (line 92) can deliver overlapping updates, and each handler sets the flag only after awaiting the upload (lines 150-151 and 154-155), so two overlapping updates can both fire ENTER. The model is sequential.
- `Number` and `parseInt`: WorkingWindow.JsNumber reads only trimmed digit strings, with the empty string as 0. Signs, decimals, exponents and hex read as NaN (`None`), which makes every comparison false, as it does for malformed text. Pagination.ParamOr takes the parsed integer, or `None` for NaN, as input.
- Sort ties: Mongo's order among equal timestamps is unspecified. The model uses a stable sort that keeps storage order.
- Time values are integers: epoch milliseconds for records, minutes of the day for the clock. ISO strings and Date objects are not modelled.
- `Tracking.TrackLocation`: a database error after the location insert is not modelled. The only 500 is the thrown error for a working-hours object lacking `start` or `end`.
- `Tracking.TrackLocation`: an exception can also come from `working_hours.start` of a non-string type, which the model's `Option<string>` fields cannot express.
- `AttendanceRoutes.RecordEvent`: Joi's other checks (`accuracy`, `metadata`, unknown keys) and its type coercions are not modelled. The `req.user` lookup is the `user` parameter. Geofence ids are numbers, so a `geofenceId` that is not a valid ObjectId, for which `findOne` throws a cast error and the route answers 500 (routes/attendance.js:69-72, 126-134), cannot be expressed.
- `GeofenceRoutes.Validate`: a body is the seven fields of the schema, each present or absent with its declared type. Joi refuses keys the schema does not list with 400, converts numeric strings such as "45" and the strings "true" and "false" before the checks, and refuses `null` for the optional strings; none of these bodies can be expressed. The 500 from a failing `save()` in `GeofenceRoutes.Create`, `GeofenceRoutes.Update` and `GeofenceRoutes.SoftDelete` (routes/geofences.js:49 and 70-78, 207 and 228-236, 253 and 265-273) is not modelled: every save succeeds.
- `LocationQueue.SyncQueue`: a synced sample is posted as latitude, longitude and accuracy only (src/services/locationQueue.js:64, src/services/api.js:33-40), so the server stamps it and checks its working hours and day with its own clock at sync time (src/controllers/locationController.js:43, 80, 136), not at the time it was queued. The model states what is posted. How the server then treats a late sample is Tracking.TrackLocation with the sync-time clock.
- `GeofenceRoutes.Update`: ids are numbers, so the 500 that `findById` causes for an id that is not a valid ObjectId (routes/geofences.js:194, 228-236) is not modelled.
- `GeofenceRoutes.SoftDelete`: likewise, the 500 for an id that is not a valid ObjectId (routes/geofences.js:242, 265-273) is not modelled.
- `Helpers.Password`: the length is counted in characters of `string`, while JavaScript's `.length` counts UTF-16 code units, so a password with characters outside the Basic Multilingual Plane can be accepted by the code with fewer than 6 characters.
- `GeofenceRoutes.TrimmedString`: the maximum length is counted in characters of `string`, while Joi's `.max` counts UTF-16 code units, so the code refuses some names and descriptions with characters outside the Basic Multilingual Plane that the model accepts.
- `AttendanceRoutes.CurrentStatus`: `$group` output order is unspecified. The model lists geofences by newest record first.
- `GeofencingClient.SyncGeofences`: a fetched geofence is a `FenceInfo` with its centre. How the server's fields (`centerLatitude`, `centerLongitude` in routes/geofences.js:97-108) map onto the `latitude` and `longitude` that `handleLocationUpdate` reads (src/services/geofencing-expo.js:138-143) is not modelled.
- `recordAttendance` (src/services/geofencing-expo.js:272-284) tests the same missing `success` field as the sync, so it throws after every upload. The enter and exit handlers catch the error (lines 189-191 and 223-225), so the flags and crossings are as modelled; the success notifications, which are not modelled, are skipped.
- `GeofenceRoutes.List`: the `populate` of the creator and the field projection of each returned document are not modelled.
- `GeofenceAdmin.CreateGeofence`: the circle branch stores latitude, longitude and radius without checking them, as the code does. `getCompanyGeofences` (a plain query) is not part of this model.
- Pagination in routes/locations.js repeats the attendance formulas and is not part of this model.
- src/services/geofencing.js wraps a native geofencing library and is not part of this model, nor are the screens, components and contexts of the mobile app.

## Findings

| source | as written | input that shows it | evidently intended | confidence | as-written member | corrected member |
|---|---|---|---|---|---|---|
| src/services/geofencing-expo.js:230-236 | `syncGeofences` adopts the fetched list only when `response.success && response.data` holds. `ApiService.get` resolves to the HTTP library's response object (src/services/api.js:7-12, 54), which has no `success` field, so the test is always false. | Any successful `GET /geofences` that lists a geofence while the client holds none: the client's list stays empty. | Test the server's flag in the body and replace the list by the fetched geofences, each outside. | medium, not executed | GeofencingClient.SyncAsWrittenIgnoresFetch | GeofencingClient.SyncGeofences |

=== FILE: attendance_model.dfy ===
/** The attendance record of the document store and its
    `getWorkSessionDuration` static: the minutes a user spent inside one
    geofence on one day, pairing each EXIT with the latest ENTER before it. */
module AttendanceModel {
  import opened Common
  import opened Sorting

  /** A stored attendance record. Times are epoch milliseconds. */
  datatype Record = Record(user: nat, geofence: nat, kind: EventType, timestamp: int,
                           location: Coord, isWorkingHours: bool, isWorkingDay: bool)

  /** A local day as epoch milliseconds: `start` is 00:00:00.000 and `end`
      23:59:59.999 of the date. The local-time conversion is an input. */
  datatype DayWindow = DayWindow(start: int, end: int)

  function Timestamp(r: Record): int
  {
    r.timestamp
  }

  predicate InDay(r: Record, day: DayWindow)
  {
    day.start <= r.timestamp <= day.end
  }

  /** The query: the user's records at the geofence within the day, in storage order. */
  function DayRecords(store: seq<Record>, user: nat, geofence: nat, day: DayWindow): (rs: seq<Record>)
    ensures forall r :: r in rs <==> r in store && r.user == user && r.geofence == geofence && InDay(r, day)
    ensures |rs| <= |store|
  {
    if |store| == 0 then []
    else
      var rest := DayRecords(store[1..], user, geofence, day);
      var r := store[0];
      assert forall x :: x in store <==> x == r || x in store[1..];
      if r.user == user && r.geofence == geofence && InDay(r, day) then [r] + rest else rest
  }

  /** Each matching record is kept as often as it is stored, and no other is. */
  lemma {:induction false} DayRecordsCounts(store: seq<Record>, user: nat, geofence: nat, day: DayWindow)
    ensures forall r :: multiset(DayRecords(store, user, geofence, day))[r]
                        == if r.user == user && r.geofence == geofence && InDay(r, day) then multiset(store)[r] else 0
    decreases |store|
  {
    if |store| > 0 {
      DayRecordsCounts(store[1..], user, geofence, day);
      assert store == [store[0]] + store[1..];
    }
  }

  /** The pairing loop over records in ascending time: `open` is `enterTime`,
      `total` the milliseconds accumulated so far. A trailing open ENTER is
      counted up to `now`. */
  function PairUp(events: seq<Record>, total: int, open: Option<int>, now: int): int
    decreases |events|
  {
    if |events| == 0 then
      if open.Some? then total + (now - open.value) else total
    else
      var e := events[0];
      if e.kind == Enter then PairUp(events[1..], total, Some(e.timestamp), now)
      else if open.Some? then PairUp(events[1..], total + (e.timestamp - open.value), None, now)
      else PairUp(events[1..], total, None, now)
  }

  /** `getWorkSessionDuration(userId, geofenceId, date)` with the current time
      `now`: whole minutes, rounded down. */
  function WorkSessionMinutes(store: seq<Record>, user: nat, geofence: nat, day: DayWindow, now: int): int
  {
    PairUp(SortBy(DayRecords(store, user, geofence, day), Timestamp), 0, None, now) / 60000
  }

  // ----- Properties of the pairing loop -----

  /** An EXIT with no open ENTER contributes nothing. */
  lemma UnmatchedExitIgnored(x: Record, rest: seq<Record>, total: int, now: int)
    requires x.kind == Exit
    ensures PairUp([x] + rest, total, None, now) == PairUp(rest, total, None, now)
  {
    assert ([x] + rest)[1..] == rest;
  }

  /** A second ENTER before any EXIT replaces the open start time. */
  lemma LaterEnterReplaces(a: Record, b: Record, rest: seq<Record>, total: int, open: Option<int>, now: int)
    requires a.kind == Enter && b.kind == Enter
    ensures PairUp([a, b] + rest, total, open, now) == PairUp([b] + rest, total, None, now)
  {
    assert ([a, b] + rest)[1..] == [b] + rest;
    assert ([b] + rest)[1..] == rest;
  }

  /** An ENTER followed by an EXIT adds their difference and closes the session. */
  lemma PairAddsDifference(a: Record, b: Record, rest: seq<Record>, total: int, open: Option<int>, now: int)
    requires a.kind == Enter && b.kind == Exit
    ensures PairUp([a, b] + rest, total, open, now) == PairUp(rest, total + (b.timestamp - a.timestamp), None, now)
  {
    assert ([a, b] + rest)[1..] == [b] + rest;
    assert ([b] + rest)[1..] == rest;
  }

  /** A trailing unmatched ENTER counts up to the current time. */
  lemma TrailingEnterCountsToNow(a: Record, total: int, open: Option<int>, now: int)
    requires a.kind == Enter
    ensures PairUp([a], total, open, now) == total + (now - a.timestamp)
  {
    assert [a][1..] == [];
  }

  /** Where the counted time can begin: the open ENTER, else the first record, else `now`. */
  function Origin(events: seq<Record>, open: Option<int>, now: int): int
  {
    if open.Some? then open.value else if |events| > 0 then events[0].timestamp else now
  }

  predicate NotAfter(events: seq<Record>, now: int)
  {
    forall k :: 0 <= k < |events| ==> events[k].timestamp <= now
  }

  /** On time-ordered records none later than `now`, the pairing adds a
      non-negative amount, at most the time from the origin to `now`. */
  lemma {:induction false} PairUpBounds(events: seq<Record>, total: int, open: Option<int>, now: int)
    requires SortedBy(events, Timestamp)
    requires NotAfter(events, now)
    requires open.Some? ==> open.value <= now && (|events| > 0 ==> open.value <= events[0].timestamp)
    ensures total <= PairUp(events, total, open, now) <= total + (now - Origin(events, open, now))
    decreases |events|
  {
    if |events| > 0 {
      var e := events[0];
      var rest := events[1..];
      assert SortedBy(rest, Timestamp);
      assert NotAfter(rest, now);
      if |rest| > 0 {
        assert e.timestamp <= rest[0].timestamp;
      }
      if e.kind == Enter {
        PairUpBounds(rest, total, Some(e.timestamp), now);
      } else if open.Some? {
        PairUpBounds(rest, total + (e.timestamp - open.value), None, now);
      } else {
        PairUpBounds(rest, total, None, now);
      }
    }
  }

  /** The day's worked minutes are never negative and never exceed the
      minutes from the day's first record to `now`, provided no record of the
      day lies after `now`. */
  lemma WorkSessionMinutesBounds(store: seq<Record>, user: nat, geofence: nat, day: DayWindow, now: int)
    requires forall r :: r in store && r.user == user && r.geofence == geofence && InDay(r, day) ==> r.timestamp <= now
    ensures var events := SortBy(DayRecords(store, user, geofence, day), Timestamp);
            && 0 <= WorkSessionMinutes(store, user, geofence, day, now)
            && (|events| > 0 ==> WorkSessionMinutes(store, user, geofence, day, now) <= (now - events[0].timestamp) / 60000)
            && (|events| == 0 ==> WorkSessionMinutes(store, user, geofence, day, now) == 0)
  {
    var rs := DayRecords(store, user, geofence, day);
    var events := SortBy(rs, Timestamp);
    assert NotAfter(events, now) by {
      forall k | 0 <= k < |events|
        ensures events[k].timestamp <= now
      {
        assert events[k] in multiset(rs);
      }
    }
    PairUpBounds(events, 0, None, now);
    var ms := PairUp(events, 0, None, now);
    MinutesMono(ms, now - Origin(events, None, now));
  }

  lemma MinutesMono(ms: int, span: int)
    requires 0 <= ms <= span
    ensures 0 <= ms / 60000 <= span / 60000
  {
  }
}

=== FILE: attendance_routes.dfy ===
/** The attendance routes of the document-store server: recording an
    ENTER/EXIT event, the paged history and the current status. The daily
    summary is in `DailySummary`. */
module AttendanceRoutes {
  import opened Common
  import opened WorkingWindow
  import opened Sorting
  import opened Pagination
  import opened AttendanceModel
  import opened GeofenceRoutes

  // ----- POST /event -----

  /** The request body; an absent key is `None`. Times are epoch milliseconds. */
  datatype EventRequest = EventRequest(geofence: Option<nat>, eventType: Option<string>,
                                       latitude: Option<real>, longitude: Option<real>,
                                       timestamp: Option<int>)

  function EventTypeName(k: EventType): string
  {
    match k
    case Enter => "ENTER"
    case Exit => "EXIT"
  }

  /** `Joi.string().valid('ENTER', 'EXIT')`: exact spelling only. */
  function ParseEventType(s: string): (k: Option<EventType>)
    ensures k.Some? ==> EventTypeName(k.value) == s
  {
    if s == "ENTER" then Some(Enter) else if s == "EXIT" then Some(Exit) else None
  }

  lemma EventTypeRoundTrip(k: EventType)
    ensures ParseEventType(EventTypeName(k)) == Some(k)
  {
  }

  datatype EventOutcome = EventValidationError | GeofenceNotFound | Recorded(record: Record)

  function EventStatus(o: EventOutcome): int
  {
    match o
    case EventValidationError => 400
    case GeofenceNotFound => 404
    case Recorded(_) => 201
  }

  /** `Geofence.findOne({_id, isActive: true})`. */
  function FindActive(geofences: seq<Geofence>, id: nat): (g: Option<Geofence>)
    ensures g.Some? ==> g.value in geofences && g.value.id == id && g.value.isActive
    ensures g.None? ==> forall x :: x in geofences && x.id == id ==> !x.isActive
  {
    if |geofences| == 0 then None
    else if geofences[0].id == id && geofences[0].isActive then Some(geofences[0])
    else
      assert forall x :: x in geofences <==> x == geofences[0] || x in geofences[1..];
      FindActive(geofences[1..], id)
  }

  function WorkingHoursOf(g: Geofence): Option<WorkingHours>
  {
    if g.officeInfo.Some? then g.officeInfo.value.workingHours else None
  }

  function WorkingDaysOf(g: Geofence): Option<seq<string>>
  {
    if g.officeInfo.Some? then g.officeInfo.value.workingDays else None
  }

  predicate ValidEventRequest(req: EventRequest)
  {
    && req.geofence.Some?
    && req.eventType.Some? && ParseEventType(req.eventType.value).Some?
    && req.latitude.Some? && -90.0 <= req.latitude.value <= 90.0
    && req.longitude.Some? && -180.0 <= req.longitude.value <= 180.0
  }

  /** Records an event for `user`. The event time is the body's timestamp,
      else `now`; `toLocal` is the server's local-time conversion. Returns
      the outcome and the attendance store afterwards. */
  function RecordEvent(store: seq<Record>, user: nat, req: EventRequest, geofences: seq<Geofence>,
                       now: int, toLocal: int -> LocalTime): (r: (EventOutcome, seq<Record>))
    ensures r.0.EventValidationError? <==> !ValidEventRequest(req)
    ensures r.0.GeofenceNotFound? <==> ValidEventRequest(req) && FindActive(geofences, req.geofence.value).None?
    ensures !r.0.Recorded? ==> r.1 == store
    ensures r.0.Recorded? ==>
              var rec := r.0.record;
              var at := if req.timestamp.Some? then req.timestamp.value else now;
              && r.1 == store + [rec]
              && rec.user == user && rec.geofence == req.geofence.value
              && EventTypeName(rec.kind) == req.eventType.value
              && rec.timestamp == at
              && rec.location == Coord(req.latitude.value, req.longitude.value)
              && exists g :: g in geofences && g.id == rec.geofence && g.isActive
                   && rec.isWorkingHours == WithinWorkingHours(toLocal(at).minute, WorkingHoursOf(g))
                   && rec.isWorkingDay == IsWorkingDay(toLocal(at).weekday, WorkingDaysOf(g))
  {
    if !ValidEventRequest(req) then (EventValidationError, store)
    else
      match FindActive(geofences, req.geofence.value)
      case None => (GeofenceNotFound, store)
      case Some(g) =>
        var at := if req.timestamp.Some? then req.timestamp.value else now;
        var local := toLocal(at);
        var rec := Record(user, req.geofence.value, ParseEventType(req.eventType.value).value, at,
                          Coord(req.latitude.value, req.longitude.value),
                          WithinWorkingHours(local.minute, WorkingHoursOf(g)),
                          IsWorkingDay(local.weekday, WorkingDaysOf(g)));
        (Recorded(rec), store + [rec])
  }

  /** A client-supplied timestamp makes the outcome independent of the server clock. */
  lemma GivenTimestampIgnoresClock(store: seq<Record>, user: nat, req: EventRequest, geofences: seq<Geofence>,
                                   now1: int, now2: int, toLocal: int -> LocalTime)
    requires req.timestamp.Some?
    ensures RecordEvent(store, user, req, geofences, now1, toLocal) == RecordEvent(store, user, req, geofences, now2, toLocal)
  {
  }

  /** An event against a geofence that exists only as a soft-deleted document is refused with 404. */
  lemma DeletedGeofenceRefused(store: seq<Record>, user: nat, req: EventRequest, geofences: seq<Geofence>,
                               now: int, toLocal: int -> LocalTime)
    requires ValidEventRequest(req)
    requires SoftDelete(geofences, req.geofence.value).0.Written?
    requires forall i, j :: 0 <= i < j < |geofences| ==> geofences[i].id != geofences[j].id
    ensures var after := SoftDelete(geofences, req.geofence.value).1;
            RecordEvent(store, user, req, after, now, toLocal).0 == GeofenceNotFound
  {
    var id := req.geofence.value;
    var after := SoftDelete(geofences, id).1;
    var i := Find(geofences, id).value;
    forall x | x in after && x.id == id
      ensures !x.isActive
    {
      var k :| 0 <= k < |after| && after[k] == x;
      if k != i {
        assert geofences[k].id != geofences[i].id;
      }
    }
  }

  // ----- GET /history -----

  /** The query: the user's records, within `[startDate, endDate]` only when
      both dates are given, at one geofence only when one is given. */
  predicate Matches(r: Record, user: nat, startDate: Option<int>, endDate: Option<int>, geofence: Option<nat>)
  {
    && r.user == user
    && (startDate.Some? && endDate.Some? ==> startDate.value <= r.timestamp <= endDate.value)
    && (geofence.Some? ==> r.geofence == geofence.value)
  }

  function Where(store: seq<Record>, user: nat, startDate: Option<int>, endDate: Option<int>, geofence: Option<nat>)
    : (rs: seq<Record>)
    ensures forall r :: r in rs <==> r in store && Matches(r, user, startDate, endDate, geofence)
  {
    if |store| == 0 then []
    else
      assert forall x :: x in store <==> x == store[0] || x in store[1..];
      (if Matches(store[0], user, startDate, endDate, geofence) then [store[0]] else [])
        + Where(store[1..], user, startDate, endDate, geofence)
  }

  /** Each matching record is returned as often as it is stored, and no other is. */
  lemma {:induction false} WhereCounts(store: seq<Record>, user: nat, startDate: Option<int>, endDate: Option<int>,
                                       geofence: Option<nat>)
    ensures forall r :: multiset(Where(store, user, startDate, endDate, geofence))[r]
                        == if Matches(r, user, startDate, endDate, geofence) then multiset(store)[r] else 0
    decreases |store|
  {
    if |store| > 0 {
      WhereCounts(store[1..], user, startDate, endDate, geofence);
      assert store == [store[0]] + store[1..];
    }
  }

  function Newest(r: Record): int
  {
    -r.timestamp
  }

  datatype HistoryPage = HistoryPage(records: seq<Record>, pagination: PageInfo)

  /** `GET /history`: newest first, 20 records per page by default. `None`
      when the page parameter makes the skip negative, which the store refuses. */
  function History(store: seq<Record>, user: nat, startDate: Option<int>, endDate: Option<int>,
                   geofence: Option<nat>, pageParam: Option<int>, limitParam: Option<int>): (h: Option<HistoryPage>)
    ensures h.Some? <==> Paginate(pageParam, limitParam, 20, |Where(store, user, startDate, endDate, geofence)|).skip >= 0
    ensures h.Some? ==> forall r :: r in h.value.records ==> r in store && Matches(r, user, startDate, endDate, geofence)
    ensures h.Some? ==> SortedBy(h.value.records, Newest)
    ensures h.Some? ==> h.value.pagination
                        == Paginate(pageParam, limitParam, 20, |Where(store, user, startDate, endDate, geofence)|).info
    ensures h.Some? ==>
              var matching := Where(store, user, startDate, endDate, geofence);
              var p := Paginate(pageParam, limitParam, 20, |matching|);
              IsPageOf(h.value.records, SortBy(matching, Newest), p.skip, p.limit)
  {
    var matching := Where(store, user, startDate, endDate, geofence);
    var sorted := SortBy(matching, Newest);
    var p := Paginate(pageParam, limitParam, 20, |matching|);
    match Window(sorted, p.skip, p.limit)
    case None => None
    case Some(page) =>
      WindowSorted(sorted, p.skip, p.limit, Newest);
      assert forall r :: r in page ==> r in sorted;
      assert forall r :: r in sorted ==> r in multiset(matching);
      Some(HistoryPage(page, p.info))
  }

  /** Paging through the history with a positive limit shows every match:
      the match ranked `k` newest-first is at position `k % limit` of page
      `k / limit + 1`. */
  lemma HistoryShowsEveryMatch(store: seq<Record>, user: nat, startDate: Option<int>, endDate: Option<int>,
                               geofence: Option<nat>, limit: int, k: nat)
    requires limit >= 1 && k < |Where(store, user, startDate, endDate, geofence)|
    ensures var h := History(store, user, startDate, endDate, geofence, Some(k / limit + 1), Some(limit));
            && h.Some?
            && k % limit < |h.value.records|
            && h.value.records[k % limit] == SortBy(Where(store, user, startDate, endDate, geofence), Newest)[k]
  {
    var sorted := SortBy(Where(store, user, startDate, endDate, geofence), Newest);
    ItemOnItsPage(sorted, limit, 20, k);
  }

  /** Within a page the records run from newest to oldest. */
  lemma HistoryIsNewestFirst(store: seq<Record>, user: nat, startDate: Option<int>, endDate: Option<int>,
                             geofence: Option<nat>, pageParam: Option<int>, limitParam: Option<int>)
    requires History(store, user, startDate, endDate, geofence, pageParam, limitParam).Some?
    ensures var rs := History(store, user, startDate, endDate, geofence, pageParam, limitParam).value.records;
            forall i, j :: 0 <= i < j < |rs| ==> rs[i].timestamp >= rs[j].timestamp
  {
    var matching := Where(store, user, startDate, endDate, geofence);
    var sorted := SortBy(matching, Newest);
    var p := Paginate(pageParam, limitParam, 20, |matching|);
    var page := Window(sorted, p.skip, p.limit).value;
    WindowSorted(sorted, p.skip, p.limit, Newest);
    forall i, j | 0 <= i < j < |page|
      ensures page[i].timestamp >= page[j].timestamp
    {
      assert Newest(page[i]) <= Newest(page[j]);
    }
  }

  /** One date alone does not restrict the history. */
  lemma OneDateIsIgnored(store: seq<Record>, user: nat, startDate: Option<int>, endDate: Option<int>,
                         geofence: Option<nat>, pageParam: Option<int>, limitParam: Option<int>)
    requires startDate.None? || endDate.None?
    ensures History(store, user, startDate, endDate, geofence, pageParam, limitParam)
            == History(store, user, None, None, geofence, pageParam, limitParam)
  {
    WhereIgnoresOneDate(store, user, startDate, endDate, geofence);
  }

  lemma {:induction false} WhereIgnoresOneDate(store: seq<Record>, user: nat, startDate: Option<int>,
                                               endDate: Option<int>, geofence: Option<nat>)
    requires startDate.None? || endDate.None?
    ensures Where(store, user, startDate, endDate, geofence) == Where(store, user, None, None, geofence)
  {
    if |store| > 0 {
      WhereIgnoresOneDate(store[1..], user, startDate, endDate, geofence);
    }
  }

  // ----- GET /status -----

  /** `$sort: {timestamp: -1}` then `$group` with `$first`: the first record
      of each geofence not yet `seen`, in order of first appearance. */
  function FirstPerGeofence(xs: seq<Record>, seen: set<nat>): (r: seq<Record>)
    ensures forall x :: x in r ==> x in xs && x.geofence !in seen
  {
    if |xs| == 0 then []
    else if xs[0].geofence in seen then FirstPerGeofence(xs[1..], seen)
    else [xs[0]] + FirstPerGeofence(xs[1..], seen + {xs[0].geofence})
  }

  /** One entry of `currentLocations`. */
  datatype Presence = Presence(geofence: Geofence, enteredAt: int, location: Coord)

  /** The `$lookup`, `$unwind` and `isActive` match, then the ENTER filter. */
  function Present(latest: seq<Record>, geofences: seq<Geofence>): (ps: seq<Presence>)
    ensures |ps| <= |latest|
    ensures forall p :: p in ps ==> p.geofence in geofences && p.geofence.isActive
  {
    if |latest| == 0 then []
    else
      var e := latest[0];
      var rest := Present(latest[1..], geofences);
      match Find(geofences, e.geofence)
      case Some(i) =>
        if geofences[i].isActive && e.kind == Enter
        then [Presence(geofences[i], e.timestamp, e.location)] + rest
        else rest
      case None => rest
  }

  datatype Status = Status(isCurrentlyInside: bool, currentLocations: seq<Presence>)

  function UserRecords(store: seq<Record>, user: nat): seq<Record>
  {
    Where(store, user, None, None, None)
  }

  function CurrentStatus(store: seq<Record>, geofences: seq<Geofence>, user: nat): (s: Status)
    ensures s.isCurrentlyInside <==> |s.currentLocations| > 0
    ensures forall p :: p in s.currentLocations ==> p.geofence in geofences && p.geofence.isActive
  {
    var latest := FirstPerGeofence(SortBy(UserRecords(store, user), Newest), {});
    var ps := Present(latest, geofences);
    Status(|ps| > 0, ps)
  }

  /** On newest-first records the head is the newest. */
  lemma HeadIsNewest(xs: seq<Record>)
    requires SortedBy(xs, Newest) && |xs| > 0
    ensures forall k :: 0 <= k < |xs| ==> xs[k].timestamp <= xs[0].timestamp
  {
    forall k | 0 <= k < |xs|
      ensures xs[k].timestamp <= xs[0].timestamp
    {
      if k > 0 {
        assert Newest(xs[0]) <= Newest(xs[k]);
      }
    }
  }

  /** On newest-first records, each picked record is the newest of its geofence. */
  lemma {:induction false} FirstPerGeofenceIsLatest(xs: seq<Record>, seen: set<nat>)
    requires SortedBy(xs, Newest)
    ensures forall r, k :: r in FirstPerGeofence(xs, seen) && 0 <= k < |xs| && xs[k].geofence == r.geofence ==>
              xs[k].timestamp <= r.timestamp
    decreases |xs|
  {
    if |xs| > 0 {
      var rest := xs[1..];
      var g := xs[0].geofence;
      assert SortedBy(rest, Newest);
      HeadIsNewest(xs);
      var seen' := if g in seen then seen else seen + {g};
      FirstPerGeofenceIsLatest(rest, seen');
      forall r, k | r in FirstPerGeofence(xs, seen) && 0 <= k < |xs| && xs[k].geofence == r.geofence
        ensures xs[k].timestamp <= r.timestamp
      {
        if r != xs[0] || g in seen {
          assert r in FirstPerGeofence(rest, seen');
          assert r.geofence !in seen';
          assert k != 0;
          assert xs[k] == rest[k - 1];
        }
      }
    }
  }

  /** The presence list names geofences that exist and are active, with a
      record of the user there that is ENTER and is not older than any other
      record of the user at that geofence. */
  lemma StatusReportsLatestEnter(store: seq<Record>, geofences: seq<Geofence>, user: nat, p: Presence)
    requires p in CurrentStatus(store, geofences, user).currentLocations
    ensures p.geofence in geofences && p.geofence.isActive
    ensures exists r :: r in store && r.user == user && r.geofence == p.geofence.id && r.kind == Enter
              && r.timestamp == p.enteredAt && r.location == p.location
              && forall x :: x in store && x.user == user && x.geofence == r.geofence ==> x.timestamp <= r.timestamp
  {
    var sorted := SortBy(UserRecords(store, user), Newest);
    var latest := FirstPerGeofence(sorted, {});
    FirstPerGeofenceIsLatest(sorted, {});
    var r := PresentSource(latest, geofences, p);
    SortedLatestInStore(store, user, sorted, r);
    assert r in store && r.user == user && r.geofence == p.geofence.id && r.kind == Enter
      && r.timestamp == p.enteredAt && r.location == p.location;
  }

  /** A record of the sorted user records that is not older than any of its
      geofence's is a stored record of the user, not older than any other. */
  lemma SortedLatestInStore(store: seq<Record>, user: nat, sorted: seq<Record>, r: Record)
    requires sorted == SortBy(UserRecords(store, user), Newest)
    requires r in FirstPerGeofence(sorted, {})
    requires forall k :: 0 <= k < |sorted| && sorted[k].geofence == r.geofence ==> sorted[k].timestamp <= r.timestamp
    ensures r in store && r.user == user
    ensures forall x :: x in store && x.user == user && x.geofence == r.geofence ==> x.timestamp <= r.timestamp
  {
    assert r in sorted;
    assert r in multiset(UserRecords(store, user));
    forall x | x in store && x.user == user && x.geofence == r.geofence
      ensures x.timestamp <= r.timestamp
    {
      assert x in UserRecords(store, user);
      assert x in multiset(sorted);
      var k :| 0 <= k < |sorted| && sorted[k] == x;
    }
  }

  /** The record a presence entry was built from. */
  lemma {:induction false} PresentSource(latest: seq<Record>, geofences: seq<Geofence>, p: Presence) returns (r: Record)
    requires p in Present(latest, geofences)
    ensures r in latest && r.kind == Enter && r.geofence == p.geofence.id
    ensures r.timestamp == p.enteredAt && r.location == p.location
    ensures p.geofence in geofences && p.geofence.isActive
    decreases |latest|
  {
    var e := latest[0];
    var rest := Present(latest[1..], geofences);
    if p in rest {
      r := PresentSource(latest[1..], geofences, p);
    } else {
      r := e;
    }
  }

  /** Conversely: an active geofence whose strictly newest record of the user
      is an ENTER makes the user currently inside. */
  lemma StrictlyLatestEnterIsInside(store: seq<Record>, geofences: seq<Geofence>, user: nat, r: Record)
    requires r in store && r.user == user && r.kind == Enter
    requires Find(geofences, r.geofence).Some? && geofences[Find(geofences, r.geofence).value].isActive
    requires forall x :: x in store && x.user == user && x.geofence == r.geofence && x != r ==> x.timestamp < r.timestamp
    ensures CurrentStatus(store, geofences, user).isCurrentlyInside
  {
    var users := UserRecords(store, user);
    var sorted := SortBy(users, Newest);
    assert r in users;
    assert r in multiset(sorted);
    forall x | x in sorted && x.geofence == r.geofence && x != r
      ensures x.timestamp < r.timestamp
    {
      assert x in multiset(users);
    }
    StrictNewestIsPicked(sorted, {}, r);
    var latest := FirstPerGeofence(sorted, {});
    PresentKeeps(latest, geofences, r);
    assert CurrentStatus(store, geofences, user).currentLocations == Present(latest, geofences);
  }

  /** On newest-first records, a record strictly newer than every other of
      its geofence is picked, unless its geofence was already seen. */
  lemma {:induction false} StrictNewestIsPicked(xs: seq<Record>, seen: set<nat>, r: Record)
    requires SortedBy(xs, Newest) && r in xs && r.geofence !in seen
    requires forall x :: x in xs && x.geofence == r.geofence && x != r ==> x.timestamp < r.timestamp
    ensures r in FirstPerGeofence(xs, seen)
    decreases |xs|
  {
    if xs[0] != r {
      HeadIsNewest(xs);
      var k :| 0 <= k < |xs| && xs[k] == r;
      assert xs[0].geofence != r.geofence;
      var rest := xs[1..];
      assert SortedBy(rest, Newest);
      assert r == rest[k - 1];
      var seen' := if xs[0].geofence in seen then seen else seen + {xs[0].geofence};
      StrictNewestIsPicked(rest, seen', r);
    }
  }

  lemma {:induction false} PresentKeeps(latest: seq<Record>, geofences: seq<Geofence>, r: Record)
    requires r in latest && r.kind == Enter
    requires Find(geofences, r.geofence).Some? && geofences[Find(geofences, r.geofence).value].isActive
    ensures |Present(latest, geofences)| > 0
    decreases |latest|
  {
    if latest[0] != r {
      PresentKeeps(latest[1..], geofences, r);
    }
  }
}

=== FILE: common.dfy ===
/** Values shared by every component of the attendance pipeline. */
module Common {

  /** A value that may be absent: JavaScript's `undefined`/`null` against a present value. */
  datatype Option<+T> = None | Some(value: T)

  /** The two kinds of attendance event, `'ENTER'` and `'EXIT'`. */
  datatype EventType = Enter | Exit

  /** JavaScript truthiness of an optional string: absent and `""` are falsy. */
  predicate Truthy(s: Option<string>)
  {
    s.Some? && |s.value| > 0
  }

  /** A latitude/longitude pair in degrees. */
  datatype Coord = Coord(lat: real, lng: real)
}

=== FILE: daily_summary.dfy ===
/** `GET /summary/:date`: the user's records of one local day grouped by
    geofence, with the first ENTER, the last EXIT and the worked minutes of
    each group, and the day's totals. */
module DailySummary {
  import opened Common
  import opened Sorting
  import opened AttendanceModel

  /** One entry of `summaryByGeofence` before the minutes are filled in. */
  datatype GeofenceSummary = GeofenceSummary(geofence: nat, events: seq<Record>,
                                             firstEntry: Option<int>, lastExit: Option<int>)

  /** The position of the group for `g`, if there is one. */
  function IndexOf(groups: seq<GeofenceSummary>, g: nat): (i: Option<nat>)
    ensures i.Some? ==> i.value < |groups| && groups[i.value].geofence == g
    ensures i.None? ==> forall k :: 0 <= k < |groups| ==> groups[k].geofence != g
  {
    if |groups| == 0 then None
    else if groups[0].geofence == g then Some(0)
    else
      match IndexOf(groups[1..], g)
      case None => None
      case Some(k) => Some(k + 1)
  }

  /** A record joins its group: it is appended to the events, sets
      `firstEntry` if this is the group's first ENTER, and always sets
      `lastExit` if it is an EXIT. */
  function Extend(s: GeofenceSummary, r: Record): GeofenceSummary
  {
    s.(events := s.events + [r],
       firstEntry := if r.kind == Enter && s.firstEntry.None? then Some(r.timestamp) else s.firstEntry,
       lastExit := if r.kind == Exit then Some(r.timestamp) else s.lastExit)
  }

  /** One iteration of the grouping loop; a new geofence opens a group at the end. */
  function AddRecord(groups: seq<GeofenceSummary>, r: Record): seq<GeofenceSummary>
  {
    match IndexOf(groups, r.geofence)
    case None => groups + [Extend(GeofenceSummary(r.geofence, [], None, None), r)]
    case Some(i) => groups[i := Extend(groups[i], r)]
  }

  /** The grouping loop over the day's records, in their order. */
  function GroupDay(rs: seq<Record>): seq<GeofenceSummary>
    decreases |rs|
  {
    if |rs| == 0 then []
    else AddRecord(GroupDay(rs[..|rs| - 1]), rs[|rs| - 1])
  }

  // ----- A reference description of the groups -----

  /** The records of one geofence, in order. */
  function Only(rs: seq<Record>, g: nat): (os: seq<Record>)
    ensures |os| <= |rs|
  {
    if |rs| == 0 then []
    else (if rs[0].geofence == g then [rs[0]] else []) + Only(rs[1..], g)
  }

  /** `Only` keeps exactly the records of its geofence. */
  lemma {:induction false} OnlyMembers(rs: seq<Record>, g: nat)
    ensures forall r :: r in Only(rs, g) <==> r in rs && r.geofence == g
    decreases |rs|
  {
    if |rs| > 0 {
      OnlyMembers(rs[1..], g);
      assert forall x :: x in rs <==> x == rs[0] || x in rs[1..];
    }
  }

  /** The timestamp of the first ENTER. */
  function FirstEnter(es: seq<Record>): Option<int>
  {
    if |es| == 0 then None
    else if es[0].kind == Enter then Some(es[0].timestamp)
    else FirstEnter(es[1..])
  }

  /** The timestamp of the last EXIT. */
  function LastExit(es: seq<Record>): Option<int>
  {
    if |es| == 0 then None
    else
      var later := LastExit(es[1..]);
      if later.Some? then later
      else if es[0].kind == Exit then Some(es[0].timestamp)
      else None
  }

  /** The geofences of the records in order of first appearance. */
  function Ids(rs: seq<Record>): seq<nat>
    decreases |rs|
  {
    if |rs| == 0 then []
    else
      var prior := Ids(rs[..|rs| - 1]);
      var g := rs[|rs| - 1].geofence;
      if g in prior then prior else prior + [g]
  }

  function Summarize(rs: seq<Record>, g: nat): GeofenceSummary
  {
    var es := Only(rs, g);
    GeofenceSummary(g, es, FirstEnter(es), LastExit(es))
  }

  predicate Distinct(ids: seq<nat>)
  {
    forall i, j :: 0 <= i < j < |ids| ==> ids[i] != ids[j]
  }

  // ----- Append lemmas -----

  lemma {:induction false} OnlyAppend(rs: seq<Record>, r: Record, g: nat)
    ensures Only(rs + [r], g) == Only(rs, g) + (if r.geofence == g then [r] else [])
    decreases |rs|
  {
    if |rs| == 0 {
      assert rs + [r] == [r];
      assert [r][1..] == [];
    } else {
      var h := if rs[0].geofence == g then [rs[0]] else [];
      assert (rs + [r])[0] == rs[0] && (rs + [r])[1..] == rs[1..] + [r];
      assert Only(rs + [r], g) == h + Only(rs[1..] + [r], g);
      OnlyAppend(rs[1..], r, g);
      assert Only(rs, g) == h + Only(rs[1..], g);
    }
  }

  lemma {:induction false} FirstEnterAppend(es: seq<Record>, r: Record)
    ensures FirstEnter(es + [r]) ==
              if FirstEnter(es).Some? then FirstEnter(es)
              else if r.kind == Enter then Some(r.timestamp) else None
    decreases |es|
  {
    if |es| == 0 {
      assert es + [r] == [r];
      assert [r][1..] == [];
    } else {
      assert (es + [r])[1..] == es[1..] + [r];
      FirstEnterAppend(es[1..], r);
    }
  }

  lemma {:induction false} LastExitAppend(es: seq<Record>, r: Record)
    ensures LastExit(es + [r]) == if r.kind == Exit then Some(r.timestamp) else LastExit(es)
    decreases |es|
  {
    if |es| == 0 {
      assert es + [r] == [r];
      assert [r][1..] == [];
    } else {
      assert (es + [r])[1..] == es[1..] + [r];
      LastExitAppend(es[1..], r);
    }
  }

  /** A geofence is listed exactly when it has records, and no geofence twice. */
  lemma {:induction false} IdsFacts(rs: seq<Record>)
    ensures Distinct(Ids(rs))
    ensures forall g :: g in Ids(rs) <==> |Only(rs, g)| > 0
    decreases |rs|
  {
    if |rs| > 0 {
      var p := rs[..|rs| - 1];
      var r := rs[|rs| - 1];
      assert rs == p + [r];
      IdsFacts(p);
      forall g
        ensures g in Ids(rs) <==> |Only(rs, g)| > 0
      {
        OnlyAppend(p, r, g);
      }
    }
  }

  /** A record joining a geofence's records extends that geofence's summary. */
  lemma SummarizeStep(p: seq<Record>, r: Record, g: nat)
    ensures Summarize(p + [r], g) ==
              if r.geofence == g then Extend(Summarize(p, g), r) else Summarize(p, g)
  {
    OnlyAppend(p, r, g);
    if r.geofence == g {
      var es := Only(p, g);
      assert Only(p + [r], g) == es + [r];
      FirstEnterAppend(es, r);
      LastExitAppend(es, r);
      var s := Summarize(p, g);
      assert s.events == es && s.firstEntry == FirstEnter(es) && s.lastExit == LastExit(es);
      assert Extend(s, r) == GeofenceSummary(g, es + [r], FirstEnter(es + [r]), LastExit(es + [r]));
    } else {
      assert Only(p, g) + [] == Only(p, g);
    }
  }

  /** The groups of `p`, one per geofence of `ids`, in that order. */
  predicate GroupsOf(groups: seq<GeofenceSummary>, p: seq<Record>, ids: seq<nat>)
  {
    |groups| == |ids| && forall k :: 0 <= k < |ids| ==> groups[k] == Summarize(p, ids[k])
  }

  /** A record of a geofence that already has a group extends that group only. */
  lemma AddToExisting(groups: seq<GeofenceSummary>, p: seq<Record>, ids: seq<nat>, r: Record, i: nat)
    requires GroupsOf(groups, p, ids) && Distinct(ids)
    requires i < |ids| && ids[i] == r.geofence
    ensures GroupsOf(AddRecord(groups, r), p + [r], ids)
  {
    var j := IndexOf(groups, r.geofence);
    assert j.Some? && groups[j.value].geofence == ids[j.value];
    assert j == Some(i);
    var after := AddRecord(groups, r);
    forall k | 0 <= k < |ids|
      ensures after[k] == Summarize(p + [r], ids[k])
    {
      SummarizeStep(p, r, ids[k]);
    }
  }

  /** A record of a geofence without a group opens a new group at the end. */
  lemma AddNew(groups: seq<GeofenceSummary>, p: seq<Record>, ids: seq<nat>, r: Record)
    requires GroupsOf(groups, p, ids)
    requires r.geofence !in ids && |Only(p, r.geofence)| == 0
    ensures GroupsOf(AddRecord(groups, r), p + [r], ids + [r.geofence])
  {
    assert IndexOf(groups, r.geofence).None? by {
      forall k | 0 <= k < |groups|
        ensures groups[k].geofence != r.geofence
      {
        assert groups[k].geofence == ids[k];
      }
    }
    var after := AddRecord(groups, r);
    var ids' := ids + [r.geofence];
    forall k | 0 <= k < |ids'|
      ensures after[k] == Summarize(p + [r], ids'[k])
    {
      SummarizeStep(p, r, ids'[k]);
      if k == |ids| {
        assert Only(p, r.geofence) == [];
        assert Summarize(p, r.geofence) == GeofenceSummary(r.geofence, [], None, None);
      }
    }
  }

  /** The grouping loop builds, for each geofence in order of first
      appearance, its records, its first ENTER and its last EXIT. */
  lemma {:induction false} GroupDayMatches(rs: seq<Record>)
    ensures |GroupDay(rs)| == |Ids(rs)|
    ensures forall i :: 0 <= i < |Ids(rs)| ==> GroupDay(rs)[i] == Summarize(rs, Ids(rs)[i])
    decreases |rs|
  {
    if |rs| > 0 {
      var p := rs[..|rs| - 1];
      var r := rs[|rs| - 1];
      assert rs == p + [r];
      GroupDayMatches(p);
      IdsFacts(p);
      var ids := Ids(p);
      if r.geofence in ids {
        var i :| 0 <= i < |ids| && ids[i] == r.geofence;
        AddToExisting(GroupDay(p), p, ids, r, i);
      } else {
        AddNew(GroupDay(p), p, ids, r);
      }
      assert GroupsOf(GroupDay(rs), rs, Ids(rs));
    }
  }

  // ----- Meaning of the group fields on time-ordered records -----

  /** On time-ordered records, the first ENTER is the earliest, and there is none only when no record is an ENTER. */
  lemma {:induction false} FirstEnterIsEarliest(es: seq<Record>)
    requires SortedBy(es, Timestamp)
    ensures FirstEnter(es).None? <==> forall k :: 0 <= k < |es| ==> es[k].kind != Enter
    ensures FirstEnter(es).Some? ==>
              (exists k :: 0 <= k < |es| && es[k].kind == Enter && es[k].timestamp == FirstEnter(es).value)
              && forall k :: 0 <= k < |es| && es[k].kind == Enter ==> FirstEnter(es).value <= es[k].timestamp
    decreases |es|
  {
    if |es| > 0 {
      var rest := es[1..];
      assert SortedBy(rest, Timestamp);
      FirstEnterIsEarliest(rest);
      if es[0].kind == Enter {
        forall k | 0 <= k < |es|
          ensures es[0].timestamp <= es[k].timestamp
        {
          if k > 0 {
            assert Timestamp(es[0]) <= Timestamp(es[k]);
          }
        }
      } else {
        forall k | 0 < k < |es|
          ensures es[k] == rest[k - 1]
        {
        }
        if FirstEnter(rest).Some? {
          var k :| 0 <= k < |rest| && rest[k].kind == Enter && rest[k].timestamp == FirstEnter(rest).value;
          assert es[k + 1] == rest[k];
        }
      }
    }
  }

  /** On time-ordered records, the last EXIT is the latest, and there is none only when no record is an EXIT. */
  lemma {:induction false} LastExitIsLatest(es: seq<Record>)
    requires SortedBy(es, Timestamp)
    ensures LastExit(es).None? <==> forall k :: 0 <= k < |es| ==> es[k].kind != Exit
    ensures LastExit(es).Some? ==>
              (exists k :: 0 <= k < |es| && es[k].kind == Exit && es[k].timestamp == LastExit(es).value)
              && forall k :: 0 <= k < |es| && es[k].kind == Exit ==> es[k].timestamp <= LastExit(es).value
    decreases |es|
  {
    if |es| > 0 {
      var rest := es[1..];
      assert SortedBy(rest, Timestamp);
      LastExitIsLatest(rest);
      forall k | 0 < k < |es|
        ensures es[k] == rest[k - 1]
      {
      }
      if LastExit(rest).Some? {
        var k :| 0 <= k < |rest| && rest[k].kind == Exit && rest[k].timestamp == LastExit(rest).value;
        assert es[k + 1] == rest[k];
        assert Timestamp(es[0]) <= Timestamp(es[k + 1]);
      }
    }
  }

  lemma {:induction false} OnlySorted(rs: seq<Record>, g: nat)
    requires SortedBy(rs, Timestamp)
    ensures SortedBy(Only(rs, g), Timestamp)
    decreases |rs|
  {
    if |rs| > 0 {
      var rest := rs[1..];
      assert SortedBy(rest, Timestamp);
      OnlySorted(rest, g);
      if rs[0].geofence == g {
        var os := Only(rest, g);
        OnlyMembers(rest, g);
        forall k | 0 <= k < |os|
          ensures rs[0].timestamp <= os[k].timestamp
        {
          assert os[k] in rest;
          var j :| 0 <= j < |rest| && rest[j] == os[k];
          assert rs[j + 1] == rest[j];
        }
      }
    }
  }

  // ----- The endpoint -----

  /** The user's records of the day, in storage order. */
  function UserDay(store: seq<Record>, user: nat, day: DayWindow): (rs: seq<Record>)
    ensures forall r :: r in rs <==> r in store && r.user == user && InDay(r, day)
  {
    if |store| == 0 then []
    else
      assert forall x :: x in store <==> x == store[0] || x in store[1..];
      (if store[0].user == user && InDay(store[0], day) then [store[0]] else []) + UserDay(store[1..], user, day)
  }

  /** Each of the user's records of the day is kept as often as it is stored, and no other is. */
  lemma {:induction false} UserDayCounts(store: seq<Record>, user: nat, day: DayWindow)
    ensures forall r :: multiset(UserDay(store, user, day))[r]
                        == if r.user == user && InDay(r, day) then multiset(store)[r] else 0
    decreases |store|
  {
    if |store| > 0 {
      UserDayCounts(store[1..], user, day);
      assert store == [store[0]] + store[1..];
    }
  }

  datatype LocationSummary = LocationSummary(summary: GeofenceSummary, totalWorkMinutes: int)

  datatype Summary = Summary(summaryByGeofence: seq<LocationSummary>, totalLocations: nat, totalEvents: nat)

  function WithMinutes(groups: seq<GeofenceSummary>, store: seq<Record>, user: nat, day: DayWindow, now: int)
    : (ls: seq<LocationSummary>)
    ensures |ls| == |groups|
    ensures forall i :: 0 <= i < |groups| ==> ls[i].summary == groups[i]
    ensures forall i :: 0 <= i < |groups| ==>
              ls[i].totalWorkMinutes == WorkSessionMinutes(store, user, groups[i].geofence, day, now)
  {
    if |groups| == 0 then []
    else
      [LocationSummary(groups[0], WorkSessionMinutes(store, user, groups[0].geofence, day, now))]
        + WithMinutes(groups[1..], store, user, day, now)
  }

  /** The summary of `day` for `user` at time `now`. */
  function DaySummary(store: seq<Record>, user: nat, day: DayWindow, now: int): (s: Summary)
    ensures s.totalEvents == |UserDay(store, user, day)|
    ensures s.totalEvents == 0 <==> forall r :: r in store && r.user == user ==> !InDay(r, day)
    ensures s.totalLocations == |s.summaryByGeofence|
  {
    var records := SortBy(UserDay(store, user, day), Timestamp);
    var groups := GroupDay(records);
    Summary(WithMinutes(groups, store, user, day, now), |groups|, |records|)
  }

  /** Each group holds a geofence of its own, and exactly that geofence's
      records of the user's day, in time order; the group's worked minutes
      are those of `getWorkSessionDuration` for that geofence and day. */
  lemma DaySummaryGroups(store: seq<Record>, user: nat, day: DayWindow, now: int)
    ensures var gs := DaySummary(store, user, day, now).summaryByGeofence;
            && (forall i, j :: 0 <= i < j < |gs| ==> gs[i].summary.geofence != gs[j].summary.geofence)
            && forall i :: 0 <= i < |gs| ==>
                 var s := gs[i].summary;
                 && |s.events| > 0
                 && SortedBy(s.events, Timestamp)
                 && (forall r :: r in s.events <==>
                       r in store && r.user == user && InDay(r, day) && r.geofence == s.geofence)
                 && gs[i].totalWorkMinutes == WorkSessionMinutes(store, user, s.geofence, day, now)
  {
    var records := SortBy(UserDay(store, user, day), Timestamp);
    GroupDayMatches(records);
    IdsFacts(records);
    forall r
      ensures r in records <==> r in store && r.user == user && InDay(r, day)
    {
      assert r in records <==> r in multiset(UserDay(store, user, day));
    }
    forall g
      ensures SortedBy(Only(records, g), Timestamp)
      ensures forall r :: r in Only(records, g) <==> r in records && r.geofence == g
    {
      OnlySorted(records, g);
      OnlyMembers(records, g);
    }
  }

  /** The summary's groups are the reference groups of the sorted day. */
  lemma SummaryAt(store: seq<Record>, user: nat, day: DayWindow, now: int, records: seq<Record>, i: nat)
    requires records == SortBy(UserDay(store, user, day), Timestamp)
    requires i < |Ids(records)|
    ensures |DaySummary(store, user, day, now).summaryByGeofence| == |Ids(records)|
    ensures DaySummary(store, user, day, now).summaryByGeofence[i].summary == Summarize(records, Ids(records)[i])
  {
    GroupDayMatches(records);
  }

  /** Every record of the user's day lands in the group of its geofence. */
  lemma DaySummaryCovers(store: seq<Record>, user: nat, day: DayWindow, now: int, r: Record)
    requires r in store && r.user == user && InDay(r, day)
    ensures var gs := DaySummary(store, user, day, now).summaryByGeofence;
            exists i :: 0 <= i < |gs| && gs[i].summary.geofence == r.geofence && r in gs[i].summary.events
  {
    var records := SortBy(UserDay(store, user, day), Timestamp);
    assert r in UserDay(store, user, day);
    assert r in multiset(records);
    OnlyMembers(records, r.geofence);
    assert r in Only(records, r.geofence);
    IdsFacts(records);
    var ids := Ids(records);
    var i :| 0 <= i < |ids| && ids[i] == r.geofence;
    SummaryAt(store, user, day, now, records, i);
    var gs := DaySummary(store, user, day, now).summaryByGeofence;
    assert gs[i].summary.geofence == r.geofence && r in gs[i].summary.events;
  }

  /** The group's `firstEntry` is its earliest ENTER and `lastExit` its latest
      EXIT; each is null only when the group has no event of that kind. */
  lemma DaySummaryEndpoints(store: seq<Record>, user: nat, day: DayWindow, now: int, i: nat)
    requires i < |DaySummary(store, user, day, now).summaryByGeofence|
    ensures var s := DaySummary(store, user, day, now).summaryByGeofence[i].summary;
            && (s.firstEntry.None? <==> forall k :: 0 <= k < |s.events| ==> s.events[k].kind != Enter)
            && (s.firstEntry.Some? ==> exists k :: 0 <= k < |s.events| && s.events[k].kind == Enter
                                                     && s.events[k].timestamp == s.firstEntry.value)
            && (s.firstEntry.Some? ==> forall k :: 0 <= k < |s.events| && s.events[k].kind == Enter ==>
                                         s.firstEntry.value <= s.events[k].timestamp)
            && (s.lastExit.None? <==> forall k :: 0 <= k < |s.events| ==> s.events[k].kind != Exit)
            && (s.lastExit.Some? ==> exists k :: 0 <= k < |s.events| && s.events[k].kind == Exit
                                                   && s.events[k].timestamp == s.lastExit.value)
            && (s.lastExit.Some? ==> forall k :: 0 <= k < |s.events| && s.events[k].kind == Exit ==>
                                       s.events[k].timestamp <= s.lastExit.value)
  {
    var records := SortBy(UserDay(store, user, day), Timestamp);
    SummaryLength(store, user, day, now, records);
    var g := Ids(records)[i];
    SummaryAt(store, user, day, now, records, i);
    OnlySorted(records, g);
    EndpointsOfSorted(Only(records, g));
  }

  lemma SummaryLength(store: seq<Record>, user: nat, day: DayWindow, now: int, records: seq<Record>)
    requires records == SortBy(UserDay(store, user, day), Timestamp)
    ensures |DaySummary(store, user, day, now).summaryByGeofence| == |Ids(records)|
  {
    GroupDayMatches(records);
  }

  /** The summary fields of time-ordered events are their extreme ENTER and EXIT. */
  lemma EndpointsOfSorted(es: seq<Record>)
    requires SortedBy(es, Timestamp)
    ensures var s := GeofenceSummary(0, es, FirstEnter(es), LastExit(es));
            && (s.firstEntry.None? <==> forall k :: 0 <= k < |s.events| ==> s.events[k].kind != Enter)
            && (s.firstEntry.Some? ==> exists k :: 0 <= k < |s.events| && s.events[k].kind == Enter
                                                     && s.events[k].timestamp == s.firstEntry.value)
            && (s.firstEntry.Some? ==> forall k :: 0 <= k < |s.events| && s.events[k].kind == Enter ==>
                                         s.firstEntry.value <= s.events[k].timestamp)
            && (s.lastExit.None? <==> forall k :: 0 <= k < |s.events| ==> s.events[k].kind != Exit)
            && (s.lastExit.Some? ==> exists k :: 0 <= k < |s.events| && s.events[k].kind == Exit
                                                   && s.events[k].timestamp == s.lastExit.value)
            && (s.lastExit.Some? ==> forall k :: 0 <= k < |s.events| && s.events[k].kind == Exit ==>
                                       s.events[k].timestamp <= s.lastExit.value)
  {
    FirstEnterIsEarliest(es);
    LastExitIsLatest(es);
  }
}

=== FILE: geofence_admin.dfy ===
/** The relational server's geofence controller: the authorisation ladder
    of create and delete, and the polygon-to-WKT serialiser. Rows are a
    sequence; coordinates of polygon vertices are kept as the text they are
    rendered to, since only that text reaches the WKT string. */
module GeofenceAdmin {
  import opened Common
  import opened Text

  /** The decoded token: user id, role and company. */
  datatype Caller = Caller(id: nat, role: string, company: nat)

  /** A polygon vertex as its rendered array elements (`${p[0]}`, `${p[1]}`). */
  type Point = seq<string>

  datatype Shape = PolygonWkt(wkt: string) | CirclePoint(latitude: Option<real>, longitude: Option<real>, radius: Option<real>)

  datatype Row = Row(id: nat, company: nat, createdBy: nat, shape: Shape)

  datatype CreateRequest = CreateRequest(geofenceType: Option<string>, polygon: Option<seq<Point>>,
                                         latitude: Option<real>, longitude: Option<real>, radius: Option<real>)

  /** `ServerError` is the `catch` block's 500. */
  datatype Outcome = Unauthorized | Forbidden | BadRequest | NotFound | ServerError | Done(row: Row)

  function Status(o: Outcome): int
  {
    match o
    case Unauthorized => 401
    case Forbidden => 403
    case BadRequest => 400
    case NotFound => 404
    case ServerError => 500
    case Done(_) => 201
  }

  predicate IsAdmin(c: Caller)
  {
    c.role == "admin"
  }

  // ----- WKT -----

  /** `p[k]` rendered into a template: a missing element reads "undefined". */
  function Elem(p: Point, k: nat): string
  {
    if k < |p| then p[k] else "undefined"
  }

  /** `${p[0]} ${p[1]}`. */
  function PairText(p: Point): string
  {
    Elem(p, 0) + " " + Elem(p, 1)
  }

  function PairTexts(ps: seq<Point>): (ts: seq<string>)
    ensures |ts| == |ps|
    ensures forall i :: 0 <= i < |ps| ==> ts[i] == PairText(ps[i])
  {
    if |ps| == 0 then [] else [PairText(ps[0])] + PairTexts(ps[1..])
  }

  const WktPrefix: string := "POLYGON(("
  const WktSuffix: string := "))"

  /** The ring's text: every vertex in order, then the first again. */
  function RingText(ps: seq<Point>): string
    requires |ps| > 0
  {
    Join(PairTexts(ps), ',') + "," + PairText(ps[0])
  }

  function Wkt(ps: seq<Point>): string
    requires |ps| > 0
  {
    WktPrefix + RingText(ps) + WktSuffix
  }

  /** Reads a WKT polygon back into its coordinate pairs. */
  function ParseRing(wkt: string): Option<seq<(string, string)>>
  {
    if |wkt| >= |WktPrefix| + |WktSuffix| && wkt[..|WktPrefix|] == WktPrefix && wkt[|wkt| - |WktSuffix|..] == WktSuffix
    then ParsePairs(Split(wkt[|WktPrefix|..|wkt| - |WktSuffix|], ','))
    else None
  }

  function ParsePairs(parts: seq<string>): Option<seq<(string, string)>>
  {
    if |parts| == 0 then Some([])
    else
      var xy := Split(parts[0], ' ');
      if |xy| != 2 then None
      else
        match ParsePairs(parts[1..])
        case None => None
        case Some(rest) => Some([(xy[0], xy[1])] + rest)
  }

  /** The two coordinates of a vertex, as the WKT holds them. */
  function Coords(ps: seq<Point>): (cs: seq<(string, string)>)
    ensures |cs| == |ps|
    ensures forall i :: 0 <= i < |ps| ==> cs[i] == (Elem(ps[i], 0), Elem(ps[i], 1))
  {
    if |ps| == 0 then [] else [(Elem(ps[0], 0), Elem(ps[0], 1))] + Coords(ps[1..])
  }

  /** A vertex whose rendered coordinates hold no separator of the WKT text. */
  predicate PlainPoint(p: Point)
  {
    ' ' !in Elem(p, 0) && ',' !in Elem(p, 0) && ' ' !in Elem(p, 1) && ',' !in Elem(p, 1)
  }

  lemma {:induction false} JoinAppend(xs: seq<string>, y: string, sep: char)
    requires |xs| >= 1
    ensures Join(xs + [y], sep) == Join(xs, sep) + [sep] + y
    decreases |xs|
  {
    if |xs| == 1 {
      assert (xs + [y])[1..] == [y];
    } else {
      assert (xs + [y])[1..] == xs[1..] + [y];
      JoinAppend(xs[1..], y, sep);
    }
  }

  lemma PairTextSplits(p: Point)
    requires PlainPoint(p)
    ensures ',' !in PairText(p)
    ensures Split(PairText(p), ' ') == [Elem(p, 0), Elem(p, 1)]
  {
    var x, y := Elem(p, 0), Elem(p, 1);
    assert PairText(p) == x + " " + y;
    assert Join([x, y], ' ') == x + [' '] + y;
    SplitJoin([x, y], ' ');
  }

  lemma {:induction false} ParsePairsOfTexts(ps: seq<Point>)
    requires forall i :: 0 <= i < |ps| ==> PlainPoint(ps[i])
    ensures ParsePairs(PairTexts(ps)) == Some(Coords(ps))
    decreases |ps|
  {
    if |ps| > 0 {
      PairTextSplits(ps[0]);
      assert PairTexts(ps)[1..] == PairTexts(ps[1..]);
      ParsePairsOfTexts(ps[1..]);
    }
  }

  lemma StripWkt(body: string)
    ensures ParseRing(WktPrefix + body + WktSuffix) == ParsePairs(Split(body, ','))
  {
    var wkt := WktPrefix + body + WktSuffix;
    assert wkt[..|WktPrefix|] == WktPrefix;
    assert wkt[|wkt| - |WktSuffix|..] == WktSuffix;
    assert wkt[|WktPrefix|..|wkt| - |WktSuffix|] == body;
  }

  lemma {:induction false} PairTextsAppend(ps: seq<Point>, q: Point)
    ensures PairTexts(ps + [q]) == PairTexts(ps) + [PairText(q)]
    decreases |ps|
  {
    if |ps| > 0 {
      assert (ps + [q])[1..] == ps[1..] + [q];
      PairTextsAppend(ps[1..], q);
    }
  }

  lemma WktIsJoin(ps: seq<Point>)
    requires |ps| > 0
    ensures RingText(ps) == Join(PairTexts(ps + [ps[0]]), ',')
  {
    var xs, t := PairTexts(ps), PairText(ps[0]);
    PairTextsAppend(ps, ps[0]);
    JoinAppend(xs, t, ',');
    assert RingText(ps) == Join(xs, ',') + [','] + t;
  }

  lemma ParseTexts(ring: seq<Point>)
    requires |ring| > 0
    requires forall i :: 0 <= i < |ring| ==> PlainPoint(ring[i])
    ensures ParsePairs(Split(Join(PairTexts(ring), ','), ',')) == Some(Coords(ring))
  {
    var texts := PairTexts(ring);
    forall i | 0 <= i < |texts|
      ensures ',' !in texts[i]
    {
      PairTextSplits(ring[i]);
    }
    SplitJoin(texts, ',');
    ParsePairsOfTexts(ring);
  }

  /** For vertices whose coordinates hold no separator, the WKT reads back
      as the vertices in input order followed by the first vertex again:
      `n` points give `n + 1` pairs and a closed ring. */
  lemma WktRoundTrip(ps: seq<Point>)
    requires |ps| > 0
    requires forall i :: 0 <= i < |ps| ==> PlainPoint(ps[i])
    ensures ParseRing(Wkt(ps)) == Some(Coords(ps) + [Coords(ps)[0]])
  {
    var ring := ps + [ps[0]];
    var body := Join(PairTexts(ring), ',');
    WktIsJoin(ps);
    assert Wkt(ps) == WktPrefix + body + WktSuffix;
    forall i | 0 <= i < |ring|
      ensures PlainPoint(ring[i])
    {
      if i == |ps| {
        assert ring[i] == ps[0];
      } else {
        assert ring[i] == ps[i];
      }
    }
    ParseTexts(ring);
    StripWkt(body);
    assert ParseRing(Wkt(ps)) == Some(Coords(ring));
    CoordsAppend(ps, ps[0]);
  }

  lemma {:induction false} CoordsAppend(ps: seq<Point>, q: Point)
    ensures Coords(ps + [q]) == Coords(ps) + [(Elem(q, 0), Elem(q, 1))]
  {
    var a, b := Coords(ps + [q]), Coords(ps) + [(Elem(q, 0), Elem(q, 1))];
    assert |a| == |b|;
    forall i | 0 <= i < |a|
      ensures a[i] == b[i]
    {
      if i < |ps| {
        assert (ps + [q])[i] == ps[i];
      }
    }
  }

  // ----- createGeofence -----

  /** `createGeofence`: 401 without a caller and 403 for a non-admin before
      anything else; a 'polygon' request needs at least three vertices; any
      other type, or none, takes the circle branch. Returns the outcome and
      the rows afterwards; `freshId` is the id the database assigns and
      `insertOk` whether it accepts the INSERT (it refuses, for instance, a
      WKT with an "undefined" coordinate); a refused INSERT is a 500. */
  function CreateGeofence(caller: Option<Caller>, req: CreateRequest, rows: seq<Row>, freshId: nat, insertOk: bool)
    : (r: (Outcome, seq<Row>))
    ensures caller.None? ==> r == (Unauthorized, rows)
    ensures caller.Some? && !IsAdmin(caller.value) ==> r == (Forbidden, rows)
    ensures r.0.BadRequest? <==>
              caller.Some? && IsAdmin(caller.value) && req.geofenceType == Some("polygon")
              && (req.polygon.None? || |req.polygon.value| < 3)
    ensures r.0.ServerError? <==> caller.Some? && IsAdmin(caller.value) && !r.0.BadRequest? && !insertOk
    ensures r.0.Done? <==> caller.Some? && IsAdmin(caller.value) && !r.0.BadRequest? && insertOk
    ensures !r.0.Done? ==> r.1 == rows
    ensures r.0.Done? ==>
              && caller.Some? && IsAdmin(caller.value)
              && r.1 == rows + [r.0.row]
              && r.0.row.company == caller.value.company && r.0.row.createdBy == caller.value.id
              && (req.geofenceType == Some("polygon") <==> r.0.row.shape.PolygonWkt?)
    ensures r.0.Done? ==> r.0.row.id == freshId
    ensures r.0.Done? && req.geofenceType == Some("polygon") ==>
              req.polygon.Some? && r.0.row.shape == PolygonWkt(Wkt(req.polygon.value))
    ensures r.0.Done? && req.geofenceType != Some("polygon") ==>
              r.0.row.shape == CirclePoint(req.latitude, req.longitude, req.radius)
  {
    match caller
    case None => (Unauthorized, rows)
    case Some(c) =>
      if !IsAdmin(c) then (Forbidden, rows)
      else if req.geofenceType == Some("polygon") then
        if req.polygon.None? || |req.polygon.value| < 3 then (BadRequest, rows)
        else if !insertOk then (ServerError, rows)
        else
          var row := Row(freshId, c.company, c.id, PolygonWkt(Wkt(req.polygon.value)));
          (Done(row), rows + [row])
      else if !insertOk then (ServerError, rows)
      else
        var row := Row(freshId, c.company, c.id, CirclePoint(req.latitude, req.longitude, req.radius));
        (Done(row), rows + [row])
  }

  /** A stored polygon's ring is its vertices in order, closed by the first. */
  lemma StoredPolygonIsClosed(c: Caller, req: CreateRequest, rows: seq<Row>, freshId: nat)
    requires CreateGeofence(Some(c), req, rows, freshId, true).0.Done?
    requires req.geofenceType == Some("polygon")
    requires forall i :: 0 <= i < |req.polygon.value| ==> PlainPoint(req.polygon.value[i])
    ensures var shape := CreateGeofence(Some(c), req, rows, freshId, true).0.row.shape;
            var cs := Coords(req.polygon.value);
            && ParseRing(shape.wkt) == Some(cs + [cs[0]])
            && |cs| >= 3
  {
    WktRoundTrip(req.polygon.value);
  }

  // ----- deleteGeofence -----

  /** `SELECT company_id FROM geofences WHERE id = $1`: the first row's company. */
  function CompanyOf(rows: seq<Row>, id: int): (c: Option<nat>)
    ensures c.None? <==> forall k :: 0 <= k < |rows| ==> rows[k].id != id
  {
    if |rows| == 0 then None
    else if rows[0].id == id then Some(rows[0].company)
    else CompanyOf(rows[1..], id)
  }

  function DeleteRows(rows: seq<Row>, id: int): (r: seq<Row>)
    ensures forall x :: x in r <==> x in rows && x.id != id
  {
    if |rows| == 0 then []
    else
      assert forall x :: x in rows <==> x == rows[0] || x in rows[1..];
      (if rows[0].id == id then [] else [rows[0]]) + DeleteRows(rows[1..], id)
  }

  /** `DeleteFailed` is the `catch` block's 500. */
  datatype DeleteOutcome = DeleteForbidden | DeleteNotFound | OtherCompany | DeleteFailed | Deleted

  function DeleteStatus(o: DeleteOutcome): int
  {
    match o
    case DeleteForbidden => 403
    case DeleteNotFound => 404
    case OtherCompany => 403
    case DeleteFailed => 500
    case Deleted => 200
  }

  /** `deleteGeofence`: the checks in order are admin, existence, company.
      `id` is the `:id` path parameter as the database reads it, `None` when
      it is not integer text, which makes the SELECT throw; `selectOk` and
      `deleteOk` say whether the database answers the two queries. Every
      throw is a 500 that deletes nothing. */
  function DeleteGeofence(caller: Option<Caller>, id: Option<int>, rows: seq<Row>, selectOk: bool, deleteOk: bool)
    : (r: (DeleteOutcome, seq<Row>))
    ensures r.0 != Deleted ==> r.1 == rows
    ensures r.0 == DeleteForbidden <==> caller.None? || !IsAdmin(caller.value)
    ensures r.0 == Deleted <==>
              caller.Some? && IsAdmin(caller.value) && id.Some? && selectOk && deleteOk
              && CompanyOf(rows, id.value) == Some(caller.value.company)
    ensures r.0 == Deleted ==> forall x :: x in r.1 <==> x in rows && x.id != id.value
    ensures r.0 == DeleteFailed <==>
              caller.Some? && IsAdmin(caller.value)
              && (id.None? || !selectOk || (CompanyOf(rows, id.value) == Some(caller.value.company) && !deleteOk))
  {
    if caller.None? || !IsAdmin(caller.value) then (DeleteForbidden, rows)
    else if id.None? || !selectOk then (DeleteFailed, rows)
    else
      match CompanyOf(rows, id.value)
      case None => (DeleteNotFound, rows)
      case Some(company) =>
        if company != caller.value.company then (OtherCompany, rows)
        else if !deleteOk then (DeleteFailed, rows)
        else (Deleted, DeleteRows(rows, id.value))
  }

  /** A non-admin learns nothing about the rows: the answer is the same
      whatever is stored and whatever the database does. */
  lemma NonAdminLearnsNothing(caller: Option<Caller>, id: Option<int>, rows1: seq<Row>, rows2: seq<Row>,
                              select1: bool, delete1: bool, select2: bool, delete2: bool)
    requires caller.None? || !IsAdmin(caller.value)
    ensures DeleteGeofence(caller, id, rows1, select1, delete1).0 == DeleteGeofence(caller, id, rows2, select2, delete2).0
  {
  }

  /** An admin of another company is told whether the id exists: 404 for an
      unknown id, 403 for a row of another company, whether or not the
      DELETE would have succeeded. */
  lemma ForeignAdminSeesExistence(c: Caller, id: int, rows: seq<Row>, deleteOk: bool)
    requires IsAdmin(c)
    ensures CompanyOf(rows, id).None? ==> DeleteGeofence(Some(c), Some(id), rows, true, deleteOk).0 == DeleteNotFound
    ensures CompanyOf(rows, id).Some? && CompanyOf(rows, id) != Some(c.company) ==>
              DeleteGeofence(Some(c), Some(id), rows, true, deleteOk).0 == OtherCompany
  {
  }

  /** A successful delete removes the id for good: deleting it again is a 404. */
  lemma DeleteIsFinal(c: Caller, id: int, rows: seq<Row>, deleteOk: bool)
    requires DeleteGeofence(Some(c), Some(id), rows, true, true).0 == Deleted
    ensures var after := DeleteGeofence(Some(c), Some(id), rows, true, true).1;
            DeleteGeofence(Some(c), Some(id), after, true, deleteOk).0 == DeleteNotFound
  {
    var after := DeleteGeofence(Some(c), Some(id), rows, true, true).1;
    forall k | 0 <= k < |after|
      ensures after[k].id != id
    {
      assert after[k] in after;
    }
  }
}

=== FILE: geofence_routes.dfy ===
/** The geofence routes of the document-store server: the request schema,
    create, update, soft delete and the active-only listing. The store is a
    sequence of documents; the database calls are the sequence operations. */
module GeofenceRoutes {
  import opened Common
  import opened Text
  import opened WorkingWindow
  import opened Sorting
  import opened Pagination

  datatype OfficeInfo = OfficeInfo(address: Option<string>, workingHours: Option<WorkingHours>,
                                   workingDays: Option<seq<string>>)

  /** A request body; an absent key is `None`. */
  datatype GeofenceInput = GeofenceInput(
    name: Option<string>, description: Option<string>,
    centerLatitude: Option<real>, centerLongitude: Option<real>, radius: Option<real>,
    isActive: Option<bool>, officeInfo: Option<OfficeInfo>)

  /** A body that passed the schema, with strings trimmed. */
  datatype ValidInput = ValidInput(
    name: string, description: Option<string>,
    centerLatitude: real, centerLongitude: real, radius: real,
    isActive: Option<bool>, officeInfo: Option<OfficeInfo>)

  /** A stored geofence document. */
  datatype Geofence = Geofence(
    id: nat, name: string, description: Option<string>,
    centerLatitude: real, centerLongitude: real, radius: real,
    isActive: bool, officeInfo: Option<OfficeInfo>, createdBy: nat, createdAt: int)

  // ----- The schema -----

  /** `Joi.string().trim()`, with `.max(n)` when `maxLen` is `Some(n)`: the
      trimmed value, or `None` when it is empty (Joi refuses empty strings)
      or too long. */
  function TrimmedString(s: string, maxLen: Option<nat>): (r: Option<string>)
    ensures r.Some? <==> 0 < |Trim(s)| && (maxLen.Some? ==> |Trim(s)| <= maxLen.value)
    ensures r.Some? ==> r.value == Trim(s)
  {
    var t := Trim(s);
    if 0 < |t| && (maxLen.Some? ==> |t| <= maxLen.value) then Some(t) else None
  }

  /** An optional trimmed string: absent stays absent, present must pass. */
  function OptionalTrimmed(s: Option<string>, maxLen: Option<nat>): Option<Option<string>>
  {
    match s
    case None => Some(None)
    case Some(v) =>
      match TrimmedString(v, maxLen)
      case None => None
      case Some(t) => Some(Some(t))
  }

  predicate ValidTimeField(s: Option<string>)
  {
    s.None? || IsTimePattern(s.value)
  }

  predicate ValidWorkingDays(days: Option<seq<string>>)
  {
    days.None? || forall i :: 0 <= i < |days.value| ==> days.value[i] in DayNames
  }

  function ValidateOfficeInfo(o: OfficeInfo): Option<OfficeInfo>
  {
    match OptionalTrimmed(o.address, None)
    case None => None
    case Some(address) =>
      if (o.workingHours.Some? ==> ValidTimeField(o.workingHours.value.start) && ValidTimeField(o.workingHours.value.end))
         && ValidWorkingDays(o.workingDays)
      then Some(OfficeInfo(address, o.workingHours, o.workingDays))
      else None
  }

  predicate InRange(v: Option<real>, lo: real, hi: real)
  {
    v.Some? && lo <= v.value <= hi
  }

  /** `geofenceSchema.validate(body)`; `None` is a validation error. */
  function Validate(input: GeofenceInput): Option<ValidInput>
  {
    if input.name.None? then None
    else
      match (TrimmedString(input.name.value, Some(100)), OptionalTrimmed(input.description, Some(500)))
      case (Some(name), Some(description)) =>
        if InRange(input.centerLatitude, -90.0, 90.0)
           && InRange(input.centerLongitude, -180.0, 180.0)
           && InRange(input.radius, 1.0, 5000.0)
        then
          match input.officeInfo
          case None =>
            Some(ValidInput(name, description, input.centerLatitude.value, input.centerLongitude.value,
                            input.radius.value, input.isActive, None))
          case Some(o) =>
            match ValidateOfficeInfo(o)
            case None => None
            case Some(office) =>
              Some(ValidInput(name, description, input.centerLatitude.value, input.centerLongitude.value,
                              input.radius.value, input.isActive, Some(office)))
        else None
      case _ => None
  }

  /** What the schema guarantees of every accepted body. */
  lemma AcceptedInputIsInRange(input: GeofenceInput)
    requires Validate(input).Some?
    ensures var v := Validate(input).value;
            && -90.0 <= v.centerLatitude <= 90.0
            && -180.0 <= v.centerLongitude <= 180.0
            && 1.0 <= v.radius <= 5000.0
            && 0 < |v.name| <= 100
            && v.name == Trim(input.name.value)
            && (v.officeInfo.Some? && v.officeInfo.value.workingHours.Some? ==>
                  ValidTimeField(v.officeInfo.value.workingHours.value.start)
                  && ValidTimeField(v.officeInfo.value.workingHours.value.end))
            && (v.officeInfo.Some? ==> ValidWorkingDays(v.officeInfo.value.workingDays))
  {
  }

  /** Every configured working-hours end of an accepted body reads as a minute of the day. */
  lemma AcceptedHoursParse(input: GeofenceInput)
    requires Validate(input).Some?
    requires var v := Validate(input).value;
             v.officeInfo.Some? && v.officeInfo.value.workingHours.Some?
             && v.officeInfo.value.workingHours.value.start.Some?
    ensures var s := Validate(input).value.officeInfo.value.workingHours.value.start.value;
            ParseClock(s).Some? && 0 <= ParseClock(s).value <= 1439
  {
    AcceptedInputIsInRange(input);
    PatternParses(Validate(input).value.officeInfo.value.workingHours.value.start.value);
  }

  /** Radius bounds are 1 to 5000 inclusive and the radius is required: an
      accepted body stays accepted with another radius exactly when that
      radius is in range, and then only the radius of the result changes. */
  lemma RadiusBounds(input: GeofenceInput, x: real)
    requires Validate(input).Some?
    ensures Validate(input.(radius := None)).None?
    ensures Validate(input.(radius := Some(x))).Some? <==> 1.0 <= x <= 5000.0
    ensures 1.0 <= x <= 5000.0 ==>
              Validate(input.(radius := Some(x))) == Some(Validate(input).value.(radius := x))
  {
  }

  // ----- Store operations -----

  /** `findById`: the position of the document with that id. */
  function Find(store: seq<Geofence>, id: nat): (i: Option<nat>)
    ensures i.Some? ==> i.value < |store| && store[i.value].id == id
    ensures i.None? ==> forall k :: 0 <= k < |store| ==> store[k].id != id
  {
    if |store| == 0 then None
    else if store[0].id == id then Some(0)
    else
      match Find(store[1..], id)
      case None => None
      case Some(k) => Some(k + 1)
  }

  datatype WriteOutcome = ValidationError | NotFound | Written(geofence: Geofence)

  function WriteStatus(o: WriteOutcome, created: bool): int
  {
    match o
    case ValidationError => 400
    case NotFound => 404
    case Written(_) => if created then 201 else 200
  }

  /** POST: validate, then store a new document; `isActive` defaults to true. */
  function Create(store: seq<Geofence>, input: GeofenceInput, creator: nat, freshId: nat, now: int)
    : (r: (WriteOutcome, seq<Geofence>))
    ensures r.0.ValidationError? <==> Validate(input).None?
    ensures r.0.ValidationError? ==> r.1 == store
    ensures Validate(input).Some? ==> r.0.Written?
    ensures r.0.Written? ==> r.1 == store + [r.0.geofence]
    ensures r.0.Written? ==>
              var v, g := Validate(input).value, r.0.geofence;
              && g.id == freshId && g.createdBy == creator && g.createdAt == now
              && g.name == v.name && g.description == v.description
              && g.centerLatitude == v.centerLatitude && g.centerLongitude == v.centerLongitude
              && g.radius == v.radius && g.officeInfo == v.officeInfo
              && (g.isActive <==> v.isActive.None? || v.isActive.value)
  {
    match Validate(input)
    case None => (ValidationError, store)
    case Some(v) =>
      var isActive := if v.isActive.Some? then v.isActive.value else true;
      var g := Geofence(freshId, v.name, v.description, v.centerLatitude, v.centerLongitude, v.radius,
                        isActive, v.officeInfo, creator, now);
      (Written(g), store + [g])
  }

  /** A created document is found again under its fresh id, at the end of the store. */
  lemma {:induction false} CreateThenFind(store: seq<Geofence>, input: GeofenceInput, creator: nat, freshId: nat, now: int)
    requires forall k :: 0 <= k < |store| ==> store[k].id != freshId
    requires Create(store, input, creator, freshId, now).0.Written?
    ensures var after := Create(store, input, creator, freshId, now).1;
            Find(after, freshId) == Some(|store|) && after[|store|] == Create(store, input, creator, freshId, now).0.geofence
  {
    FindPastMisses(store, Create(store, input, creator, freshId, now).0.geofence);
  }

  /** Appending a document whose id nothing before it carries makes it the first match. */
  lemma {:induction false} FindPastMisses(store: seq<Geofence>, g: Geofence)
    requires forall k :: 0 <= k < |store| ==> store[k].id != g.id
    ensures Find(store + [g], g.id) == Some(|store|)
    decreases |store|
  {
    if |store| > 0 {
      assert (store + [g])[1..] == store[1..] + [g];
      FindPastMisses(store[1..], g);
    }
  }

  /** `Object.assign(geofence, value)`: the schema's required fields are
      always overwritten, optional ones only when present. */
  function Assign(g: Geofence, v: ValidInput): (r: Geofence)
    ensures r.id == g.id && r.createdBy == g.createdBy && r.createdAt == g.createdAt
    ensures r.name == v.name && r.radius == v.radius
    ensures r.centerLatitude == v.centerLatitude && r.centerLongitude == v.centerLongitude
    ensures r.description == if v.description.Some? then v.description else g.description
    ensures r.isActive == if v.isActive.Some? then v.isActive.value else g.isActive
    ensures r.officeInfo == if v.officeInfo.Some? then v.officeInfo else g.officeInfo
  {
    g.(name := v.name, centerLatitude := v.centerLatitude, centerLongitude := v.centerLongitude,
       radius := v.radius,
       description := if v.description.Some? then v.description else g.description,
       isActive := if v.isActive.Some? then v.isActive.value else g.isActive,
       officeInfo := if v.officeInfo.Some? then v.officeInfo else g.officeInfo)
  }

  /** Sending the same body twice changes nothing the first time did not. */
  lemma AssignIdempotent(g: Geofence, v: ValidInput)
    ensures Assign(Assign(g, v), v) == Assign(g, v)
  {
  }

  /** PUT: validation comes before the lookup; only the addressed document changes. */
  function Update(store: seq<Geofence>, id: nat, input: GeofenceInput): (r: (WriteOutcome, seq<Geofence>))
    ensures Validate(input).None? ==> r == (ValidationError, store)
    ensures Validate(input).Some? && Find(store, id).None? ==> r == (NotFound, store)
    ensures Validate(input).Some? && Find(store, id).Some? ==>
              var i := Find(store, id).value;
              r.0 == Written(Assign(store[i], Validate(input).value)) && r.1 == store[i := r.0.geofence]
    ensures |r.1| == |store|
  {
    match Validate(input)
    case None => (ValidationError, store)
    case Some(v) =>
      match Find(store, id)
      case None => (NotFound, store)
      case Some(i) =>
        var g := Assign(store[i], v);
        (Written(g), store[i := g])
  }

  /** Replacing the first document with an id by one with the same id keeps it the first match. */
  lemma {:induction false} FindAfterReplace(store: seq<Geofence>, id: nat, g: Geofence)
    requires Find(store, id).Some? && g.id == id
    ensures Find(store[Find(store, id).value := g], id) == Find(store, id)
    decreases |store|
  {
    var i := Find(store, id).value;
    if i > 0 {
      assert store[i := g][1..] == store[1..][i - 1 := g];
      FindAfterReplace(store[1..], id, g);
    }
  }

  /** Repeating a PUT with the same body leaves the store as the first one did. */
  lemma UpdateIdempotent(store: seq<Geofence>, id: nat, input: GeofenceInput)
    requires Update(store, id, input).0.Written?
    ensures var after := Update(store, id, input).1;
            Update(after, id, input) == Update(store, id, input)
  {
    var i := Find(store, id).value;
    var g := Update(store, id, input).0.geofence;
    var after := Update(store, id, input).1;
    FindAfterReplace(store, id, g);
    AssignIdempotent(store[i], Validate(input).value);
    assert after[i] == g;
    assert after[i := g] == after;
  }

  /** DELETE: a soft delete that clears `isActive` and nothing else. */
  function SoftDelete(store: seq<Geofence>, id: nat): (r: (WriteOutcome, seq<Geofence>))
    ensures Find(store, id).None? <==> r.0.NotFound?
    ensures r.0.NotFound? ==> r.1 == store
    ensures |r.1| == |store|
    ensures Find(store, id).Some? ==>
              var i := Find(store, id).value;
              r.0 == Written(store[i].(isActive := false)) && r.1 == store[i := r.0.geofence]
  {
    match Find(store, id)
    case None => (NotFound, store)
    case Some(i) =>
      var g := store[i].(isActive := false);
      (Written(g), store[i := g])
  }

  /** A second DELETE of the same id finds the document again and changes nothing. */
  lemma SoftDeleteIdempotent(store: seq<Geofence>, id: nat)
    requires SoftDelete(store, id).0.Written?
    ensures var after := SoftDelete(store, id).1;
            SoftDelete(after, id) == (Written(after[Find(store, id).value]), after)
  {
    var i := Find(store, id).value;
    var after := SoftDelete(store, id).1;
    FindAfterReplace(store, id, after[i]);
    assert after[i := after[i].(isActive := false)] == after;
  }

  // ----- Listing -----

  /** `find({ isActive: true })`: the active documents in store order. */
  function Active(store: seq<Geofence>): (r: seq<Geofence>)
    ensures forall g :: g in r <==> g in store && g.isActive
    ensures |r| <= |store|
  {
    if |store| == 0 then []
    else
      assert forall x :: x in store <==> x == store[0] || x in store[1..];
      (if store[0].isActive then [store[0]] else []) + Active(store[1..])
  }

  /** Each active document is listed as often as it is stored, and no other is. */
  lemma {:induction false} ActiveCounts(store: seq<Geofence>)
    ensures forall g :: multiset(Active(store))[g] == if g.isActive then multiset(store)[g] else 0
    decreases |store|
  {
    if |store| > 0 {
      ActiveCounts(store[1..]);
      assert store == [store[0]] + store[1..];
    }
  }

  function NewestFirst(g: Geofence): int
  {
    -g.createdAt
  }

  datatype Listing = Listing(geofences: seq<Geofence>, pagination: PageInfo)

  /** GET: active documents, newest first, one page of them (default limit
      10), and the count of active documents. `None`: the store refuses a
      negative skip. */
  function List(store: seq<Geofence>, pageParam: Option<int>, limitParam: Option<int>): (r: Option<Listing>)
    ensures r.Some? <==> Paginate(pageParam, limitParam, 10, |Active(store)|).skip >= 0
    ensures r.Some? ==> forall g :: g in r.value.geofences ==> g in store && g.isActive
    ensures r.Some? ==> SortedBy(r.value.geofences, NewestFirst)
    ensures r.Some? ==> r.value.pagination == Paginate(pageParam, limitParam, 10, |Active(store)|).info
    ensures r.Some? ==> r.value.pagination.totalItems == |Active(store)|
    ensures r.Some? ==>
              var p := Paginate(pageParam, limitParam, 10, |Active(store)|);
              IsPageOf(r.value.geofences, SortBy(Active(store), NewestFirst), p.skip, p.limit)
  {
    var active := Active(store);
    var sorted := SortBy(active, NewestFirst);
    var p := Paginate(pageParam, limitParam, 10, |active|);
    match Window(sorted, p.skip, p.limit)
    case None => None
    case Some(page) =>
      WindowSorted(sorted, p.skip, p.limit, NewestFirst);
      assert forall g :: g in page ==> g in sorted;
      assert forall g :: g in sorted ==> g in multiset(active);
      Some(Listing(page, p.info))
  }

  /** Paging through the listing with a positive limit shows every active
      geofence: the one ranked `k` newest-first is at position `k % limit` of
      page `k / limit + 1`. */
  lemma ListShowsEveryActive(store: seq<Geofence>, limit: int, k: nat)
    requires limit >= 1 && k < |Active(store)|
    ensures var r := List(store, Some(k / limit + 1), Some(limit));
            && r.Some?
            && k % limit < |r.value.geofences|
            && r.value.geofences[k % limit] == SortBy(Active(store), NewestFirst)[k]
  {
    ItemOnItsPage(SortBy(Active(store), NewestFirst), limit, 10, k);
  }

  /** After a soft delete the document is still stored but no longer listed. */
  lemma SoftDeletedIsHidden(store: seq<Geofence>, id: nat, pageParam: Option<int>, limitParam: Option<int>)
    requires SoftDelete(store, id).0.Written?
    requires forall i, j :: 0 <= i < j < |store| ==> store[i].id != store[j].id
    ensures var after := SoftDelete(store, id).1;
            && Find(after, id).Some?
            && (List(after, pageParam, limitParam).Some? ==>
                  forall g :: g in List(after, pageParam, limitParam).value.geofences ==> g.id != id)
  {
    var after := SoftDelete(store, id).1;
    var i := Find(store, id).value;
    assert after[i].id == id;
    forall g | g in after && g.isActive
      ensures g.id != id
    {
      var k :| 0 <= k < |after| && after[k] == g;
      if k != i {
        assert store[k].id != store[i].id;
      }
    }
  }
}

=== FILE: geofencing_client.dfy ===
/** The mobile client's geofencing service: a list of tracked geofences,
    each with an `isInside` flag, an edge detector run on every location
    update, and the tracking state machine. The distance between two points
    is a parameter; the device's location and permission APIs become
    boolean inputs saying whether each call succeeded. */
module GeofencingClient {
  import opened Common

  /** A geofence as the server lists it. */
  datatype FenceInfo = FenceInfo(id: nat, name: string, center: Coord, radius: real)

  /** A geofence the client tracks. */
  datatype TrackedFence = TrackedFence(info: FenceInfo, isInside: bool)

  /** The handler the edge detector invokes, with the geofence's id. */
  datatype Crossing = Entered(id: nat) | Exited(id: nat)

  type Distance = (Coord, Coord) -> real

  /** Containment is inclusive at the boundary. */
  predicate Contains(f: FenceInfo, at: Coord, distance: Distance)
  {
    distance(at, f.center) <= f.radius
  }

  /** The handler, if any, that one geofence triggers for a location. */
  function Edge(f: TrackedFence, at: Coord, distance: Distance): (c: Option<Crossing>)
    ensures c == Some(Entered(f.info.id)) <==> Contains(f.info, at, distance) && !f.isInside
    ensures c == Some(Exited(f.info.id)) <==> !Contains(f.info, at, distance) && f.isInside
    ensures c.None? <==> Contains(f.info, at, distance) == f.isInside
  {
    var inside := Contains(f.info, at, distance);
    if inside && !f.isInside then Some(Entered(f.info.id))
    else if !inside && f.isInside then Some(Exited(f.info.id))
    else None
  }

  /** Reference: the handlers the geofences trigger, in list order. */
  function Crossings(fences: seq<TrackedFence>, at: Coord, distance: Distance): seq<Crossing>
  {
    if |fences| == 0 then []
    else
      var e := Edge(fences[0], at, distance);
      (if e.Some? then [e.value] else []) + Crossings(fences[1..], at, distance)
  }

  /** `handleLocationUpdate`: visits the geofences in order, invokes the enter
      or exit handler on a change of containment, and stores the new flag
      whether or not the handler's upload succeeded (the handlers swallow
      their errors). Returns the geofences afterwards and the handlers invoked. */
  method HandleLocationUpdate(fences: seq<TrackedFence>, location: Option<Coord>, distance: Distance)
    returns (after: seq<TrackedFence>, crossings: seq<Crossing>)
    ensures location.None? ==> after == fences && crossings == []
    ensures |after| == |fences|
    ensures location.Some? ==> forall i :: 0 <= i < |fences| ==>
              after[i] == TrackedFence(fences[i].info, Contains(fences[i].info, location.value, distance))
    ensures location.Some? ==> crossings == Crossings(fences, location.value, distance)
  {
    if location.None? {
      return fences, [];
    }
    var at := location.value;
    after := fences;
    crossings := [];
    var i := 0;
    while i < |fences|
      invariant 0 <= i <= |fences|
      invariant |after| == |fences|
      invariant forall k :: 0 <= k < i ==> after[k] == TrackedFence(fences[k].info, Contains(fences[k].info, at, distance))
      invariant forall k :: i <= k < |fences| ==> after[k] == fences[k]
      invariant crossings + Crossings(fences[i..], at, distance) == Crossings(fences, at, distance)
    {
      var f := after[i];
      var inside := distance(at, f.info.center) <= f.info.radius;
      var wasInside := f.isInside;
      assert fences[i..][1..] == fences[i + 1..];
      if inside && !wasInside {
        crossings := crossings + [Entered(f.info.id)];
        after := after[i := f.(isInside := true)];
      } else if !inside && wasInside {
        crossings := crossings + [Exited(f.info.id)];
        after := after[i := f.(isInside := false)];
      }
      i := i + 1;
    }
    assert fences[i..] == [];
  }

  /** With every flag already matching the location, an update triggers nothing. */
  lemma {:induction false} SettledIsQuiet(fences: seq<TrackedFence>, at: Coord, distance: Distance)
    requires forall k :: 0 <= k < |fences| ==> fences[k].isInside == Contains(fences[k].info, at, distance)
    ensures Crossings(fences, at, distance) == []
    decreases |fences|
  {
    if |fences| > 0 {
      SettledIsQuiet(fences[1..], at, distance);
    }
  }

  /** A repeated update from the same location triggers nothing. */
  method RepeatedUpdateIsQuiet(fences: seq<TrackedFence>, at: Coord, distance: Distance)
    returns (first: seq<Crossing>, second: seq<Crossing>)
    ensures first == Crossings(fences, at, distance)
    ensures second == []
  {
    var mid, after: seq<TrackedFence>;
    mid, first := HandleLocationUpdate(fences, Some(at), distance);
    after, second := HandleLocationUpdate(mid, Some(at), distance);
    SettledIsQuiet(mid, at, distance);
  }

  /** Each handler invoked belongs to a geofence of the list whose containment changed. */
  lemma {:induction false} CrossingsAreEdges(fences: seq<TrackedFence>, at: Coord, distance: Distance, c: Crossing)
    requires c in Crossings(fences, at, distance)
    ensures exists k :: 0 <= k < |fences| && fences[k].info.id == c.id
              && (c.Entered? ==> Contains(fences[k].info, at, distance) && !fences[k].isInside)
              && (c.Exited? ==> !Contains(fences[k].info, at, distance) && fences[k].isInside)
    decreases |fences|
  {
    var e := Edge(fences[0], at, distance);
    if e.Some? && c == e.value {
      assert fences[0].info.id == c.id;
    } else {
      CrossingsAreEdges(fences[1..], at, distance, c);
      var k :| 0 <= k < |fences[1..]| && fences[1..][k].info.id == c.id
                && (c.Entered? ==> Contains(fences[1..][k].info, at, distance) && !fences[1..][k].isInside)
                && (c.Exited? ==> !Contains(fences[1..][k].info, at, distance) && fences[1..][k].isInside);
      assert fences[k + 1] == fences[1..][k];
    }
  }

  // ----- The service -----

  datatype Service = Service(isInitialized: bool, isTracking: bool, fences: seq<TrackedFence>)

  function Untracked(infos: seq<FenceInfo>): (fs: seq<TrackedFence>)
    ensures |fs| == |infos|
    ensures forall i :: 0 <= i < |infos| ==> fs[i] == TrackedFence(infos[i], false)
  {
    if |infos| == 0 then [] else [TrackedFence(infos[0], false)] + Untracked(infos[1..])
  }

  function InfosOf(fences: seq<TrackedFence>): (infos: seq<FenceInfo>)
    ensures |infos| == |fences|
    ensures forall i :: 0 <= i < |fences| ==> infos[i] == fences[i].info
  {
    if |fences| == 0 then [] else [fences[0].info] + InfosOf(fences[1..])
  }

  /** The fields of the HTTP library's response object. The server's JSON
      body, with its own `success` flag, sits under `data`. */
  const ResponseFields: set<string> := {"data", "status", "statusText", "headers", "config", "request"}

  /** `syncGeofences` as written: it adopts the fetched list only when
      `response.success` is truthy, a field the response object does not
      carry, so the list is never replaced. */
  function SyncGeofencesAsWritten(s: Service, fetched: Option<seq<FenceInfo>>): Service
  {
    if fetched.Some? && "success" in ResponseFields then s.(fences := Untracked(fetched.value)) else s
  }

  /** Whatever the server sends, the list as written stays as it was: a
      fetch of geofences the client does not already hold is dropped. */
  lemma SyncAsWrittenIgnoresFetch(s: Service, fetched: seq<FenceInfo>)
    requires InfosOf(s.fences) != fetched
    ensures SyncGeofencesAsWritten(s, Some(fetched)) == s
    ensures InfosOf(SyncGeofencesAsWritten(s, Some(fetched)).fences) != fetched
  {
  }

  /** `syncGeofences` as intended, and as the rest of this model uses it: a
      successful fetch replaces the list by the fetched geofences, in order,
      every entry outside; a failed one (`None`) leaves the service unchanged. */
  function SyncGeofences(s: Service, fetched: Option<seq<FenceInfo>>): (t: Service)
    ensures fetched.None? ==> t == s
    ensures t.isInitialized == s.isInitialized && t.isTracking == s.isTracking
    ensures fetched.Some? ==> InfosOf(t.fences) == fetched.value
    ensures fetched.Some? ==> forall k :: 0 <= k < |t.fences| ==> !t.fences[k].isInside
  {
    if fetched.Some? then
      var fs := Untracked(fetched.value);
      assert InfosOf(fs) == fetched.value;
      s.(fences := fs)
    else s
  }

  /** Reference: the ENTER handlers a freshly synced list fires at a location,
      one per fetched geofence that contains it, in list order. */
  function EntersAt(infos: seq<FenceInfo>, at: Coord, distance: Distance): seq<Crossing>
  {
    if |infos| == 0 then []
    else (if Contains(infos[0], at, distance) then [Entered(infos[0].id)] else []) + EntersAt(infos[1..], at, distance)
  }

  /** The first update after a successful sync enters exactly the fetched
      geofences that contain the location, and exits none. */
  lemma {:induction false} SyncThenUpdateEnters(s: Service, fetched: seq<FenceInfo>, at: Coord, distance: Distance)
    ensures Crossings(SyncGeofences(s, Some(fetched)).fences, at, distance) == EntersAt(fetched, at, distance)
    decreases |fetched|
  {
    var fs := SyncGeofences(s, Some(fetched)).fences;
    assert fs == Untracked(fetched);
    if |fetched| > 0 {
      SyncThenUpdateEnters(s, fetched[1..], at, distance);
      assert fs[1..] == Untracked(fetched[1..]);
    }
  }

  /** `addGeofences`: existing entries first, then the new ones, outside. */
  function AddGeofences(s: Service, infos: seq<FenceInfo>): (t: Service)
    ensures t.isInitialized == s.isInitialized && t.isTracking == s.isTracking
    ensures |t.fences| == |s.fences| + |infos|
    ensures t.fences[..|s.fences|] == s.fences
    ensures forall i :: 0 <= i < |infos| ==> t.fences[|s.fences| + i] == TrackedFence(infos[i], false)
  {
    s.(fences := s.fences + Untracked(infos))
  }

  function Without(fences: seq<TrackedFence>, ids: seq<nat>): (r: seq<TrackedFence>)
    ensures forall f :: f in r <==> f in fences && f.info.id !in ids
    ensures |r| <= |fences|
  {
    if |fences| == 0 then []
    else
      assert forall x :: x in fences <==> x == fences[0] || x in fences[1..];
      (if fences[0].info.id in ids then [] else [fences[0]]) + Without(fences[1..], ids)
  }

  /** `removeGeofences`: drops exactly the entries whose id is listed. */
  function RemoveGeofences(s: Service, ids: seq<nat>): (t: Service)
    ensures t.isInitialized == s.isInitialized && t.isTracking == s.isTracking
    ensures forall f :: f in t.fences <==> f in s.fences && f.info.id !in ids
  {
    s.(fences := Without(s.fences, ids))
  }

  function IdsOf(infos: seq<FenceInfo>): (ids: seq<nat>)
    ensures |ids| == |infos|
    ensures forall i :: 0 <= i < |infos| ==> ids[i] == infos[i].id
  {
    if |infos| == 0 then [] else [infos[0].id] + IdsOf(infos[1..])
  }

  lemma {:induction false} WithoutAppend(a: seq<TrackedFence>, b: seq<TrackedFence>, ids: seq<nat>)
    ensures Without(a + b, ids) == Without(a, ids) + Without(b, ids)
    decreases |a|
  {
    if |a| > 0 {
      var h := if a[0].info.id in ids then [] else [a[0]];
      assert (a + b)[0] == a[0] && (a + b)[1..] == a[1..] + b;
      assert Without(a + b, ids) == h + Without(a[1..] + b, ids);
      WithoutAppend(a[1..], b, ids);
      assert Without(a, ids) == h + Without(a[1..], ids);
    } else {
      assert a + b == b;
    }
  }

  lemma {:induction false} WithoutNone(fences: seq<TrackedFence>, ids: seq<nat>)
    requires forall k :: 0 <= k < |fences| ==> fences[k].info.id !in ids
    ensures Without(fences, ids) == fences
    decreases |fences|
  {
    if |fences| > 0 {
      WithoutNone(fences[1..], ids);
    }
  }

  lemma {:induction false} WithoutAll(fences: seq<TrackedFence>, ids: seq<nat>)
    requires forall k :: 0 <= k < |fences| ==> fences[k].info.id in ids
    ensures Without(fences, ids) == []
    decreases |fences|
  {
    if |fences| > 0 {
      WithoutAll(fences[1..], ids);
    }
  }

  /** Removing what was just added restores the list, in its order, when
      the added ids are new. */
  lemma AddThenRemoveRestores(s: Service, infos: seq<FenceInfo>)
    requires forall k :: 0 <= k < |s.fences| ==> s.fences[k].info.id !in IdsOf(infos)
    ensures RemoveGeofences(AddGeofences(s, infos), IdsOf(infos)) == s
  {
    var ids := IdsOf(infos);
    var added := Untracked(infos);
    WithoutAppend(s.fences, added, ids);
    WithoutNone(s.fences, ids);
    forall k | 0 <= k < |added|
      ensures added[k].info.id in ids
    {
      assert ids[k] == infos[k].id;
    }
    WithoutAll(added, ids);
    assert s.fences + [] == s.fences;
  }

  /** `startTracking`: initialises first if needed (an initialisation
      failure propagates and changes nothing), returns at once when already
      tracking, otherwise starts the location updates and then syncs the
      geofences with the intended `SyncGeofences`. Returns whether it
      completed without throwing. */
  function StartTracking(s: Service, initOk: bool, startOk: bool, fetched: Option<seq<FenceInfo>>)
    : (r: (bool, Service))
    ensures s.isTracking && s.isInitialized ==> r == (true, s)
    ensures r.0 ==> r.1.isInitialized && r.1.isTracking
    ensures !s.isTracking && s.isInitialized && startOk ==> r == (true, SyncGeofences(s.(isTracking := true), fetched))
    ensures !r.0 ==> r.1.fences == s.fences && r.1.isTracking == s.isTracking
  {
    if !s.isInitialized && !initOk then (false, s)
    else
      var ready := s.(isInitialized := true);
      if ready.isTracking then (true, ready)
      else if !startOk then (false, ready)
      else (true, SyncGeofences(ready.(isTracking := true), fetched))
  }

  /** `stopTracking`: nothing to do when not tracking; a failure to stop is
      swallowed and leaves the service tracking. */
  function StopTracking(s: Service, stopOk: bool): (t: Service)
    ensures t.fences == s.fences && t.isInitialized == s.isInitialized
    ensures stopOk ==> !t.isTracking
    ensures !stopOk ==> t == s
  {
    if !s.isTracking then s
    else if stopOk then s.(isTracking := false)
    else s
  }

  /** A second stop after a successful one changes nothing. */
  lemma StopIsIdempotent(s: Service, stopOk: bool)
    ensures StopTracking(StopTracking(s, true), stopOk) == StopTracking(s, true)
  {
  }

  datatype ServiceStatus = ServiceStatus(isInitialized: bool, isTracking: bool, geofenceCount: nat)

  function GetStatus(s: Service): (st: ServiceStatus)
    ensures st.geofenceCount == |s.fences|
    ensures st.isInitialized == s.isInitialized && st.isTracking == s.isTracking
  {
    ServiceStatus(s.isInitialized, s.isTracking, |s.fences|)
  }

  /** Removing ids shortens the list exactly when one of them is tracked. */
  lemma {:induction false} WithoutShrinks(fences: seq<TrackedFence>, ids: seq<nat>)
    ensures |Without(fences, ids)| == |fences| <==> forall k :: 0 <= k < |fences| ==> fences[k].info.id !in ids
    decreases |fences|
  {
    if |fences| > 0 {
      WithoutShrinks(fences[1..], ids);
      if fences[0].info.id !in ids {
        forall k | 0 <= k < |fences[1..]|
          ensures fences[1..][k] == fences[k + 1]
        {
        }
      }
    }
  }

  /** The status count follows the list operations: a sync reports the
      fetched count, an add the old count plus the added ones, a remove
      changes the count exactly when a listed id is tracked, and starting
      or stopping keeps the count of the list they leave. */
  lemma StatusCounts(s: Service, infos: seq<FenceInfo>, ids: seq<nat>)
    ensures GetStatus(SyncGeofences(s, Some(infos))).geofenceCount == |infos|
    ensures GetStatus(AddGeofences(s, infos)).geofenceCount == GetStatus(s).geofenceCount + |infos|
    ensures GetStatus(RemoveGeofences(s, ids)).geofenceCount <= GetStatus(s).geofenceCount
    ensures GetStatus(RemoveGeofences(s, ids)).geofenceCount == GetStatus(s).geofenceCount
            <==> forall k :: 0 <= k < |s.fences| ==> s.fences[k].info.id !in ids
    ensures GetStatus(StopTracking(s, true)).geofenceCount == GetStatus(s).geofenceCount
  {
    WithoutShrinks(s.fences, ids);
  }

  /** Starting and then stopping an idle, initialised service leaves it idle
      with the freshly synced geofences. */
  lemma StartThenStop(s: Service, fetched: seq<FenceInfo>)
    requires s.isInitialized && !s.isTracking
    ensures var started := StartTracking(s, true, true, Some(fetched)).1;
            StopTracking(started, true) == s.(fences := Untracked(fetched))
  {
  }
}

=== FILE: helpers.dfy ===
/** The mobile client's helpers: circle containment over a given distance,
    the duration formatter and the form validators. */
module Helpers {
  import opened Common
  import opened Text
  import opened GeofencingClient
  import opened GeofenceRoutes

  // ----- Containment -----

  /** `isInsideGeofence`: inclusive at the boundary. */
  function IsInsideGeofence(user: Coord, center: Coord, radius: real, distance: Distance): (b: bool)
    ensures b ==> distance(user, center) <= radius
    ensures distance(user, center) > radius ==> !b
  {
    distance(user, center) <= radius
  }

  /** The helper and the client's edge detector agree on containment. */
  lemma HelperAgreesWithEdgeDetector(user: Coord, f: FenceInfo, distance: Distance)
    ensures IsInsideGeofence(user, f.center, f.radius, distance) == Contains(f, user, distance)
  {
  }

  // ----- formatDuration -----

  const MsPerHour: int := 3600000
  const MsPerMinute: int := 60000

  /** JavaScript's `%`: the remainder takes the sign of the dividend. */
  function JsRem(a: int, b: int): (r: int)
    requires b > 0
    ensures a >= 0 ==> r == a % b
    ensures a < 0 ==> r == -((-a) % b) && -b < r <= 0
  {
    if a >= 0 then a % b else -((-a) % b)
  }

  /** `Math.floor(ms / 3600000)`; the divisor is positive, so Dafny's division is the floor. */
  function DurationHours(ms: int): int
  {
    ms / MsPerHour
  }

  /** `Math.floor((ms % 3600000) / 60000)`. */
  function DurationMinutes(ms: int): int
  {
    JsRem(ms, MsPerHour) / MsPerMinute
  }

  /** `formatDuration(ms)`: "<h>h <m>m". */
  function FormatDuration(ms: int): string
  {
    IntToString(DurationHours(ms)) + "h " + IntToString(DurationMinutes(ms)) + "m"
  }

  /** For a non-negative duration: the minutes are 0 to 59, and the hours
      and minutes are the whole hours and the whole minutes past them. */
  lemma DurationFields(ms: int)
    requires ms >= 0
    ensures 0 <= DurationHours(ms) && 0 <= DurationMinutes(ms) <= 59
    ensures DurationHours(ms) * MsPerHour + DurationMinutes(ms) * MsPerMinute <= ms
    ensures ms < DurationHours(ms) * MsPerHour + (DurationMinutes(ms) + 1) * MsPerMinute
  {
  }

  /** For a negative duration both fields are rendered with a minus sign or
      as zero, and the minutes may reach -60. */
  lemma NegativeDurationFields(ms: int)
    requires ms < 0
    ensures DurationHours(ms) < 0
    ensures -60 <= DurationMinutes(ms) <= 0
  {
  }

  /** Reads "<h>h <m>m" back into its two numbers. */
  function ParseDuration(s: string): Option<(nat, nat)>
  {
    var parts := Split(s, ' ');
    if |parts| != 2 then None
    else
      var h, m := parts[0], parts[1];
      if |h| >= 2 && h[|h| - 1] == 'h' && AllDigits(h[..|h| - 1])
         && |m| >= 2 && m[|m| - 1] == 'm' && AllDigits(m[..|m| - 1])
      then Some((DecimalValue(h[..|h| - 1]), DecimalValue(m[..|m| - 1])))
      else None
  }

  /** Two digit runs rendered as "<a>h <b>m" read back as their values. */
  lemma ParseDurationText(a: string, b: string)
    requires |a| > 0 && AllDigits(a) && |b| > 0 && AllDigits(b)
    ensures ParseDuration(a + "h " + b + "m") == Some((DecimalValue(a), DecimalValue(b)))
  {
    var x, y := a + "h", b + "m";
    assert a + "h " + b + "m" == x + [' '] + y;
    assert Join([x, y], ' ') == x + [' '] + Join([y], ' ');
    assert ' ' !in x by {
      assert forall k :: 0 <= k < |a| ==> x[k] == a[k];
    }
    assert ' ' !in y by {
      assert forall k :: 0 <= k < |b| ==> y[k] == b[k];
    }
    SplitJoin([x, y], ' ');
    assert x[..|x| - 1] == a && y[..|y| - 1] == b;
  }

  /** A non-negative duration's text reads back as its hours and minutes. */
  lemma FormatDurationRoundTrip(ms: int)
    requires ms >= 0
    ensures ParseDuration(FormatDuration(ms)) == Some((DurationHours(ms), DurationMinutes(ms)))
  {
    DurationFields(ms);
    var h, m := DurationHours(ms), DurationMinutes(ms);
    ParseDurationText(NatToString(h), NatToString(m));
    DecimalRoundTrip(h);
    DecimalRoundTrip(m);
  }

  // ----- validators -----

  predicate PlainChar(c: char)
  {
    !IsJsWhitespace(c) && c != '@'
  }

  /** A non-empty run of `[^\s@]`. */
  predicate PlainRun(t: string)
  {
    |t| > 0 && forall k :: 0 <= k < |t| ==> PlainChar(t[k])
  }

  /** The position of the first `c`. */
  function IndexOfChar(s: string, c: char): (i: Option<nat>)
    ensures i.Some? ==> i.value < |s| && s[i.value] == c && c !in s[..i.value]
    ensures i.None? ==> c !in s
  {
    if |s| == 0 then None
    else if s[0] == c then Some(0)
    else
      match IndexOfChar(s[1..], c)
      case None => None
      case Some(k) =>
        assert s[..k + 1] == [s[0]] + s[1..][..k];
        Some(k + 1)
  }

  /** `validators.email`, as a scan: the text before the first '@' and the
      text after it are runs without white space or '@', and the latter has a
      '.' that is neither its first nor its last character. */
  function Email(s: string): bool
  {
    match IndexOfChar(s, '@')
    case None => false
    case Some(i) =>
      var local, domain := s[..i], s[i + 1..];
      PlainRun(local) && PlainRun(domain) && |domain| >= 3 && '.' in domain[1..|domain| - 1]
  }

  /** The pattern `^[^\s@]+@[^\s@]+\.[^\s@]+$` read literally: some split
      into four pieces. */
  predicate EmailPattern(s: string)
  {
    exists i, j :: 0 < i < j < |s| - 1 && s[i] == '@' && s[j] == '.'
      && PlainRun(s[..i]) && PlainRun(s[i + 1..j]) && PlainRun(s[j + 1..])
  }

  lemma EmailImpliesPattern(s: string)
    requires Email(s)
    ensures EmailPattern(s)
  {
    var i := IndexOfChar(s, '@').value;
    var domain := s[i + 1..];
    var k :| 0 <= k < |domain[1..|domain| - 1]| && domain[1..|domain| - 1][k] == '.';
    var j := i + 2 + k;
    assert s[j] == '.';
    assert s[i + 1..j] == domain[..k + 1];
    assert s[j + 1..] == domain[k + 2..];
    assert PlainRun(s[i + 1..j]);
    assert PlainRun(s[j + 1..]);
  }

  lemma PlainJoin(x: string, y: string)
    requires PlainRun(x) && PlainRun(y)
    ensures PlainRun(x + y)
  {
    forall k | 0 <= k < |x + y|
      ensures PlainChar((x + y)[k])
    {
      if k < |x| {
        assert (x + y)[k] == x[k];
      } else {
        assert (x + y)[k] == y[k - |x|];
      }
    }
  }

  lemma DotIsPlain()
    ensures PlainRun(".")
  {
    assert !IsJsWhitespace('.');
  }

  lemma FirstAt(s: string, i: nat)
    requires i < |s| && s[i] == '@' && PlainRun(s[..i])
    ensures IndexOfChar(s, '@') == Some(i)
  {
    assert s[i] in s;
  }

  lemma SplitIsEmail(s: string, i: nat, j: nat)
    requires 0 < i < j < |s| - 1 && s[i] == '@' && s[j] == '.'
    requires PlainRun(s[..i]) && PlainRun(s[i + 1..j]) && PlainRun(s[j + 1..])
    ensures Email(s)
  {
    FirstAt(s, i);
    var domain := s[i + 1..];
    assert domain == s[i + 1..j] + "." + s[j + 1..];
    DotIsPlain();
    PlainJoin(s[i + 1..j], ".");
    PlainJoin(s[i + 1..j] + ".", s[j + 1..]);
    assert domain[1..|domain| - 1][j - i - 2] == '.';
  }

  lemma PatternImpliesEmail(s: string)
    requires EmailPattern(s)
    ensures Email(s)
  {
    var i, j :| 0 < i < j < |s| - 1 && s[i] == '@' && s[j] == '.'
      && PlainRun(s[..i]) && PlainRun(s[i + 1..j]) && PlainRun(s[j + 1..]);
    SplitIsEmail(s, i, j);
  }

  /** The scan accepts exactly the strings the pattern matches. */
  lemma EmailMatchesPattern(s: string)
    ensures Email(s) <==> EmailPattern(s)
  {
    if Email(s) {
      EmailImpliesPattern(s);
    }
    if EmailPattern(s) {
      PatternImpliesEmail(s);
    }
  }

  /** An accepted address holds exactly one '@'. */
  lemma EmailHasOneAt(s: string)
    requires Email(s)
    ensures exists i :: 0 < i < |s| && s[i] == '@' && forall k :: 0 <= k < |s| && k != i ==> s[k] != '@'
  {
    var i := IndexOfChar(s, '@').value;
    forall k | 0 <= k < |s| && k != i
      ensures s[k] != '@'
    {
      if k < i {
        assert s[..i][k] == s[k];
      } else {
        assert s[i + 1..][k - i - 1] == s[k];
      }
    }
  }

  /** `validators.password`: a missing or empty password is falsy, otherwise
      at least six characters are needed. */
  function Password(p: Option<string>): (ok: bool)
    ensures ok ==> Truthy(p)
    ensures ok <==> p.Some? && |p.value| >= 6
  {
    Truthy(p) && |p.value| >= 6
  }

  /** `validators.coordinates`: inclusive ranges. */
  function Coordinates(lat: real, lng: real): bool
  {
    -90.0 <= lat <= 90.0 && -180.0 <= lng <= 180.0
  }

  /** `validators.radius`: 10 to 1000 metres inclusive. */
  function Radius(r: real): bool
  {
    10.0 <= r <= 1000.0
  }

  /** The client's coordinate check is the server schema's. */
  lemma CoordinatesAgreeWithSchema(lat: real, lng: real)
    ensures Coordinates(lat, lng) <==> InRange(Some(lat), -90.0, 90.0) && InRange(Some(lng), -180.0, 180.0)
  {
  }

  /** The client's radius check is narrower than the server schema's 1 to
      5000: everything it accepts the schema accepts, not conversely. */
  lemma RadiusNarrowerThanSchema(r: real)
    ensures Radius(r) ==> InRange(Some(r), 1.0, 5000.0)
    ensures !Radius(5.0) && InRange(Some(5.0), 1.0, 5000.0)
    ensures !Radius(2000.0) && InRange(Some(2000.0), 1.0, 5000.0)
  {
  }
}

=== FILE: location_queue.dfy ===
/** The mobile client's offline queue of location samples, kept as one JSON
    value under a fixed key of the device's key-value storage. The storage
    slot is a value; a write that fails is a boolean input; the tracking
    endpoint's answer to the i-th upload of a sync is `accepted(i)`. */
module LocationQueue {
  import opened Common

  /** A queued sample; `id` and `timestamp` both come from the clock at
      queueing time. The source reads the clock twice in the same call
      (`Date.now()` for the id, `new Date()` for the timestamp); the model
      takes one reading for both. */
  datatype Item = Item(id: int, latitude: real, longitude: real, accuracy: Option<real>, timestamp: int)

  /** What the tracking endpoint receives for a sample: only its position and
      accuracy. The queued id and timestamp are never sent. */
  datatype Upload = Upload(latitude: real, longitude: real, accuracy: Option<real>)

  function Posted(x: Item): Upload
  {
    Upload(x.latitude, x.longitude, x.accuracy)
  }

  /** The storage slot: nothing stored, text that does not parse as JSON
      (`getQueue` reads it as empty), or a list of items. */
  datatype Slot = Empty | Corrupt | Stored(items: seq<Item>)

  /** `getQueue`: the stored list, or empty when nothing readable is stored. */
  function GetQueue(slot: Slot): (q: seq<Item>)
    ensures slot.Stored? ==> q == slot.items
    ensures !slot.Stored? ==> q == []
  {
    if slot.Stored? then slot.items else []
  }

  function GetQueueSize(slot: Slot): (n: nat)
    ensures n == 0 <==> GetQueue(slot) == []
  {
    |GetQueue(slot)|
  }

  /** `queueLocation`: appends one sample and writes the whole list back.
      Returns whether the write succeeded, and the slot afterwards. */
  function QueueLocation(slot: Slot, latitude: real, longitude: real, accuracy: Option<real>,
                         now: int, writeOk: bool): (r: (bool, Slot))
    ensures r.0 == writeOk
    ensures r.0 ==> GetQueue(r.1) == GetQueue(slot) + [Item(now, latitude, longitude, accuracy, now)]
    ensures !r.0 ==> r.1 == slot
  {
    if writeOk then (true, Stored(GetQueue(slot) + [Item(now, latitude, longitude, accuracy, now)]))
    else (false, slot)
  }

  /** Queueing each sample in turn with every write succeeding; a sample's
      `timestamp` is the clock reading it is queued at. */
  function QueueAll(slot: Slot, samples: seq<Item>): Slot
    decreases |samples|
  {
    if |samples| == 0 then slot
    else
      var x := samples[0];
      QueueAll(QueueLocation(slot, x.latitude, x.longitude, x.accuracy, x.timestamp, true).1, samples[1..])
  }

  /** What is queued reads back after what was there, in queueing order, and
      the size grows by one per sample. */
  lemma {:induction false} QueueAllReadsBack(slot: Slot, samples: seq<Item>)
    requires forall i :: 0 <= i < |samples| ==> samples[i].id == samples[i].timestamp
    ensures GetQueue(QueueAll(slot, samples)) == GetQueue(slot) + samples
    ensures GetQueueSize(QueueAll(slot, samples)) == GetQueueSize(slot) + |samples|
    decreases |samples|
  {
    if |samples| == 0 {
      assert GetQueue(slot) + samples == GetQueue(slot);
    } else {
      var x := samples[0];
      var next := QueueLocation(slot, x.latitude, x.longitude, x.accuracy, x.timestamp, true).1;
      assert x == Item(x.timestamp, x.latitude, x.longitude, x.accuracy, x.timestamp);
      QueueAllReadsBack(next, samples[1..]);
      assert samples == [x] + samples[1..];
    }
  }

  /** `clearQueue`. */
  function ClearQueue(slot: Slot, removeOk: bool): (r: (bool, Slot))
    ensures r.0 == removeOk
    ensures r.0 ==> GetQueue(r.1) == [] && GetQueueSize(r.1) == 0
    ensures !r.0 ==> r.1 == slot
  {
    if removeOk then (true, Empty) else (false, slot)
  }

  // ----- Sync -----

  /** The items whose upload failed, in queue order: the reference for what sync keeps. */
  function Rejected(queue: seq<Item>, accepted: nat -> bool): seq<Item>
    decreases |queue|
  {
    if |queue| == 0 then []
    else
      var n := |queue| - 1;
      Rejected(queue[..n], accepted) + (if accepted(n) then [] else [queue[n]])
  }

  datatype SyncResult = SyncResult(success: bool, synced: nat, failed: nat)

  /** `syncQueue`: posts the position of every queued item in order, then
      writes back the items that failed. A failed write-back reports failure
      and leaves the slot as it was, although the uploads have happened.
      Returns the result, the slot afterwards and what was posted, in upload
      order. */
  method SyncQueue(slot: Slot, accepted: nat -> bool, writeOk: bool)
    returns (res: SyncResult, after: Slot, uploaded: seq<Upload>)
    ensures GetQueue(slot) == [] ==> res == SyncResult(true, 0, 0) && after == slot && uploaded == []
    ensures |uploaded| == |GetQueue(slot)|
    ensures forall k :: 0 <= k < |uploaded| ==> uploaded[k] == Posted(GetQueue(slot)[k])
    ensures GetQueue(slot) != [] && writeOk ==>
              && res.success
              && after == Stored(Rejected(GetQueue(slot), accepted))
              && res.failed == |Rejected(GetQueue(slot), accepted)|
              && res.synced + res.failed == |GetQueue(slot)|
              && GetQueueSize(after) == res.failed
    ensures GetQueue(slot) != [] && !writeOk ==> res == SyncResult(false, 0, 0) && after == slot
  {
    var queue := GetQueue(slot);
    if |queue| == 0 {
      return SyncResult(true, 0, 0), slot, [];
    }
    var synced, failed := 0, 0;
    var failedItems: seq<Item> := [];
    uploaded := [];
    var i := 0;
    while i < |queue|
      invariant 0 <= i <= |queue|
      invariant |uploaded| == i
      invariant forall k :: 0 <= k < i ==> uploaded[k] == Posted(queue[k])
      invariant failedItems == Rejected(queue[..i], accepted)
      invariant failed == |failedItems|
      invariant synced + failed == i
    {
      uploaded := uploaded + [Posted(queue[i])];
      assert queue[..i + 1][..i] == queue[..i];
      if accepted(i) {
        synced := synced + 1;
      } else {
        failed := failed + 1;
        failedItems := failedItems + [queue[i]];
      }
      i := i + 1;
    }
    assert queue[..i] == queue;
    if writeOk {
      res, after := SyncResult(true, synced, failed), Stored(failedItems);
    } else {
      res, after := SyncResult(false, 0, 0), slot;
    }
  }

  // ----- Properties -----

  /** Sync keeps a sub-collection of the queue: nothing is invented, and
      each kept item is one whose upload failed. */
  lemma {:induction false} RejectedIsSubset(queue: seq<Item>, accepted: nat -> bool)
    ensures multiset(Rejected(queue, accepted)) <= multiset(queue)
    ensures forall x :: x in Rejected(queue, accepted) ==> exists k :: 0 <= k < |queue| && queue[k] == x && !accepted(k)
    decreases |queue|
  {
    if |queue| > 0 {
      var n := |queue| - 1;
      assert queue == queue[..n] + [queue[n]];
      RejectedIsSubset(queue[..n], accepted);
      forall x | x in Rejected(queue, accepted)
        ensures exists k :: 0 <= k < |queue| && queue[k] == x && !accepted(k)
      {
        if x in Rejected(queue[..n], accepted) {
          var k :| 0 <= k < n && queue[..n][k] == x && !accepted(k);
          assert queue[k] == x;
        } else {
          assert queue[n] == x && !accepted(n);
        }
      }
    }
  }

  /** When every upload is accepted nothing is kept; when every upload
      fails the whole queue is kept, in order. */
  lemma {:induction false} RejectedExtremes(queue: seq<Item>, accepted: nat -> bool)
    ensures (forall k :: 0 <= k < |queue| ==> accepted(k)) ==> Rejected(queue, accepted) == []
    ensures (forall k :: 0 <= k < |queue| ==> !accepted(k)) ==> Rejected(queue, accepted) == queue
    decreases |queue|
  {
    if |queue| > 0 {
      var n := |queue| - 1;
      assert queue == queue[..n] + [queue[n]];
      RejectedExtremes(queue[..n], accepted);
    }
  }

  /** A sample queued while offline is posted by the next sync, last of all,
      as its position and accuracy only: what is posted does not depend on
      when it was queued. */
  method QueueThenSync(slot: Slot, latitude: real, longitude: real, accuracy: Option<real>, now: int,
                       accepted: nat -> bool)
    returns (res: SyncResult, after: Slot, uploaded: seq<Upload>)
    ensures |uploaded| == |GetQueue(slot)| + 1
    ensures forall k :: 0 <= k < |GetQueue(slot)| ==> uploaded[k] == Posted(GetQueue(slot)[k])
    ensures uploaded[|uploaded| - 1] == Upload(latitude, longitude, accuracy)
    ensures res.success && res.synced + res.failed == |GetQueue(slot)| + 1
  {
    var queued := QueueLocation(slot, latitude, longitude, accuracy, now, true);
    res, after, uploaded := SyncQueue(queued.1, accepted, true);
  }
}

=== FILE: pagination.dfy ===
/** The page arithmetic shared by the attendance-history and geofence-list
    endpoints: `page` and `limit` query parameters with defaults, the number of
    records skipped, and the `pagination` block of the response. */
module Pagination {
  import opened Common
  import opened Sorting

  /** `parseInt(param) || fallback`. `None` is a missing or non-numeric
      parameter (`NaN`); like 0 it is falsy and falls back. */
  function ParamOr(parsed: Option<int>, fallback: int): (v: int)
    requires fallback != 0
    ensures v != 0
    ensures parsed.Some? && parsed.value != 0 ==> v == parsed.value
    ensures (parsed.None? || parsed.value == 0) ==> v == fallback
  {
    if parsed.Some? && parsed.value != 0 then parsed.value else fallback
  }

  /** `Math.floor(a / b)`. */
  function FloorDiv(a: int, b: int): (q: int)
    requires b != 0
    ensures b > 0 ==> q * b <= a < (q + 1) * b
  {
    if b > 0 then a / b else (-a) / (-b)
  }

  /** `Math.ceil(a / b)`. */
  function CeilDiv(a: int, b: int): (q: int)
    requires b != 0
    ensures b > 0 ==> (q - 1) * b < a <= q * b
  {
    -FloorDiv(-a, b)
  }

  /** The response's `pagination` block. */
  datatype PageInfo = PageInfo(currentPage: int, totalPages: int, totalItems: nat,
                               itemsPerPage: int, hasNextPage: bool, hasPrevPage: bool)

  /** The page actually requested: the number of records to skip and to return, and the block. */
  datatype PageRequest = PageRequest(skip: int, limit: int, info: PageInfo)

  function Paginate(pageParam: Option<int>, limitParam: Option<int>, defaultLimit: int, total: nat): (p: PageRequest)
    requires defaultLimit != 0
    ensures p.limit != 0 && p.info.currentPage != 0
    ensures p.info.itemsPerPage == p.limit && p.info.totalItems == total
  {
    var page := ParamOr(pageParam, 1);
    var limit := ParamOr(limitParam, defaultLimit);
    var totalPages := CeilDiv(total, limit);
    PageRequest((page - 1) * limit, limit,
                PageInfo(page, totalPages, total, limit, page < totalPages, page > 1))
  }

  function Magnitude(k: int): nat
  {
    if k < 0 then -k else k
  }

  /** How many of `total` ordered records a `skip(n).limit(k)` query returns:
      none past the end, `|k|` while that many remain, and the rest on a
      partial last page. */
  function PageLength(total: nat, skip: nat, limit: int): nat
  {
    if skip >= total then 0
    else if skip + Magnitude(limit) <= total then Magnitude(limit)
    else total - skip
  }

  /** `page` is the run of `items` that starts at `skip`, as long as a
      `skip`/`limit` query makes it. */
  ghost predicate IsPageOf<T>(page: seq<T>, items: seq<T>, skip: nat, limit: int)
  {
    && |page| == PageLength(|items|, skip, limit)
    && forall i :: 0 <= i < |page| ==> skip + i < |items| && page[i] == items[skip + i]
  }

  /** The store's `skip(n).limit(k)` on an ordered result: a negative skip is
      refused by the store; a negative limit returns at most `-k` records.
      The callers never pass a zero limit. */
  function Window<T>(items: seq<T>, skip: int, limit: int): (r: Option<seq<T>>)
    ensures r.Some? <==> skip >= 0
    ensures r.Some? ==> |r.value| <= |items| && |r.value| <= Magnitude(limit)
    ensures r.Some? && |r.value| > 0 ==> skip + |r.value| <= |items| && r.value == items[skip..skip + |r.value|]
    ensures r.Some? && limit != 0 ==> (|r.value| == Magnitude(limit) <==> skip + Magnitude(limit) <= |items|)
    ensures r.Some? ==> IsPageOf(r.value, items, skip, limit)
  {
    if skip < 0 then None
    else
      var from := if skip < |items| then skip else |items|;
      var n := if limit < 0 then -limit else limit;
      var to := if from + n < |items| then from + n else |items|;
      Some(items[from..to])
  }

  // ----- Properties -----

  /** A window of an ordered result is ordered. */
  lemma WindowSorted<T>(items: seq<T>, skip: int, limit: int, key: T -> int)
    requires SortedBy(items, key) && skip >= 0
    ensures SortedBy(Window(items, skip, limit).value, key)
  {
    var w := Window(items, skip, limit).value;
    var from := if skip < |items| then skip else |items|;
    forall i, j | 0 <= i < j < |w|
      ensures key(w[i]) <= key(w[j])
    {
      assert w[i] == items[from + i] && w[j] == items[from + j];
    }
  }

  /** With a positive limit, the record at position `k` of the ordered
      result is shown at position `k % limit` of page `k / limit + 1`: every
      record is reachable by paging. */
  lemma ItemOnItsPage<T>(items: seq<T>, limit: int, defaultLimit: int, k: nat)
    requires limit >= 1 && defaultLimit != 0 && k < |items|
    ensures var p := Paginate(Some(k / limit + 1), Some(limit), defaultLimit, |items|);
            && p.skip == k - k % limit
            && Window(items, p.skip, p.limit).Some?
            && k % limit < |Window(items, p.skip, p.limit).value|
            && Window(items, p.skip, p.limit).value[k % limit] == items[k]
  {
    var p := Paginate(Some(k / limit + 1), Some(limit), defaultLimit, |items|);
    assert p.skip == (k / limit) * limit;
    assert p.skip + k % limit == k;
  }

  /** Missing or falsy parameters give page 1 and the endpoint's default limit. */
  lemma Defaults(pageParam: Option<int>, limitParam: Option<int>, defaultLimit: int, total: nat)
    requires defaultLimit != 0
    requires pageParam.None? || pageParam.value == 0
    requires limitParam.None? || limitParam.value == 0
    ensures var p := Paginate(pageParam, limitParam, defaultLimit, total);
            p.skip == 0 && p.info.currentPage == 1 && p.limit == defaultLimit && !p.info.hasPrevPage
  {
  }

  lemma MulMono(a: int, b: int, c: int)
    requires a <= b && c > 0
    ensures a * c <= b * c
  {
  }

  /** `pages` pages of `limit` records are the least that hold `total`
      records: none exactly when there are no records. */
  lemma NoPagesIffEmpty(total: nat, limit: int, pages: int)
    requires limit >= 1 && (pages - 1) * limit < total <= pages * limit
    ensures total == 0 <==> pages == 0
  {
    if pages <= 0 {
      MulMono(pages, 0, limit);
    } else {
      MulMono(1, pages, limit);
    }
  }

  /** A page before the last one is exactly a page past whose end records remain. */
  lemma NextIffRecordsRemain(page: int, limit: int, pages: int, total: nat)
    requires limit >= 1 && (pages - 1) * limit < total <= pages * limit
    ensures page < pages <==> page * limit < total
  {
    if page < pages {
      MulMono(page, pages - 1, limit);
    } else {
      MulMono(pages, page, limit);
    }
  }

  /** From page 1 on, records are skipped exactly after the first page. */
  lemma PrevIffSkipped(page: int, limit: int)
    requires page >= 1 && limit >= 1
    ensures page > 1 <==> (page - 1) * limit > 0
  {
    if page > 1 {
      MulMono(1, page - 1, limit);
    }
  }

  /** For a positive page and limit: the page count is the least number of
      pages that holds every record, there is a next page exactly when records
      remain past this one, and a previous page exactly when records were skipped. */
  lemma PageArithmetic(pageParam: Option<int>, limitParam: Option<int>, defaultLimit: int, total: nat)
    requires defaultLimit != 0
    requires var p := Paginate(pageParam, limitParam, defaultLimit, total);
             p.info.currentPage >= 1 && p.limit >= 1
    ensures var p := Paginate(pageParam, limitParam, defaultLimit, total);
            && p.skip == (p.info.currentPage - 1) * p.limit
            && (p.info.totalPages - 1) * p.limit < total <= p.info.totalPages * p.limit
            && (total == 0 <==> p.info.totalPages == 0)
            && (p.info.hasNextPage <==> p.skip + p.limit < total)
            && (p.info.hasPrevPage <==> p.skip > 0)
  {
    var p := Paginate(pageParam, limitParam, defaultLimit, total);
    var page, limit, pages := p.info.currentPage, p.limit, p.info.totalPages;
    assert p.skip + p.limit == page * limit;
    NoPagesIffEmpty(total, limit, pages);
    NextIffRecordsRemain(page, limit, pages, total);
    PrevIffSkipped(page, limit);
  }
}

=== FILE: sorting.dfy ===
/** Stable ordering by an integer key: what the database's `sort({timestamp: 1})`
    and `sort({timestamp: -1})` deliver to the code. Ties keep storage order. */
module Sorting {

  predicate SortedBy<T>(xs: seq<T>, key: T -> int)
  {
    forall i, j :: 0 <= i < j < |xs| ==> key(xs[i]) <= key(xs[j])
  }

  /** Places `x` after every element whose key does not exceed its own. */
  function Insert<T>(x: T, xs: seq<T>, key: T -> int): (r: seq<T>)
    requires SortedBy(xs, key)
    ensures SortedBy(r, key)
    ensures |r| == |xs| + 1
    ensures r[0] == x || (|xs| > 0 && r[0] == xs[0])
    decreases |xs|
  {
    if |xs| == 0 then [x]
    else if key(x) < key(xs[0]) then [x] + xs
    else
      var tail := Insert(x, xs[1..], key);
      assert key(xs[0]) <= key(tail[0]);
      [xs[0]] + tail
  }

  /** Insertion adds `x` and loses nothing. */
  lemma {:induction false} InsertPermutes<T>(x: T, xs: seq<T>, key: T -> int)
    requires SortedBy(xs, key)
    ensures multiset(Insert(x, xs, key)) == multiset(xs) + multiset{x}
    decreases |xs|
  {
    if |xs| > 0 && key(x) >= key(xs[0]) {
      assert xs == [xs[0]] + xs[1..];
      InsertPermutes(x, xs[1..], key);
    }
  }

  /** The elements of `xs` in ascending key order. */
  function SortBy<T>(xs: seq<T>, key: T -> int): (r: seq<T>)
    ensures SortedBy(r, key)
    ensures multiset(r) == multiset(xs)
    ensures |r| == |xs|
    decreases |xs|
  {
    if |xs| == 0 then []
    else
      var init := xs[..|xs| - 1];
      assert xs == init + [xs[|xs| - 1]];
      InsertPermutes(xs[|xs| - 1], SortBy(init, key), key);
      Insert(xs[|xs| - 1], SortBy(init, key), key)
  }
}

=== FILE: text.dfy ===
/** String helpers the JavaScript code gets from its runtime: decimal digits,
    `String(n)`, `split`/`join` on one separator character and `trim`. */
module Text {

  predicate IsDigit(c: char)
  {
    '0' <= c <= '9'
  }

  predicate AllDigits(s: string)
  {
    forall i :: 0 <= i < |s| ==> IsDigit(s[i])
  }

  function DigitValue(c: char): (d: nat)
    requires IsDigit(c)
    ensures d <= 9
  {
    (c as int) - ('0' as int)
  }

  function DigitChar(d: nat): (c: char)
    requires d <= 9
    ensures IsDigit(c) && DigitValue(c) == d
  {
    (('0' as int) + d) as char
  }

  /** The value of a run of decimal digits, most significant first; the empty run is 0. */
  function DecimalValue(s: string): nat
    requires AllDigits(s)
    decreases |s|
  {
    if |s| == 0 then 0 else 10 * DecimalValue(s[..|s| - 1]) + DigitValue(s[|s| - 1])
  }

  /** `String(n)` for a natural number: decimal, no leading zeros. */
  function NatToString(n: nat): (s: string)
    ensures |s| > 0 && AllDigits(s)
    ensures n < 10 <==> |s| == 1
    decreases n
  {
    if n < 10 then [DigitChar(n)] else NatToString(n / 10) + [DigitChar(n % 10)]
  }

  /** `String(i)` for an integer. */
  function IntToString(i: int): (s: string)
    ensures |s| > 0
    ensures i >= 0 ==> s == NatToString(i)
    ensures i < 0 ==> s[0] == '-'
  {
    if i < 0 then "-" + NatToString(-i) else NatToString(i)
  }

  /** Reading back what `NatToString` wrote gives the number again. */
  lemma {:induction false} DecimalRoundTrip(n: nat)
    ensures DecimalValue(NatToString(n)) == n
  {
    var s := NatToString(n);
    if n < 10 {
      assert s[..|s| - 1] == [];
    } else {
      assert s[..|s| - 1] == NatToString(n / 10);
      DecimalRoundTrip(n / 10);
    }
  }

  /** Decimal renderings of different numbers differ. */
  lemma NatToStringInjective(m: nat, n: nat)
    requires NatToString(m) == NatToString(n)
    ensures m == n
  {
    DecimalRoundTrip(m);
    DecimalRoundTrip(n);
  }

  /** `parts.join(sep)` for a separator of one character. */
  function Join(parts: seq<string>, sep: char): string
  {
    if |parts| == 0 then ""
    else if |parts| == 1 then parts[0]
    else parts[0] + [sep] + Join(parts[1..], sep)
  }

  /** `s.split(sep)` for a separator of one character: the maximal runs
      between separators, so there is always at least one part. */
  function Split(s: string, sep: char): (parts: seq<string>)
    ensures |parts| >= 1
    ensures forall i :: 0 <= i < |parts| ==> sep !in parts[i]
    decreases |s|
  {
    if |s| == 0 then [""]
    else
      var rest := Split(s[1..], sep);
      if s[0] == sep then [""] + rest else [[s[0]] + rest[0]] + rest[1..]
  }

  /** Joining the parts of a split with the same separator rebuilds the string. */
  lemma {:induction false} JoinSplit(s: string, sep: char)
    ensures Join(Split(s, sep), sep) == s
    decreases |s|
  {
    if |s| > 0 {
      var rest := Split(s[1..], sep);
      JoinSplit(s[1..], sep);
      if s[0] == sep {
        assert ([""] + rest)[1..] == rest;
      } else {
        var head := [s[0]] + rest[0];
        if |rest| > 1 {
          assert ([head] + rest[1..])[1..] == rest[1..];
        }
        assert s == [s[0]] + s[1..];
      }
    }
  }

  /** Splitting a string that starts with a separator-free run extends the first part. */
  lemma {:induction false} SplitAfterRun(a: string, rest: string, sep: char)
    requires sep !in a
    ensures Split(a + rest, sep) == [a + Split(rest, sep)[0]] + Split(rest, sep)[1..]
    decreases |a|
  {
    if |a| > 0 {
      assert (a + rest)[1..] == a[1..] + rest;
      SplitAfterRun(a[1..], rest, sep);
      assert [a[0]] + (a[1..] + Split(rest, sep)[0]) == a + Split(rest, sep)[0];
    } else {
      var parts := Split(rest, sep);
      assert a + rest == rest;
      assert a + parts[0] == parts[0];
      assert parts == [parts[0]] + parts[1..];
    }
  }

  /** Splitting what `Join` built returns the parts, provided no part holds the separator. */
  lemma {:induction false} SplitJoin(parts: seq<string>, sep: char)
    requires |parts| >= 1
    requires forall i :: 0 <= i < |parts| ==> sep !in parts[i]
    ensures Split(Join(parts, sep), sep) == parts
    decreases |parts|
  {
    if |parts| == 1 {
      SplitAfterRun(parts[0], "", sep);
      assert parts[0] + "" == parts[0];
    } else {
      var tail := Join(parts[1..], sep);
      SplitJoin(parts[1..], sep);
      assert Split([sep] + tail, sep) == [""] + parts[1..] by {
        assert ([sep] + tail)[1..] == tail;
      }
      assert parts[0] + [sep] + tail == parts[0] + ([sep] + tail);
      SplitAfterRun(parts[0], [sep] + tail, sep);
      assert parts[0] + "" == parts[0];
      assert parts == [parts[0]] + parts[1..];
    }
  }

  /** ECMAScript `WhiteSpace` and `LineTerminator` code points: what `\s`,
      `trim()` and `Number()` treat as white space. */
  predicate IsJsWhitespace(c: char)
  {
    var n := c as int;
    n == 0x09 || n == 0x0A || n == 0x0B || n == 0x0C || n == 0x0D || n == 0x20
    || n == 0xA0 || n == 0x1680 || (0x2000 <= n <= 0x200A) || n == 0x2028
    || n == 0x2029 || n == 0x202F || n == 0x205F || n == 0x3000 || n == 0xFEFF
  }

  predicate NoWhitespace(s: string)
  {
    forall i :: 0 <= i < |s| ==> !IsJsWhitespace(s[i])
  }

  /** The length of the white-space run `s` starts with. */
  function LeadingSpace(s: string): (n: nat)
    ensures n <= |s|
    ensures forall i :: 0 <= i < n ==> IsJsWhitespace(s[i])
    ensures n == |s| || !IsJsWhitespace(s[n])
    decreases |s|
  {
    if |s| > 0 && IsJsWhitespace(s[0]) then 1 + LeadingSpace(s[1..]) else 0
  }

  /** The length of the white-space run `s` ends with. */
  function TrailingSpace(s: string): (n: nat)
    ensures n <= |s|
    ensures forall i :: |s| - n <= i < |s| ==> IsJsWhitespace(s[i])
    ensures n == |s| || !IsJsWhitespace(s[|s| - n - 1])
    decreases |s|
  {
    if |s| > 0 && IsJsWhitespace(s[|s| - 1]) then 1 + TrailingSpace(s[..|s| - 1]) else 0
  }

  /** `s.trimStart()`: drops exactly the leading white space. */
  function TrimStart(s: string): string
  {
    s[LeadingSpace(s)..]
  }

  /** `s.trimEnd()`: drops exactly the trailing white space. */
  function TrimEnd(s: string): string
  {
    s[..|s| - TrailingSpace(s)]
  }

  /** `s.trim()`. */
  function Trim(s: string): string
  {
    TrimEnd(TrimStart(s))
  }

  /** A string without white space is its own trim. */
  lemma TrimNoWhitespace(s: string)
    requires NoWhitespace(s)
    ensures Trim(s) == s
  {
    if |s| > 0 {
      assert !IsJsWhitespace(s[0]);
      assert !IsJsWhitespace(s[|s| - 1]);
    }
    TrimStartKeeps(s);
    TrimEndKeeps(s);
  }

  lemma TrimStartKeeps(s: string)
    requires |s| == 0 || !IsJsWhitespace(s[0])
    ensures TrimStart(s) == s
  {
    assert LeadingSpace(s) == 0;
  }

  lemma TrimEndKeeps(s: string)
    requires |s| == 0 || !IsJsWhitespace(s[|s| - 1])
    ensures TrimEnd(s) == s
  {
    assert TrailingSpace(s) == 0;
  }
}

=== FILE: tracking.dfy ===
/** `trackLocation` of the location controller: one location sample in, zero or
    one ENTER/EXIT attendance row out. The containment query, the user's most
    recent attendance row and the local clock are inputs; the decision is a
    pure function of them. */
module Tracking {
  import opened Common
  import opened Text
  import opened WorkingWindow

  /** A row of the containment query: an active geofence of the user's company
      whose circle contains the point, in the order the query returned them. */
  datatype Zone = Zone(id: nat, name: string, workingHours: Option<WorkingHours>, workingDays: Option<seq<string>>)

  /** An attendance row as the controller writes it; only `kind` and
      `geofence` are read back as the user's last event. */
  datatype Event = Event(kind: EventType, geofence: nat, isWorkingHours: bool, isWorkingDay: bool)

  /** The working flags and the diagnostic reason computed in step 4. */
  datatype Flags = Flags(isWorkingHours: bool, isWorkingDay: bool, reason: Option<string>)

  datatype TrackResponse =
    | Unauthorized
    | MissingCoordinates
    | ServerError
    | Tracked(event: Option<Event>, insideGeofences: seq<string>,
              isWorkingHours: bool, isWorkingDay: bool, reason: Option<string>)

  /** The outcome of one request and whether the raw location row was stored. */
  datatype TrackResult = TrackResult(response: TrackResponse, locationSaved: bool)

  function StatusCode(r: TrackResponse): int
  {
    match r
    case Unauthorized => 401
    case MissingCoordinates => 400
    case ServerError => 500
    case Tracked(_, _, _, _, _) => 200
  }

  /** `latitude && longitude` in JavaScript: a missing coordinate and a
      coordinate of exactly 0 are both falsy. */
  predicate CoordinatesPresent(lat: Option<real>, lng: Option<real>)
  {
    lat.Some? && lat.value != 0.0 && lng.Some? && lng.value != 0.0
  }

  function OutsideHoursReason(start: string, end: string): string
  {
    "Outside working hours (" + start + " - " + end + ")"
  }

  function NotWorkingDayReason(d: Weekday): string
  {
    "Not a working day (" + DayNames[d] + ")"
  }

  /** Step 4: the working flags of the first containing geofence (both true
      when none contains the point). `None` is the exception the source raises
      on a `working_hours` object without `start` or `end`. */
  function WorkingFlags(inside: seq<Zone>, now: LocalTime): (r: Option<Flags>)
    ensures |inside| == 0 ==> r == Some(Flags(true, true, None))
    ensures r.Some? ==> (r.value.reason.None? <==> r.value.isWorkingHours && r.value.isWorkingDay)
    ensures r.Some? && !r.value.isWorkingDay ==> r.value.reason == Some(NotWorkingDayReason(now.weekday))
  {
    if |inside| == 0 then Some(Flags(true, true, None))
    else
      var g := inside[0];
      match HoursPermissive(now.minute, g.workingHours)
      case None => None
      case Some(inHours) =>
        var hoursReason :=
          if inHours then None
          else Some(OutsideHoursReason(g.workingHours.value.start.value, g.workingHours.value.end.value));
        var onDay := DaysPermissive(now.weekday, g.workingDays);
        Some(Flags(inHours, onDay, if onDay then hoursReason else Some(NotWorkingDayReason(now.weekday))))
  }

  /** Step 5's `shouldCreateEnter`. */
  predicate ShouldEnter(g: Zone, last: Option<Event>)
  {
    || last.None?
    || last.value.kind == Exit
    || (last.value.kind == Enter && last.value.geofence != g.id)
  }

  /** Step 5: the row to write, if any. */
  function Transition(inside: seq<Zone>, last: Option<Event>, flags: Flags): Option<Event>
  {
    if |inside| > 0 then
      if ShouldEnter(inside[0], last) && flags.isWorkingHours && flags.isWorkingDay
      then Some(Event(Enter, inside[0].id, flags.isWorkingHours, flags.isWorkingDay))
      else None
    else if last.Some? && last.value.kind == Enter then
      Some(Event(Exit, last.value.geofence, flags.isWorkingHours, flags.isWorkingDay))
    else None
  }

  function Names(inside: seq<Zone>): (names: seq<string>)
    ensures |names| == |inside|
    ensures forall i :: 0 <= i < |inside| ==> names[i] == inside[i].name
  {
    if |inside| == 0 then [] else [inside[0].name] + Names(inside[1..])
  }

  /** The whole request. `authenticated` is whether the token decoded; the
      location row is stored as soon as the coordinates pass the check. */
  function TrackLocation(authenticated: bool, lat: Option<real>, lng: Option<real>,
                         inside: seq<Zone>, last: Option<Event>, now: LocalTime): (r: TrackResult)
    ensures r.locationSaved <==> authenticated && CoordinatesPresent(lat, lng)
    ensures r.response == MissingCoordinates <==> authenticated && !CoordinatesPresent(lat, lng)
    ensures r.response.Tracked? ==> r.response.insideGeofences == Names(inside)
    ensures r.response.Tracked? && r.response.event.Some? ==> r.response.reason.None?
  {
    if !authenticated then TrackResult(Unauthorized, false)
    else if !CoordinatesPresent(lat, lng) then TrackResult(MissingCoordinates, false)
    else
      match WorkingFlags(inside, now)
      case None => TrackResult(ServerError, true)
      case Some(flags) =>
        var event := Transition(inside, last, flags);
        TrackResult(
          Tracked(event, Names(inside), flags.isWorkingHours, flags.isWorkingDay,
                  if event.Some? then None else flags.reason),
          true)
  }

  /** The row a response reports as written. */
  function Emitted(r: TrackResponse): Option<Event>
  {
    if r.Tracked? then r.event else None
  }

  // ----- Properties of one request -----

  /** ENTER for `g` is written exactly when `g` is the first containing
      geofence, the last event is absent, an EXIT or an ENTER elsewhere, and
      both working checks pass. */
  lemma EnterIff(lat: Option<real>, lng: Option<real>, inside: seq<Zone>, last: Option<Event>,
                 now: LocalTime, g: nat)
    requires CoordinatesPresent(lat, lng)
    ensures (exists e :: Emitted(TrackLocation(true, lat, lng, inside, last, now).response) == Some(e)
                         && e.kind == Enter && e.geofence == g)
            <==>
            && |inside| > 0
            && inside[0].id == g
            && (last.None? || last.value.kind == Exit || last.value.geofence != g)
            && HoursPermissive(now.minute, inside[0].workingHours) == Some(true)
            && DaysPermissive(now.weekday, inside[0].workingDays)
  {
    var r := TrackLocation(true, lat, lng, inside, last, now);
    if |inside| > 0 && inside[0].id == g && (last.None? || last.value.kind == Exit || last.value.geofence != g)
       && HoursPermissive(now.minute, inside[0].workingHours) == Some(true)
       && DaysPermissive(now.weekday, inside[0].workingDays) {
      assert Emitted(r.response) == Some(Event(Enter, g, true, true));
    }
  }

  /** A sample inside the geofence of the open ENTER writes nothing, whatever the clock says. */
  lemma SameGeofenceIsIdempotent(lat: Option<real>, lng: Option<real>, inside: seq<Zone>,
                                 g: nat, wh: bool, wd: bool, now: LocalTime)
    requires |inside| > 0 && inside[0].id == g
    ensures Emitted(TrackLocation(true, lat, lng, inside, Some(Event(Enter, g, wh, wd)), now).response) == None
  {
  }

  /** Outside every geofence with an open ENTER, an EXIT for that ENTER's
      geofence is written at any time of day, carrying both flags true;
      with no open ENTER nothing is written. */
  lemma ExitIsUnconditional(lat: Option<real>, lng: Option<real>, last: Option<Event>, now: LocalTime)
    requires CoordinatesPresent(lat, lng)
    ensures last.Some? && last.value.kind == Enter ==>
              Emitted(TrackLocation(true, lat, lng, [], last, now).response)
                == Some(Event(Exit, last.value.geofence, true, true))
    ensures (last.None? || last.value.kind == Exit) ==>
              Emitted(TrackLocation(true, lat, lng, [], last, now).response) == None
  {
  }

  /** Only the first containing geofence matters: dropping the others changes
      nothing but the reported names. */
  lemma FirstZoneDecides(lat: Option<real>, lng: Option<real>, inside: seq<Zone>,
                         last: Option<Event>, now: LocalTime)
    requires |inside| > 0
    ensures var full := TrackLocation(true, lat, lng, inside, last, now).response;
            var first := TrackLocation(true, lat, lng, [inside[0]], last, now).response;
            && Emitted(full) == Emitted(first)
            && (full.Tracked? <==> first.Tracked?)
            && (full.Tracked? ==>
                  full.isWorkingHours == first.isWorkingHours
                  && full.isWorkingDay == first.isWorkingDay
                  && full.reason == first.reason)
  {
  }

  /** When both working checks fail, the reason names the day, not the hours. */
  lemma BothChecksFailReasonNamesDay(lat: Option<real>, lng: Option<real>, inside: seq<Zone>,
                                     last: Option<Event>, now: LocalTime)
    requires CoordinatesPresent(lat, lng)
    requires |inside| > 0
    requires HoursPermissive(now.minute, inside[0].workingHours) == Some(false)
    requires !DaysPermissive(now.weekday, inside[0].workingDays)
    ensures TrackLocation(true, lat, lng, inside, last, now).response
            == Tracked(None, Names(inside), false, false, Some(NotWorkingDayReason(now.weekday)))
  {
  }

  /** Every written row carries `true` for both flags: ENTER needs both, and
      EXIT is written only when no geofence contains the point, where the
      flags keep their initial `true`. */
  lemma WrittenRowsAreFlaggedWorking(lat: Option<real>, lng: Option<real>, inside: seq<Zone>,
                                     last: Option<Event>, now: LocalTime)
    ensures var e := Emitted(TrackLocation(true, lat, lng, inside, last, now).response);
            e.Some? ==> e.value.isWorkingHours && e.value.isWorkingDay
  {
  }

  // ----- Folding over a trace of samples -----

  datatype Sample = Sample(lat: Option<real>, lng: Option<real>, inside: seq<Zone>, now: LocalTime)

  /** The rows written when an authenticated user's samples are processed in
      order, each written row becoming the next sample's last event. */
  function Replay(samples: seq<Sample>, last: Option<Event>): seq<Event>
    decreases |samples|
  {
    if |samples| == 0 then []
    else
      var s := samples[0];
      match Emitted(TrackLocation(true, s.lat, s.lng, s.inside, last, s.now).response)
      case Some(e) => [e] + Replay(samples[1..], Some(e))
      case None => Replay(samples[1..], last)
  }

  /** A row is a legal successor of `prev`: an EXIT closes an ENTER for the
      same geofence, and an ENTER never repeats the open ENTER's geofence. */
  predicate Follows(prev: Option<Event>, e: Event)
  {
    && (e.kind == Exit ==> prev.Some? && prev.value.kind == Enter && prev.value.geofence == e.geofence)
    && (e.kind == Enter ==> !(prev.Some? && prev.value.kind == Enter && prev.value.geofence == e.geofence))
  }

  function Before(init: Option<Event>, log: seq<Event>, i: nat): Option<Event>
    requires i <= |log|
  {
    if i == 0 then init else Some(log[i - 1])
  }

  predicate Alternates(init: Option<Event>, log: seq<Event>)
  {
    forall i :: 0 <= i < |log| ==> Follows(Before(init, log, i), log[i])
  }

  lemma StepFollows(s: Sample, last: Option<Event>)
    ensures var e := Emitted(TrackLocation(true, s.lat, s.lng, s.inside, last, s.now).response);
            e.Some? ==> Follows(last, e.value)
  {
  }

  lemma ConsAlternates(init: Option<Event>, e: Event, rest: seq<Event>)
    requires Follows(init, e) && Alternates(Some(e), rest)
    ensures Alternates(init, [e] + rest)
  {
    var log := [e] + rest;
    forall i | 0 <= i < |log|
      ensures Follows(Before(init, log, i), log[i])
    {
      if i > 0 {
        assert log[i] == rest[i - 1];
        assert Before(init, log, i) == Before(Some(e), rest, i - 1);
      }
    }
  }

  /** Whatever the samples, the rows written alternate properly. */
  lemma {:induction false} ReplayAlternates(samples: seq<Sample>, last: Option<Event>)
    ensures Alternates(last, Replay(samples, last))
    decreases |samples|
  {
    if |samples| > 0 {
      var s := samples[0];
      StepFollows(s, last);
      var e := Emitted(TrackLocation(true, s.lat, s.lng, s.inside, last, s.now).response);
      ReplayAlternates(samples[1..], if e.Some? then e else last);
      if e.Some? {
        ConsAlternates(last, e.value, Replay(samples[1..], e));
      }
    }
  }

  /** The key invariant: no two consecutive ENTERs for the same geofence, and
      every EXIT carries the geofence of the ENTER right before it. */
  lemma ReplayNeverDoubleEnters(samples: seq<Sample>)
    ensures var log := Replay(samples, None);
            && (forall i :: 0 < i < |log| && log[i - 1].kind == Enter && log[i].kind == Enter
                  ==> log[i - 1].geofence != log[i].geofence)
            && (forall i :: 0 <= i < |log| && log[i].kind == Exit
                  ==> i > 0 && log[i - 1].kind == Enter && log[i - 1].geofence == log[i].geofence)
  {
    ReplayAlternates(samples, None);
    AlternatingLog(Replay(samples, None));
  }

  lemma AlternatingLog(log: seq<Event>)
    requires Alternates(None, log)
    ensures forall i :: 0 < i < |log| && log[i - 1].kind == Enter && log[i].kind == Enter
              ==> log[i - 1].geofence != log[i].geofence
    ensures forall i :: 0 <= i < |log| && log[i].kind == Exit
              ==> i > 0 && log[i - 1].kind == Enter && log[i - 1].geofence == log[i].geofence
  {
    forall i | 0 <= i < |log|
      ensures Follows(Before(None, log, i), log[i])
    {
    }
  }

  /** Repeated samples inside the geofence of the open ENTER never write another row. */
  lemma {:induction false} ReplayInsideIsQuiet(samples: seq<Sample>, open: Event)
    requires open.kind == Enter
    requires forall k :: 0 <= k < |samples| ==> |samples[k].inside| > 0 && samples[k].inside[0].id == open.geofence
    ensures Replay(samples, Some(open)) == []
    decreases |samples|
  {
    if |samples| > 0 {
      ReplayInsideIsQuiet(samples[1..], open);
    }
  }
}

=== FILE: working_window.dfy ===
/** The working-window policy: the `HH:MM` grammar geofence configuration is
    validated against, how an `HH:MM` string is read as minutes since midnight,
    and the two variants of the working-hours/working-day test found in the
    code. The attendance routes treat missing configuration as "never"
    (strict); the location controller treats it as "always" (permissive). */
module WorkingWindow {
  import opened Common
  import opened Text

  /** Minutes since local midnight. */
  type Minute = m: int | 0 <= m < 1440

  /** `Date.getDay()`: 0 is Sunday. */
  type Weekday = d: int | 0 <= d < 7

  /** The local wall-clock reading of an instant. Converting an instant to
      local time is done by the runtime and is an input here. */
  datatype LocalTime = LocalTime(minute: Minute, weekday: Weekday)

  /** Weekday names indexed by `Date.getDay()`; also what
      `toLocaleDateString('en-US', {weekday: 'long'})` produces. */
  const DayNames: seq<string> :=
    ["Sunday", "Monday", "Tuesday", "Wednesday", "Thursday", "Friday", "Saturday"]

  /** A geofence's `workingHours: {start, end}`; each string may be absent. */
  datatype WorkingHours = WorkingHours(start: Option<string>, end: Option<string>)

  /** `Number(s)` on the strings this model covers: white space is trimmed, an
      empty string is 0, a run of decimal digits is its value. `None` stands
      for `NaN`, which every comparison rejects. */
  function JsNumber(s: string): (r: Option<nat>)
    ensures NoWhitespace(s) && AllDigits(s) ==> r == Some(DecimalValue(s))
  {
    var t := Trim(s);
    TrimNoWhitespaceIfClean(s);
    if AllDigits(t) then Some(DecimalValue(t)) else None
  }

  lemma TrimNoWhitespaceIfClean(s: string)
    ensures NoWhitespace(s) ==> Trim(s) == s
  {
    if NoWhitespace(s) {
      TrimNoWhitespace(s);
    }
  }

  /** `const [h, m] = s.split(':').map(Number); h * 60 + m`. Fewer than two
      parts leaves `m` undefined and the sum `NaN`; parts past the second are
      ignored. */
  function ParseClock(s: string): Option<int>
  {
    ClockOfParts(Split(s, ':'))
  }

  /** `h * 60 + m` over the first two parts of the split, each read by `Number`. */
  function ClockOfParts(parts: seq<string>): Option<int>
  {
    if |parts| < 2 then None
    else
      var h := JsNumber(parts[0]);
      var m := JsNumber(parts[1]);
      if h.Some? && m.Some? then Some(h.value * 60 + m.value) else None
  }

  /** `currentTime >= startTime && currentTime <= endTime` with both ends read
      by `ParseClock`; a `NaN` end makes the comparison false. */
  predicate InWindow(t: Minute, start: string, end: string)
  {
    match (ParseClock(start), ParseClock(end))
    case (Some(s), Some(e)) => s <= t <= e
    case _ => false
  }

  // ----- The `HH:MM` grammar `^([0-1]?[0-9]|2[0-3]):[0-5][0-9]$` -----

  /** `[0-1]?[0-9]|2[0-3]`: one digit, or two digits from 00 to 23. */
  predicate IsHourField(h: string)
  {
    || (|h| == 1 && IsDigit(h[0]))
    || (|h| == 2 && (h[0] == '0' || h[0] == '1') && IsDigit(h[1]))
    || (|h| == 2 && h[0] == '2' && '0' <= h[1] <= '3')
  }

  /** `[0-5][0-9]`. */
  predicate IsMinuteField(m: string)
  {
    |m| == 2 && '0' <= m[0] <= '5' && IsDigit(m[1])
  }

  /** The whole string matches: the hour field, a colon, then exactly two minute digits. */
  predicate IsTimePattern(s: string)
  {
    |s| >= 4 && s[|s| - 3] == ':' && IsHourField(s[..|s| - 3]) && IsMinuteField(s[|s| - 2..])
  }

  lemma OneDigitValue(h: string)
    requires |h| == 1 && IsDigit(h[0])
    ensures DecimalValue(h) == DigitValue(h[0])
  {
    assert h[..0] == [];
  }

  lemma TwoDigitValue(h: string)
    requires |h| == 2 && AllDigits(h)
    ensures DecimalValue(h) == 10 * DigitValue(h[0]) + DigitValue(h[1])
  {
    OneDigitValue(h[..1]);
  }

  lemma HourFieldBound(h: string)
    requires IsHourField(h)
    ensures AllDigits(h) && DecimalValue(h) <= 23
  {
    if |h| == 1 {
      OneDigitValue(h);
    } else {
      TwoDigitValue(h);
    }
  }

  /** The minute value a matching string denotes, read straight off its digits. */
  function PatternMinutes(s: string): (m: int)
    requires IsTimePattern(s)
    ensures 0 <= m <= 1439
  {
    var h := s[..|s| - 3];
    var mm := s[|s| - 2..];
    HourFieldBound(h);
    TwoDigitValue(mm);
    DecimalValue(h) * 60 + DecimalValue(mm)
  }

  lemma DigitsAreNotWhitespace(s: string)
    requires AllDigits(s)
    ensures NoWhitespace(s)
  {
  }

  /** Reading the first two parts of a split as numbers gives `h * 60 + m`. */
  lemma ParseClockOfParts(s: string, h: string, mm: string, a: nat, b: nat)
    requires Split(s, ':') == [h, mm]
    requires JsNumber(h) == Some(a) && JsNumber(mm) == Some(b)
    ensures ParseClock(s) == Some(a * 60 + b)
  {
    assert ParseClock(s) == ClockOfParts([h, mm]);
    ClockOfTwoParts(h, mm, a, b);
  }

  lemma ClockOfTwoParts(h: string, mm: string, a: nat, b: nat)
    requires JsNumber(h) == Some(a) && JsNumber(mm) == Some(b)
    ensures ClockOfParts([h, mm]) == Some(a * 60 + b)
  {
  }

  lemma DigitsNumber(h: string)
    requires AllDigits(h)
    ensures JsNumber(h) == Some(DecimalValue(h))
  {
    DigitsAreNotWhitespace(h);
  }

  lemma JoinTwo(h: string, mm: string)
    ensures Join([h, mm], ':') == h + [':'] + mm
  {
    assert [h, mm][1..] == [mm];
  }

  /** Two colon-free fields around one colon split into exactly those fields. */
  lemma SplitTwoFields(h: string, mm: string)
    requires ':' !in h && ':' !in mm
    ensures Split(h + [':'] + mm, ':') == [h, mm]
  {
    JoinTwo(h, mm);
    SplitJoin([h, mm], ':');
  }

  lemma FieldsHaveNoColon(h: string, mm: string)
    requires IsHourField(h) && IsMinuteField(mm)
    ensures ':' !in h && ':' !in mm
  {
    assert forall i :: 0 <= i < |h| ==> h[i] != ':';
    assert forall i :: 0 <= i < |mm| ==> mm[i] != ':';
  }

  /** A matching string splits at its one colon into the hour and minute fields. */
  lemma PatternSplit(s: string)
    requires IsTimePattern(s)
    ensures Split(s, ':') == [s[..|s| - 3], s[|s| - 2..]]
  {
    var h := s[..|s| - 3];
    var mm := s[|s| - 2..];
    assert s == h + [':'] + mm;
    FieldsHaveNoColon(h, mm);
    SplitTwoFields(h, mm);
  }

  /** `Number` reads both fields of a matching string as their digit values. */
  lemma PatternNumbers(s: string)
    requires IsTimePattern(s)
    ensures JsNumber(s[..|s| - 3]).Some? && JsNumber(s[|s| - 2..]).Some?
    ensures JsNumber(s[..|s| - 3]).value * 60 + JsNumber(s[|s| - 2..]).value == PatternMinutes(s)
  {
    var h := s[..|s| - 3];
    var mm := s[|s| - 2..];
    HourFieldBound(h);
    assert AllDigits(mm);
    DigitsNumber(h);
    DigitsNumber(mm);
  }

  /** Every string the grammar accepts is read by the `split(':')` parser as a
      minute of the day, 0 to 1439, equal to the value of its digits. */
  lemma PatternParses(s: string)
    requires IsTimePattern(s)
    ensures ParseClock(s) == Some(PatternMinutes(s))
    ensures 0 <= ParseClock(s).value <= 1439
  {
    var h := s[..|s| - 3];
    var mm := s[|s| - 2..];
    PatternSplit(s);
    PatternNumbers(s);
    ParseClockOfParts(s, h, mm, JsNumber(h).value, JsNumber(mm).value);
  }

  /** Writes a minute of the day as `H:MM` (hour without a leading zero). */
  function FormatClock(m: Minute): string
  {
    NatToString(m / 60) + ":" + [DigitChar((m % 60) / 10), DigitChar((m % 60) % 10)]
  }

  lemma HourRendering(h: nat)
    requires h <= 23
    ensures IsHourField(NatToString(h))
  {
    if h >= 10 {
      assert NatToString(h) == NatToString(h / 10) + [DigitChar(h % 10)];
      assert NatToString(h / 10) == [DigitChar(h / 10)];
    }
  }

  lemma FormatClockShape(m: Minute)
    ensures var s := FormatClock(m);
      && |s| >= 4
      && s[..|s| - 3] == NatToString(m / 60)
      && s[|s| - 3] == ':'
      && s[|s| - 2..] == [DigitChar((m % 60) / 10), DigitChar((m % 60) % 10)]
  {
  }

  lemma MinuteDigits(r: int)
    requires 0 <= r < 60
    ensures r / 10 <= 5 && 10 * (r / 10) + r % 10 == r
  {
  }

  lemma FormatClockValue(m: Minute)
    ensures IsTimePattern(FormatClock(m))
    ensures PatternMinutes(FormatClock(m)) == m
  {
    var h := m / 60;
    var r := m % 60;
    assert m == h * 60 + r;
    MinuteDigits(r);
    var hh := NatToString(h);
    var mm := [DigitChar(r / 10), DigitChar(r % 10)];
    var s := FormatClock(m);
    FormatClockShape(m);
    HourRendering(h);
    assert IsMinuteField(mm);
    assert IsTimePattern(s);
    DecimalRoundTrip(h);
    TwoDigitValue(mm);
    assert PatternMinutes(s) == DecimalValue(hh) * 60 + DecimalValue(mm);
  }

  /** Every minute of the day has an accepted spelling that reads back as that minute. */
  lemma FormatClockRoundTrip(m: Minute)
    ensures IsTimePattern(FormatClock(m))
    ensures ParseClock(FormatClock(m)) == Some(m)
  {
    FormatClockValue(m);
    PatternParses(FormatClock(m));
  }

  /** The grammar's boundary cases. */
  lemma PatternExamples()
    ensures IsTimePattern("00:00") && IsTimePattern("9:05") && IsTimePattern("23:59")
    ensures IsTimePattern("19:30") && IsTimePattern("09:00")
    ensures !IsTimePattern("24:00") && !IsTimePattern("9:60") && !IsTimePattern("9:5")
    ensures !IsTimePattern("") && !IsTimePattern("123:00") && !IsTimePattern("09-00")
  {
    assert "00:00"[..2] == "00";
    assert "9:05"[..1] == "9";
    assert "23:59"[..2] == "23";
    assert "19:30"[..2] == "19";
    assert "09:00"[..2] == "09";
    assert "24:00"[..2] == "24";
    assert "9:60"[2..] == "60";
    assert "123:00"[..3] == "123";
  }

  // ----- Strict variant: routes/attendance.js -----

  /** `isWithinWorkingHours`: false unless both ends are configured (a falsy
      `start` or `end` counts as missing); inclusive at both ends. */
  predicate WithinWorkingHours(t: Minute, hours: Option<WorkingHours>)
  {
    && hours.Some?
    && Truthy(hours.value.start)
    && Truthy(hours.value.end)
    && InWindow(t, hours.value.start.value, hours.value.end.value)
  }

  /** `isWorkingDay`: false for a missing or empty list, otherwise membership of the weekday's name. */
  predicate IsWorkingDay(d: Weekday, days: Option<seq<string>>)
  {
    days.Some? && |days.value| > 0 && DayNames[d] in days.value
  }

  // ----- Permissive variant: the location controller -----

  /** The controller's inline working-hours check. An absent `working_hours`
      means in hours. A present object without a `start` or `end` string makes
      the source throw on `split`; that outcome is `None`. */
  function HoursPermissive(t: Minute, hours: Option<WorkingHours>): (r: Option<bool>)
    ensures r == Some(false) ==> hours.Some? && hours.value.start.Some? && hours.value.end.Some?
  {
    if hours.None? then Some(true)
    else if hours.value.start.None? || hours.value.end.None? then None
    else Some(InWindow(t, hours.value.start.value, hours.value.end.value))
  }

  /** The controller's inline working-day check: applies only to a non-empty list. */
  predicate DaysPermissive(d: Weekday, days: Option<seq<string>>)
  {
    days.Some? && |days.value| > 0 ==> DayNames[d] in days.value
  }

  // ----- Properties -----

  /** With both ends spelled in the accepted grammar, the strict test is
      exactly "start <= t <= end" in minutes, inclusive at both ends. */
  lemma StrictWindowInclusive(t: Minute, start: string, end: string)
    requires IsTimePattern(start) && IsTimePattern(end)
    ensures WithinWorkingHours(t, Some(WorkingHours(Some(start), Some(end))))
            <==> PatternMinutes(start) <= t <= PatternMinutes(end)
  {
    PatternParses(start);
    PatternParses(end);
  }

  /** A window from 0:00 to 23:59 accepts every minute of the day. */
  lemma FullDayWindow(t: Minute, start: string, end: string)
    requires IsTimePattern(start) && IsTimePattern(end)
    requires PatternMinutes(start) == 0 && PatternMinutes(end) == 1439
    ensures WithinWorkingHours(t, Some(WorkingHours(Some(start), Some(end))))
  {
    StrictWindowInclusive(t, start, end);
  }

  /** The "00:00"-"23:59" configuration is such a window. */
  lemma AllDayBounds()
    ensures IsTimePattern("00:00") && IsTimePattern("23:59")
    ensures PatternMinutes("00:00") == 0 && PatternMinutes("23:59") == 1439
  {
    PatternExamples();
    assert "00:00"[..2] == "00" && "00:00"[3..] == "00";
    assert "23:59"[..2] == "23" && "23:59"[3..] == "59";
    TwoDigitValue("00");
    TwoDigitValue("23");
    TwoDigitValue("59");
  }

  /** Missing configuration: the strict variant says "never", the permissive one "always". */
  lemma MissingConfigurationDiffers(t: Minute, d: Weekday, days: Option<seq<string>>)
    requires days.None? || |days.value| == 0
    ensures !WithinWorkingHours(t, None) && HoursPermissive(t, None) == Some(true)
    ensures !IsWorkingDay(d, days) && DaysPermissive(d, days)
  {
  }

  /** Fully configured: the two variants agree. */
  lemma ConfiguredVariantsAgree(t: Minute, d: Weekday, start: string, end: string, days: seq<string>)
    requires |start| > 0 && |end| > 0 && |days| > 0
    ensures HoursPermissive(t, Some(WorkingHours(Some(start), Some(end))))
            == Some(WithinWorkingHours(t, Some(WorkingHours(Some(start), Some(end)))))
    ensures DaysPermissive(d, Some(days)) == IsWorkingDay(d, Some(days))
  {
  }

  /** The seven weekday names are distinct, so a list naming one day selects exactly that weekday. */
  lemma SingleDaySelectsOneWeekday(d: Weekday, k: Weekday)
    ensures IsWorkingDay(d, Some([DayNames[k]])) <==> d == k
  {
    assert DayNames[d] in [DayNames[k]] <==> DayNames[d] == DayNames[k];
    assert DayNames[0][0] == 'S' && DayNames[6][0] == 'S' && DayNames[0][1] == 'u' && DayNames[6][1] == 'a';
    assert DayNames[2][0] == 'T' && DayNames[4][0] == 'T' && DayNames[2][1] == 'u' && DayNames[4][1] == 'h';
  }
}
